=== FILE: README.md ===
# Image-Scrapper-Advanced download pipeline, in Dafny

This project models the decision logic of the download pipeline of the Go
program Image-Scrapper-Advanced and proves properties of it. Each model is a
pure function. The network, the file system, the clock, randomness, the
HTML parser and URL resolution become parameters, supplied per attempt
where the source loops.

The modules:

- `Retry`: `DownloadFile` of internal/downloader.go. It makes up to five
  attempts. Before every retry it sleeps a linear backoff plus jitter. A
  throttling status with a usable `Retry-After` adds an extra sleep.
  Inline `data:image/` URLs are written without a request. A fetched file
  under 50 KiB is deleted and retried.
- `Escalation`: `AdvancedDownloadFile`, `downloadWithChromedp` and
  `AdvancedDownloadFileWithStats` of internal/downloader.go. It makes three
  attempts. It switches to unverified TLS once, when an HTTPS URL is
  answered in plain HTTP. It pauses after network errors and bad statuses,
  applies a 10 KiB floor, and hands over to the headless-browser tier when
  the last attempt gets 403.
- `Batch`: `DownloadImagesAdvancedBatch`. It covers the tasks and their
  1-based indices, the 1200 ms per-domain throttle, error classification,
  the per-task records and the printed summary.
- `ImageDownload`: `DownloadFile` of internal/image/downloader.go, the
  single-attempt downloader. It is proved to be exactly one iteration of
  `Retry`.
- `Fanout`: both `DownloadFilesConcurrently` wrappers. The count they
  print equals the number of calls that succeeded. No two calls of one
  batch store under the same name.
- `Extractor`: `ExtractImageURLs` of internal/image/extractor.go, over an
  abstract document (a sequence of elements). Image links of `<a>`
  elements come first, deduplicated. Then come `<img>` candidates that are
  not shadowed by an already collected file name.
- `Scraper`: `Scrape` of scraper.go. It collects image and video URLs into
  a set.
- `RootDownload`: `Download` of downloader.go. It names the file after the
  URL path, with a fallback, and probes once for an existing file.
- Shared pieces:
  - `Attempts` (exchanges, save outcomes, runs, `Retry-After`);
  - `Naming` (extension rules, `file_<hex>_<%03d><ext>` names and their
    parser, the root downloader's name);
  - `DataUri` (the `^data:image/(\w+);base64,(.*)$` pattern and decoding);
  - `Codec` (hex, `%03d`, `strconv.Atoi`, `int64` wrap-around, base64 as
    section 4 of RFC 4648 defines it);
  - `Text` and `Paths` (Go's `strings`, `filepath.Ext` and `path.Base`);
  - `Wrappers` (`Option` and `Result`).

Behaviour of the code worth noting, all of it modelled:

- Any status outside [200, 400) is retried by both retrying loops, 4xx
  included.
- A `Retry-After` sleep is taken in addition to the next backoff. It does
  not replace the backoff.
- The TLS relaxation is triggered only by the error text "server gave HTTP
  response to HTTPS client", and only on the first attempt.
- The throttle key is `u.Host` without the scheme.
- The cookie-priming visit happens on every call, not once per origin.
- The browser tier has no size floor.
- A write that fails after `os.Create` leaves its partial file on disk in
  both retrying loops; only an undersized file is removed. Listed under
  Findings.
- A success through the browser tier is reported as "basic", and the
  printed error count is the number of distinct error classes. Both are
  listed under Findings.

## Model

| member | source | states |
|---|---|---|
| Attempts.RetryAfterNs | internal/downloader.go:341-346 | a sleep happens only when `strconv.Atoi` accepts the header and the wrapped `int64` duration is positive; a value that fits is seconds times 10^9 ns |
| Attempts.RetryAfterTwoSeconds | internal/downloader.go:342-345 | `Retry-After: 2` sleeps exactly two seconds |
| Attempts.RetryAfterOverflow | internal/downloader.go:344 | a seconds value whose nanoseconds overflow `int64` wraps negative and causes no sleep |
| Attempts.RetryAfterIgnored | internal/downloader.go:342-345 | example: a negative value and the HTTP-date form of the header cause no sleep |
| Attempts.ThrottleStatusIsBad | internal/downloader.go:339-352 | every throttling status (429, 403, 5xx) is also outside [200, 400) |
| Attempts.AbandonedListed | internal/downloader.go:392-396 | for either downloader's per-iteration record of the file it left behind, a name is among the files abandoned by the first n iterations exactly when one of them abandoned it |
| Attempts.AbandonedNone | internal/downloader.go:217-221 | for either downloader, no file is abandoned by the first n iterations exactly when none of them abandoned one |
| Codec.HexRoundTrip | internal/downloader.go:207-209 | the hex text of the random bytes decodes back to those bytes |
| Codec.Pad3Digits | internal/downloader.go:385 | `%03d` of a non-negative index is at least three digits, exactly three below 1000, and reads back as the index |
| Codec.Pad3Negative | internal/downloader.go:385 | `%03d` of a negative index is a minus sign and at least two digits |
| Codec.AtoiOfDecimal | internal/downloader.go:343 | `strconv.Atoi` reads back every `int64` printed in decimal |
| Codec.WrapInt64 | internal/downloader.go:344 | the result is an `int64` congruent to the input modulo 2^64, and equal to it when it already fits |
| Codec.Base64RoundTrip | internal/downloader.go:302 | standard padded base64 decoding inverts encoding for every byte string |
| Codec.Base64Decode | internal/downloader.go:302 | a decoded payload has whole four-character quanta after line breaks are dropped, and at most three bytes per quantum |
| DataUri.Parse | internal/downloader.go:296-301 | a match is a non-empty word-character format and a payload without a line feed that render back to the URL |
| DataUri.ParseRender | internal/downloader.go:296-301 | every well-formed format and payload pair is matched with the same groups, so a URL matches exactly when it renders a well-formed pair |
| DataUri.Decode | internal/downloader.go:296-305 | a URL that does not match fails with "invalid data url format"; a payload that is not base64 fails; a success is "." plus the format and the decoded payload |
| DataUri.DecodeEncoded | internal/image/downloader.go:21-32 | any bytes rendered as an inline image decode back to the same bytes, with the format as extension |
| Naming.TableExtensionsShort | internal/downloader.go:358-369 | every extension in the media-type table is a dotted name of four or five bytes other than `.bin` |
| Naming.ContentTypeExt | internal/downloader.go:371-383 | the extension is `.bin` or one of the table's extensions |
| Naming.ContentTypeWithParameters | internal/downloader.go:373-377 | parameters after `;` in a Content-Type do not change the table lookup |
| Naming.ContentTypeUnknown | internal/downloader.go:378-383 | an absent header or an unknown media type gives `.bin` |
| Naming.ChooseExtension | internal/downloader.go:356-384 | the extension is always dotted and at most ten bytes; it is the URL's own exactly when that one is 1 to 10 bytes long and not `.bin`, and otherwise it comes from the Content-Type |
| Naming.BrowserExtension | internal/downloader.go:263-266 | the escalating rule keeps the URL's extension exactly when it is 1 to 10 bytes long, and gives `.jpg` otherwise |
| Naming.BinUrlRules | internal/downloader.go:203-206 | on a `.bin` URL the escalating rule keeps `.bin` while the direct rule asks the Content-Type |
| Naming.FileName | internal/downloader.go:385 | a name starts with `file_`, has eight lower-hex digits then `_`, and ends with the extension |
| Naming.FileNameRoundTrip | internal/downloader.go:385 | a name made for a non-negative index, with an extension that does not start with a digit, reads back into its random bytes, its index and its extension |
| Naming.FileNamesDistinct | internal/downloader.go:385 | names made for different non-negative indices, with one extension that does not start with a digit, differ whatever random bytes were drawn |
| Naming.RootFileName | downloader.go:28-31 | the root downloader's name is non-empty and holds no `/` |
| Naming.RootFileNameFallback | downloader.go:28-31 | an empty or all-slash path takes the `file_` fallback with `/` and `?` replaced; any other path whose last element is not `.` keeps that element |
| Paths.Ext | internal/downloader.go:356 | `filepath.Ext` is a suffix of the path that starts with `.` and holds no `/` and no further `.` |
| Paths.ExtEmptyIff | internal/downloader.go:370 | the extension is empty exactly when the last path element holds no `.` |
| Paths.Base | downloader.go:28 | `path.Base` is "." for an empty path, "/" for slashes only, and otherwise the last element: a slash-free non-empty suffix of the path without its trailing slashes, which either is that whole path or follows a `/` |
| Paths.BaseOfElement | downloader.go:28 | a path that ends in `/`, a non-empty slash-free name and any number of slashes has that name as its base |
| Text.TrimSpace | internal/image/extractor.go:25 | the result neither starts nor ends with white space, and it is empty exactly when the input is all white space; which slice it is, is stated by `Text.TrimSpaceExact` and `Text.TrimSpacePadded` |
| Text.LeadingSpaces | internal/image/extractor.go:25 | the count of leading white-space characters: all characters before it are white space and the next one, if any, is not |
| Text.TrimSpaceExact | internal/image/extractor.go:25 | the result is the input's slice that starts right after its leading white space, and everything after that slice is white space: only white space is cut, at the two ends |
| Text.TrimSpacePadded | internal/image/extractor.go:25 | white space on both sides of a text that neither starts nor ends with white space is removed and the text itself is kept whole |
| Text.TrimSpaceIdempotent | internal/image/extractor.go:92 | trimming twice is trimming once |
| Text.FirstField | internal/image/extractor.go:89-91 | the first field exists exactly when the text is not all white space, and it is a non-empty, space-free prefix of the left-trimmed text |
| Text.Split | internal/image/extractor.go:88 | `strings.Split` on one separator gives at least one part, no part holds the separator, and joining the parts gives the text back |
| Text.SplitJoin | internal/image/extractor.go:88 | splitting comma-joined comma-free parts gives the parts back |
| Retry.AttemptStep | internal/downloader.go:294-406 | a bad inline URL stops the call at once; an inline write error goes round again with it; a request that cannot be built, a network error, a create or write error (each carrying its error, with no extra sleep) and a file under 50 KiB (with the message naming it) go round again; every bad status goes round again; a good reply whose size is unknown or at least 50 KiB stops with the file stored under the extension rule's name, and only such a file stops a non-inline call; an extra sleep comes only from a throttling status's `Retry-After` |
| Retry.DownloadFile | internal/downloader.go:277-409 | a call makes one to five iterations and never relaxes TLS; each iteration sends one request unless the URL is inline or `http.NewRequest` rejects it, in which case none is sent |
| Retry.DownloadOutcome | internal/downloader.go:285-408 | every iteration but the last went round again; the last one's result is the call's result, or, after five, the error naming the URL and the last error |
| Retry.DownloadWaits | internal/downloader.go:286-293 | the sleeps come in iteration order, and each is the backoff before a retry or the `Retry-After` of a throttling reply |
| Retry.DownloadSleeps | internal/downloader.go:291-293 | every retry was preceded by its backoff, and every throttling reply with a usable header left its `Retry-After` sleep |
| Retry.SizeFloor | internal/downloader.go:398-406 | a fetched file stored with a known size is at least 50 KiB |
| Retry.InlineFailsAtOnce | internal/downloader.go:294-305 | a malformed inline URL fails on the first iteration with no sleep and no request |
| Retry.InlineStored | internal/downloader.go:294-322 | a valid inline URL makes no request, and a stored one carries "." plus the format and the decoded size |
| Retry.BadStatusesExhaust | internal/downloader.go:349-352 | when every reply is a bad status, all five requests are made and the error carries the last status |
| Retry.ThrottledRunsOn | internal/downloader.go:339-348 | throttling replies up to attempt k < 4 never end the call before attempt k + 1 |
| Retry.ThrottleHonoursRetryAfter | internal/downloader.go:339-348 | a throttling reply with a usable header consumes the attempt and sleeps `Retry-After` on top of the next backoff |
| Retry.FirstAttemptStores | internal/downloader.go:353-406 | a first 200 reply whose file reaches 50 KiB is stored at once: one iteration, one request, no sleep |
| Retry.UndersizedRetried | internal/downloader.go:398-405 | a file under 50 KiB is deleted and the attempt retries with a message naming the file |
| Retry.BackoffUncapped | internal/downloader.go:287-290 | within five attempts the ten-second cap never applies: the backoff before attempt a is 500 ms times a + 1 |
| Retry.UnbuildableRequest | internal/downloader.go:324-329 | a URL `http.NewRequest` rejects is never requested: all five iterations go round again and the call fails with that error |
| Retry.Abandoned | internal/downloader.go:311-396 | an iteration leaves a file behind exactly when it created one, for a decodable inline URL or a good reply, and then failed to write it |
| Retry.AbandonedGoesRoundAgain | internal/downloader.go:392-396 | an iteration that leaves a file behind goes round again with the write error and no extra sleep |
| Retry.LeftOnDisk | internal/downloader.go:285-408 | a call leaves the names its iterations abandoned, in order, then the name of the file it returns, and a last name exactly when it succeeds |
| Retry.LeftOnDiskCorrected | internal/downloader.go:398-406 | with a failed write removing its file, a call leaves at most one file, exactly when it succeeds: the one returned, at least 50 KiB when fetched with a known size |
| Retry.LeftOnDiskAsWritten | internal/downloader.go:392-396 | as written, a call leaves its abandoned files on top of the corrected ones, and the two agree exactly when no iteration created a file and then failed to write it |
| Retry.PartialFileKept | internal/downloader.go:392-396 | a failed first write followed by a stored second file leaves two names, the partial file's then the stored one, while the corrected call leaves only the second; equal random draws make the names coincide, and `os.Create` then truncates the partial file, so one file remains |
| Retry.SecondAttemptStores | internal/downloader.go:387-406 | a failed first write followed by a second file of at least 50 KiB ends the call at the second iteration with that file |
| Retry.FirstAbandoned | internal/downloader.go:392-396 | when the first write fails and the second stores, only the first iteration's file is abandoned |
| Escalation.PauseNs | internal/downloader.go:189 | every pause lasts between 500 and 700 ms |
| Escalation.BrowserTier | internal/downloader.go:236-273 | the browser tier fails with the run's or the write's error, and otherwise stores the body, of any size, under a fresh name with the escalating extension |
| Escalation.AttemptStep | internal/downloader.go:176-231 | TLS is relaxed exactly on a first-attempt HTTPS mismatch; the browser tier is reached exactly on a 403 at the third attempt; a pause follows exactly the other network errors and bad statuses; on a good reply a create or write error goes round again with its error and no pause, a file under 10 KiB goes round again with the message naming it, and an unknown size or one of at least 10 KiB returns the stored file under the `.jpg`-fallback name |
| Escalation.AdvancedDownload | internal/downloader.go:160-163 | an image request that cannot be built fails with its error before any attempt, after the priming request; otherwise there are one to three attempts plus the priming request |
| Escalation.AdvancedOutcome | internal/downloader.go:176-232 | every iteration but the last went round again; the last one's decision is the result, or all three went round again and the call fails without escalating |
| Escalation.AdvancedExhausted | internal/downloader.go:232 | when no iteration returned, the error names the URL and carries the third iteration's error |
| Escalation.EscalatesOnlyOnFinal403 | internal/downloader.go:193-196 | the browser tier is reached exactly when the third attempt gets 403, and its result is then the call's result |
| Escalation.Early403Pauses | internal/downloader.go:193-200 | a 403 on the first or second attempt is a bad status followed by a pause |
| Escalation.RelaxedOnlyOnFirstMismatch | internal/downloader.go:178-190 | the transport is relaxed exactly when the first attempt fails with the HTTPS mismatch; every sleep is a pause of `PauseNs`; and a relaxing attempt does not pause |
| Escalation.FailuresPause | internal/downloader.go:188-200 | every pausing iteration left its pause |
| Escalation.DirectSizeFloor | internal/downloader.go:223-229 | a file stored without the browser tier, with a known size, is at least 10 KiB |
| Escalation.BrowserTierNoFloor | internal/downloader.go:260-272 | the browser tier stores even an empty body |
| Escalation.Abandoned | internal/downloader.go:212-221 | an iteration leaves a file behind exactly when a good reply's file was created and the write failed, under that iteration's name |
| Escalation.AbandonedGoesRoundAgain | internal/downloader.go:217-221 | an iteration that leaves a file behind goes round again with the write error and without pausing |
| Escalation.LeftOnDisk | internal/downloader.go:176-232 | a call leaves the names its iterations abandoned, in order, then the name of the file it returns, and a last name exactly when it succeeds |
| Escalation.LeftOnDiskCorrected | internal/downloader.go:222-229 | with a failed write removing its file, a call leaves at most one file, exactly when it succeeds: the one returned, at least 10 KiB when stored directly with a known size |
| Escalation.LeftOnDiskAsWritten | internal/downloader.go:217-221 | as written, a call leaves its abandoned files on top of the corrected ones, and the two agree exactly when no iteration created a file and then failed to write it |
| Escalation.PartialFileKept | internal/downloader.go:217-221 | a failed first write followed by a stored second file leaves two names, the partial file's then the stored one, while the corrected call leaves only the second; equal random draws make the names coincide, and `os.Create` then truncates the partial file, so one file remains |
| Escalation.SecondAttemptStores | internal/downloader.go:212-230 | a failed first write followed by a second file of at least 10 KiB ends the call at the second iteration with that file |
| Escalation.FirstAbandoned | internal/downloader.go:217-221 | when the first write fails and the second stores, only the first iteration's file is abandoned |
| Escalation.MethodAsWritten | internal/downloader.go:123-135 | a success reports "basic"; a failure reports "cookies" or "browser" when its text names them, and "basic" otherwise |
| Escalation.MethodUsed | internal/downloader.go:123-135 | the method is "browser" exactly when the browser tier was reached, and "basic" otherwise |
| Escalation.BrowserSuccessReportedBasic | internal/downloader.go:123-128 | three 403 replies followed by a browser run that stores the image succeed through the browser tier, yet the method reported is "basic" |
| Batch.MakeTasks | internal/downloader.go:50-53 | one task per URL, in order, with its host and its 1-based index |
| Batch.StartTime | internal/downloader.go:70-76 | a task passes the throttle no earlier than now, at once for an unseen domain, and otherwise at least 1200 ms after the domain's last recorded start |
| Batch.Schedule | internal/downloader.go:70-77 | there is one recorded start per task reaching the throttle, none before its arrival |
| Batch.ScheduleAfterLast | internal/downloader.go:71-76 | every task of a domain already seen passes the throttle at least 1200 ms after that domain's recorded start |
| Batch.ThrottleSpacing | internal/downloader.go:70-77 | two tasks of one domain pass the throttle at least 1200 ms apart |
| Batch.FirstOfDomainStartsAtOnce | internal/downloader.go:71-75 | the first task of an unseen domain passes the throttle at once |
| Batch.Classify | internal/downloader.go:85-93 | the class is "403 Forbidden" exactly when the error contains "403", then "Timeout" for "timeout", then "SSL/TLS" for "SSL" or "tls", and "Other" otherwise |
| Batch.ForbiddenFirst | internal/downloader.go:85-86 | example: a 403 that also timed out is classed as a 403 |
| Batch.TimeoutBeforeTls | internal/downloader.go:87-90 | example: a TLS handshake timeout is classed as a timeout, because the tests are case sensitive |
| Batch.TlsClassified | internal/downloader.go:89-90 | example: a failed TLS handshake is classed as SSL/TLS |
| Batch.OtherClassified | internal/downloader.go:91-92 | example: an unrelated error is classed as Other |
| Batch.RecordWith | internal/downloader.go:82-94 | a record has an error class exactly when the call failed, and the class is that of its error |
| Batch.RecordAsWritten | internal/downloader.go:79-95 | a successful task is recorded with method "basic", whatever tier it used |
| Batch.RecordOf | internal/downloader.go:79-95 | the corrected record: "browser" exactly when the task reached the browser tier, "basic" otherwise |
| Batch.Records | internal/downloader.go:79-104 | exactly one record per task, for its URL, with the method `AdvancedDownloadFileWithStats` sets and the class of its error |
| Batch.RecordsCorrected | internal/downloader.go:79-104 | the corrected records: one per task, with the tier the call ended in as its method |
| Batch.CountMethod | internal/downloader.go:108-109 | a method's count is zero exactly when no record reports it, and the number of records exactly when all do |
| Batch.MethodCountsTotal | internal/downloader.go:106-109 | every record is counted under exactly one of the three methods |
| Batch.ClassCountsTotal | internal/downloader.go:107-112 | every failed record is counted under exactly one of the four classes |
| Batch.SummaryAsWritten | internal/downloader.go:114 | the printed error count is the number of distinct classes, and the printed successes are the method total less that number |
| Batch.BatchSummaryAsWritten | internal/downloader.go:106-114 | over the records the batch keeps, the method counts add up to the number of tasks, "Errors" is the number of distinct classes (at most four), "Success" is the tasks less that, and "Errors" is zero exactly when every task succeeded |
| Batch.Summarize | internal/downloader.go:114-115 | the error count is the number of failed tasks, and the success and error counts add up to the number of tasks |
| Batch.SummaryCorrected | internal/downloader.go:106-115 | over the corrected records, successes plus errors is the number of tasks; there are no errors exactly when every task succeeded; the methods add up to the number of tasks; the browser count is all of them exactly when every task reached the browser tier |
| Batch.ClassesAtMostFour | internal/downloader.go:114 | the printed error count never exceeds four, however many tasks failed |
| Batch.SummaryUndercounts | internal/downloader.go:114 | two tasks failing in one class print one success and one error, where none succeeded and two failed |
| Batch.BatchUndercounts | internal/downloader.go:106-114 | a batch whose tasks all fail with errors of class Other prints one error and all tasks but one as successes |
| Fanout.SuccessCount | internal/downloader.go:425-431 | the count is at most the number of calls, and equals it exactly when every call succeeded |
| Fanout.SuccessCountExact | internal/downloader.go:428-430 | the count is the number of calls that returned no error |
| Fanout.RetryReported | internal/downloader.go:411-436 | the printed count is the number of URLs whose call, with index i + 1, succeeded |
| Fanout.RetryNameCarriesIndex | internal/downloader.go:418-432 | a file stored for index idx has a name that reads back to idx |
| Fanout.RetryNamesDistinct | internal/downloader.go:418-432 | no two calls of a batch store under the same name |
| Fanout.ImageReported | internal/image/downloader.go:115-137 | the printed count is the number of URLs whose call succeeded |
| Fanout.ImageNameCarriesIndex | internal/image/downloader.go:120-133 | a file the image package stores for index idx has a name that reads back to idx |
| Fanout.ImageNamesDistinct | internal/image/downloader.go:120-133 | no two calls of an image batch store under the same name |
| ImageDownload.SaveInline | internal/image/downloader.go:36-44 | an inline write returns the create or write error, or stores the decoded size with no floor |
| ImageDownload.SaveFetched | internal/image/downloader.go:93-111 | a fetched write succeeds exactly when the size is unknown or at least 50 KiB; a smaller file is removed with a message naming it |
| ImageDownload.DownloadFile | internal/image/downloader.go:20-112 | a request goes out exactly for a non-inline URL that `http.NewRequest` accepts; a rejected URL, a network error and a bad status return their errors before any file exists; a success has the extension rule's name and no known size under 50 KiB |
| ImageDownload.OneIterationOfRetry | internal/image/downloader.go:20-112 | the single-attempt downloader returns what one iteration of the retrying downloader decides, an error ending the call instead of a retry |
| ImageDownload.NoFileBeforeGoodStatus | internal/image/downloader.go:47-60 | a request that cannot be built, a failed request or a bad status creates no file |
| ImageDownload.InlineNoFloor | internal/image/downloader.go:21-45 | a decoded inline image is stored whatever its size |
| ImageDownload.UndersizedRemoved | internal/image/downloader.go:104-110 | a fetched body under 50 KiB is removed and reported with its name |
| Extractor.Resolve | internal/image/extractor.go:39-44 | a candidate starting with "http" or "data:", or one that does not parse, is kept verbatim, and any other is resolved against the page |
| Extractor.FirstOccurrencesSound | internal/image/extractor.go:45-48 | the deduplicated list holds every link, and each one once |
| Extractor.AddNewFirstOccurrences | internal/image/extractor.go:45-48 | deduplicating through the `found` map keeps exactly the first occurrences, in order |
| Extractor.AnchorLink | internal/image/extractor.go:23-44 | an element offers a link exactly when it is an `<a>` whose trimmed `href` is non-empty and ends, case-insensitively, with an image extension; the link is that value after resolution |
| Extractor.AnchorLinksExact | internal/image/extractor.go:23-51 | the image links are exactly the links the elements offer |
| Extractor.AttrValues | internal/image/extractor.go:55-57 | the values read are the present lookups of the listed attributes, in the order of the list, and exactly those |
| Extractor.SrcsetOfUrls | internal/image/extractor.go:87-92 | a `srcset` of comma-joined space-free URLs yields those URLs, in order |
| Extractor.TokensOf | internal/image/extractor.go:88-92 | the tokens are the first field of each part that has one, in part order |
| Extractor.PartTokenWord | internal/image/extractor.go:89-91 | a part made of white space, a space-free URL and a descriptor starting with white space yields that URL |
| Extractor.SrcsetWithDescriptors | internal/image/extractor.go:87-92 | a `srcset` whose parts carry descriptors yields its URLs in order, the descriptors dropped |
| Extractor.SrcsetDensityExample | internal/image/extractor.go:87-92 | example: "a.jpg 1x, b.jpg 2x" yields "a.jpg" then "b.jpg" |
| Extractor.ImgValuesOrder | internal/image/extractor.go:55-92 | an `<img>` offers `src`, `data-src`, `data-lazy` and `data-original`, in that order, then its `srcset` tokens |
| Extractor.ImgCandidates | internal/image/extractor.go:54-119 | every candidate comes from an `<img>` element's attributes or `srcset` |
| Extractor.ImgCandidatesAppend | internal/image/extractor.go:54-120 | the candidates of a document split in two are those of the first part followed by those of the second |
| Extractor.ImgCandidatesAt | internal/image/extractor.go:54-120 | the candidates of element k lie between those of the elements before it and those after it |
| Extractor.AnyContainsExists | internal/image/extractor.go:70-77 | the skip test holds exactly when some collected file name contains the stem |
| Extractor.OwnStem | internal/image/extractor.go:69-84 | a URL already collected is always skipped, so the duplicate test after the skip test never drops anything |
| Extractor.EmptyStemSkips | internal/image/extractor.go:69-79 | a candidate whose file name is all extension is skipped once anything is collected |
| Extractor.ShadowedGrows | internal/image/extractor.go:69-79 | collecting more URLs never unshadows a candidate |
| Extractor.Offer | internal/image/extractor.go:57-84 | one candidate, trimmed and resolved, is appended exactly when it is non-empty, not shadowed and not already present, and the list is otherwise unchanged |
| Extractor.OfferAllNoDup | internal/image/extractor.go:81-84 | offering candidates keeps the list free of repeats |
| Extractor.OfferAllUnshadowed | internal/image/extractor.go:69-84 | every URL added was not shadowed by the list before it |
| Extractor.OfferAllFromCandidates | internal/image/extractor.go:56-66 | every URL added is a candidate, trimmed and resolved |
| Extractor.ShadowedNeverAdded | internal/image/extractor.go:69-79 | a URL shadowed at the start and not yet collected is never added |
| Extractor.OfferAllAppend | internal/image/extractor.go:54-120 | offering two runs of candidates in turn is offering them together |
| Extractor.OfferAllCandidate | internal/image/extractor.go:57-84 | candidate j is appended exactly when it is non-empty and neither shadowed by nor present in the list the candidates before it built |
| Extractor.OfferAllPrefix | internal/image/extractor.go:81-84 | the list the first j candidates build is a prefix of the final list |
| Extractor.OfferAllCovers | internal/image/extractor.go:69-84 | after offering, every non-empty candidate is shadowed by the list: it was added or an earlier URL covered its stem |
| Extractor.ExtractImageUrls | internal/image/extractor.go:13-121 | a parse error is returned as it is; otherwise the list has no repeats, starts with the deduplicated image links, and shadows every non-empty `<img>` candidate |
| Extractor.ImgEntryAdmitted | internal/image/extractor.go:54-121 | after the image links, each URL comes from an `<img>` candidate and was not shadowed by any URL before it |
| Extractor.ImgCandidateReturned | internal/image/extractor.go:54-120 | an `<img>` candidate that is non-empty and neither shadowed by nor present in what came before it is returned, right after that list |
| Extractor.LinksKeptShadowedDropped | internal/image/extractor.go:23-80 | every image link is returned, and an `<img>` candidate shadowed by the image links, and not one of them, is not |
| Scraper.Accept | scraper.go:28-37 | a value is inserted exactly when its trimmed text is non-empty, does not start with "data:" and parses; what is inserted is its resolution |
| Scraper.Collect | scraper.go:28-39 | inserting never removes a URL |
| Scraper.CollectExact | scraper.go:28-39 | collecting inserts exactly the accepted values, in any order |
| Scraper.ImgPassValues | scraper.go:41-58 | only `<img>` elements are read by the first image pass |
| Scraper.SourceSrcsetValues | scraper.go:59-68 | only `<source>` elements are read by the second image pass |
| Scraper.VideoSrcValues | scraper.go:71-75 | a `<video>` offers one value exactly when it has `src` |
| Scraper.SourceVideoValues | scraper.go:76-82 | a `<source>` offers its `src` exactly when it has one and its `type` starts with "video/" |
| Scraper.PassMembers | scraper.go:41-82 | a pass reads exactly the values its elements offer |
| Scraper.Scrape | scraper.go:13-25 | a failed request, a bad status and a parse failure are errors with their prefixes, and the call succeeds exactly when none of them happens |
| Scraper.ScrapeExact | scraper.go:26-88 | the URLs returned are exactly the accepted values of the passes the flags switch on |
| Scraper.NoInlineValues | scraper.go:28-37 | every URL returned is the resolution of a trimmed, non-empty candidate that does not start with "data:" |
| Scraper.NothingRequested | scraper.go:40-83 | with both flags off the result is empty |
| Scraper.FlagsUnion | scraper.go:40-83 | with both flags on, the result is the union of the image-only and the video-only results |
| Scraper.UntypedSourceIgnored | scraper.go:76-82 | a `<source>` whose `type` does not start with "video/" gives the video passes nothing |
| RootDownload.Target | downloader.go:32-35 | the path written is the joined name when nothing exists there, and that name with "_1" when something does |
| RootDownload.TargetOverwrites | downloader.go:32-36 | the path written already holds a file exactly when both the joined name and the name with "_1" exist |
| RootDownload.Download | downloader.go:15-47 | the download, status and parse errors carry their prefixes and create no file; a file is created exactly when all three pass and creation succeeds; a failed creation is "create file err: " and a failed write "write file err: " with the error; the call succeeds exactly when the request, the status, the parse, the creation and the write all pass, and then writes the probed path for the URL's name |
| RootDownload.NameIsOneElement | downloader.go:28-31 | the name joined to the directory never holds a `/` |
| RootDownload.SavesUnderLastElement | downloader.go:28-35 | a URL whose path ends in a real element saves under that element |
| RootDownload.SingleProbe | downloader.go:33-35 | only one probe is made: when both names exist, the "_1" file is overwritten |
| RootDownload.NoFileBeforeParse | downloader.go:16-27 | a request error, a bad status or an unparsable URL ends the call before any file is created |

## Left out

- I/O: HTTP requests, headers and User-Agent rotation (internal/antiban.go, internal/session.go), file creation, copying and removal, and printing. Each call's outcome is a parameter.
- Request spacing within a task: the throttle spaces only the moments tasks of one domain record their start (internal/downloader.go:70-77). The priming request and the up to three image attempts a task then makes, 500-700 ms apart, are not spaced by it, and the model makes no claim about when individual requests reach a host.
- Time: the clock and `time.Sleep`. Sleeps are recorded as durations. A sleep is modelled as lasting exactly as long as asked.
- Randomness: `crypto/rand` name bytes and `math/rand` jitter are parameters.
- Concurrency: the worker pools, channels, semaphores, mutexes and the 350 ms global ticker. The calls are modelled as a sequence. The per-domain throttle is modelled in the order tasks take their domain's lock. The order in which records are appended is not modelled.
- The headless browser: the chromedp run is a parameter (`BrowserOutcome`).
- The cookie-priming visit's outcome: the source ignores it. Only the request it costs is counted.
- HTML parsing: goquery is a parameter. The document is a sequence of elements with lower-case tag names.
- URL parsing and resolution: `net/url`'s parse and `ResolveReference(..).String()` are parameters.
- `filepath.Join` and `os.Stat`: parameters of `RootDownload`.
- Case mapping: `strings.ToLower` is modelled on ASCII letters only. Go lower-cases all of Unicode.
- The base64 error's byte offset: a bad payload's error text is fixed.
- Panics: `getDomain` on an unparsable URL, `Scrape` with an unparsable page URL (a nil base), `ExtractImageURLs` with an unparsable base URL (the `url.Parse` error is dropped at internal/image/extractor.go:17 and the nil base is resolved against at lines 42, 66 and 99), and the cookie-priming request of `AdvancedDownloadFile` for a page URL `http.NewRequest` rejects (a nil request, internal/downloader.go:152-153) all panic. The model does not represent panics; the host function is total, and the resolver parameter has no failing base.
- Result order: `Scrape` returns URLs in Go's map iteration order, which is unspecified. The model returns a set.
- Escalation.AdvancedDownload: has no page URL. For a page URL that `http.NewRequest` rejects, the source panics when it sets the priming request's headers (internal/downloader.go:152-153). The model instead counts the priming request and carries on.
- Escalation.BrowserTier: `os.WriteFile` that fails part-way may leave a partial file; the browser outcome is a parameter, so that file is not modelled.
- Fanout.RetryResults: its contract states only the length. Which call each element comes from is stated only by the comprehension in its body. The counting lemmas use it.
- Fanout.ImageResults: the same, for the image package.

## Findings

| source | as written | input that shows it | evidently intended | confidence | as-written member | corrected member |
|---|---|---|---|---|---|---|
| internal/downloader.go:123-128 | a call that returns no error is always reported as method "basic" | three 403 replies to the escalating downloader, then a browser run that stores the image | a download that succeeded through the browser tier is reported as "browser" | medium, not executed | Escalation.BrowserSuccessReportedBasic | Escalation.MethodUsed |
| internal/downloader.go:114 | "Errors" prints the number of distinct error classes, and "Success" the task total less that number | two tasks that both fail with an error of class Other | "Errors" counts the failed tasks and "Success" the others | high, not executed | Batch.BatchUndercounts | Batch.SummaryCorrected |
| internal/downloader.go:392-396 | a failed `io.Copy` goes round again without `os.Remove`, leaving the partial file | a fetch whose first write fails and whose second stores a 50 KiB image | a failed write removes its file, as an undersized one is removed, so only the returned file stays | medium, not executed | Retry.PartialFileKept | Retry.LeftOnDiskCorrected |
| internal/downloader.go:217-221 | the same in the escalating downloader | a first attempt whose write fails and a second that stores a 10 KiB image | the same | medium, not executed | Escalation.PartialFileKept | Escalation.LeftOnDiskCorrected |

The batch keeps both halves of the first finding. `Batch.Records` builds the records with the method the code sets, so `Batch.BatchSummaryAsWritten` and `Batch.BatchUndercounts` describe what the program prints. `Batch.RecordsCorrected` builds them with `Escalation.MethodUsed`, and `Batch.SummaryCorrected` is stated over those corrected records.

=== FILE: attempts.dfy ===
/** What the outside world tells a downloader on each attempt, and what a
    download call reports back. The network, the file system and the clock
    are replaced by these scripted outcomes; the files a call leaves on
    disk are worked out per downloader from these outcomes. */
module Attempts {
  import opened Wrappers
  import opened Codec

  /** Durations are Go `time.Duration` values: nanoseconds. */
  const Millisecond: nat := 1_000_000
  const Second: nat := 1_000_000_000

  /** One HTTP exchange: the client's error, or the response's status
      code, status line and the `Retry-After` and `Content-Type` headers
      ("" when absent). */
  datatype Exchange =
    | TransportFailure(err: string)
    | Reply(code: int, status: string, retryAfter: string, contentType: string)

  /** Writing one file: `os.Create` fails, the copy fails, or the file is
      written and `Stat` reports its size (or itself fails). */
  datatype SaveOutcome =
    | CreateFailure(err: string)
    | WriteFailure(err: string)
    | Saved(size: nat)
    | SizeUnknown

  predicate SaveFailed(s: SaveOutcome) {
    s.CreateFailure? || s.WriteFailure?
  }

  function SaveError(s: SaveOutcome): string
    requires SaveFailed(s)
  {
    s.err
  }

  /** The headless-browser tier: the browser run fails, or it yields a body
      of `size` bytes whose `os.WriteFile` may fail. */
  datatype BrowserOutcome =
    | BrowserFailure(err: string)
    | BrowserBody(size: nat, writeErr: Option<string>)

  /** A file left on disk: its name and the size `Stat` reported. */
  datatype StoredFile = StoredFile(name: string, size: Option<nat>)

  /** Why a downloader slept. */
  datatype WaitCause =
    | Backoff     // the jittered delay before a retry of the plain downloader
    | RetryAfter  // the server's `Retry-After` seconds
    | Pause       // the escalating downloader's fixed pause after a failure

  /** A sleep of `ns` nanoseconds during loop iteration `attempt`. */
  datatype Wait = Wait(attempt: nat, cause: WaitCause, ns: nat)

  /** The outcome of one download call: the returned error or file, how many
      loop iterations began, how many HTTP requests went out, the sleeps in
      order, whether the transport was switched to unverified TLS, and
      whether the browser tier was reached. */
  datatype Run = Run(
    result: Result<StoredFile>,
    attempts: nat,
    requests: nat,
    waits: seq<Wait>,
    relaxedTls: bool,
    escalated: bool)

  /** Go's `%v` of an `error` that may be nil. */
  function ErrText(e: Option<string>): string {
    match e
    case Some(s) => s
    case None => "<nil>"
  }

  /** A status the downloaders reject: outside [200, 400). */
  predicate IsBadStatus(code: int) {
    code < 200 || code >= 400
  }

  /** The statuses the plain downloader treats as throttling. */
  predicate IsThrottleStatus(code: int) {
    code == 429 || code == 403 || 500 <= code < 600
  }

  lemma ThrottleStatusIsBad(code: int)
    requires IsThrottleStatus(code)
    ensures IsBadStatus(code)
  {
  }

  function BadStatus(status: string): string {
    "bad status: " + status
  }

  /** The sleep a `Retry-After` header causes: only the delay-seconds form
      (section 10.2.3 of RFC 9110) as `strconv.Atoi` reads it, times one
      second in `int64` arithmetic that wraps; a non-positive duration does
      not sleep. */
  function RetryAfterNs(header: string): (w: Option<nat>)
    ensures w.Some? ==> 0 < w.value <= MaxInt64
    ensures w.Some? ==> Atoi(header).Some?
    ensures (Atoi(header).Some? && 0 < Atoi(header).value && Atoi(header).value * Second <= MaxInt64)
            ==> w == Some(Atoi(header).value * Second)
  {
    if header == "" then None
    else match Atoi(header)
      case None => None
      case Some(sec) =>
        var d := WrapInt64(sec * Second);
        if d > 0 then Some(d) else None
  }

  /** `Retry-After: 2` sleeps two seconds. */
  lemma RetryAfterTwoSeconds()
    ensures RetryAfterNs("2") == Some(2 * Second)
  {
    assert Atoi("2") == Some(2) by {
      assert DecimalValue("2") == 10 * DecimalValue("") + 2;
    }
  }

  /** More seconds than `int64` nanoseconds can hold wrap negative: no sleep. */
  lemma RetryAfterOverflow()
    ensures RetryAfterNs(NatToDecimal(9223372037)) == None
  {
    var header := NatToDecimal(9223372037);
    AtoiOfDecimal(9223372037);
    assert header != "";
    WrapExample();
  }

  lemma WrapExample()
    ensures WrapInt64(9223372037 * Second) < 0
  {
    assert 9223372037 * Second - MinInt64 == 0x1_0000_0000_0000_0000 + 145224192;
    assert (9223372037 * Second - MinInt64) % 0x1_0000_0000_0000_0000 == 145224192;
  }

  /** A negative delay or the HTTP-date form of the header does not sleep. */
  lemma RetryAfterIgnored()
    ensures RetryAfterNs("-3") == None
    ensures RetryAfterNs("Wed, 21 Oct 2015 07:28:00 GMT") == None
  {
    assert Atoi("-3") == Some(-3) by {
      assert "-3"[1..] == "3";
      assert DecimalValue("3") == 3;
    }
    var date := "Wed, 21 Oct 2015 07:28:00 GMT";
    assert !IsDigit(date[0]);
  }

  // ------------------------------------------------------------ files on disk

  /** What each of the first `n` iterations abandons, `abandon(k)` being
      the file iteration `k` created and then failed to write, if any. */
  function AbandonedEach(abandon: nat -> Option<string>, n: nat): (fs: seq<Option<string>>)
    ensures |fs| == n
    ensures forall k :: 0 <= k < n ==> fs[k] == abandon(k)
  {
    seq(n, k requires 0 <= k < n => abandon(k))
  }

  /** The files the first `n` iterations abandon, in iteration order. */
  function AbandonedBy(abandon: nat -> Option<string>, n: nat): (names: seq<string>)
    ensures |names| <= n
  {
    Somes(AbandonedEach(abandon, n))
  }

  /** A file is listed exactly when one of the first `n` iterations
      abandoned it. */
  lemma AbandonedListed(abandon: nat -> Option<string>, n: nat)
    ensures forall name :: name in AbandonedBy(abandon, n) <==>
              exists k :: 0 <= k < n && abandon(k) == Some(name)
  {
    var fs := AbandonedEach(abandon, n);
    SomesExact(fs);
    assert forall k :: 0 <= k < n ==> fs[k] == abandon(k);
  }

  /** The list is empty exactly when none of the first `n` iterations
      abandoned a file. */
  lemma AbandonedNone(abandon: nat -> Option<string>, n: nat)
    ensures AbandonedBy(abandon, n) == [] <==> forall k :: 0 <= k < n ==> abandon(k).None?
  {
    SomesEmpty(AbandonedEach(abandon, n));
  }
}

=== FILE: batch.dfy ===
/** The bookkeeping of `DownloadImagesAdvancedBatch` in
    internal/downloader.go, run sequentially: one task per URL with a
    1-based index, the per-domain throttle, the classification of errors,
    one record per task, and the summary printed at the end. The worker
    pool, its channel and its locks are not modelled; the throttle is
    modelled in the order the tasks reach their domain's lock. */
module Batch {
  import opened Wrappers
  import opened Text
  import opened Attempts
  import Escalation

  /** The minimum spacing of two tasks of one domain passing the
      throttle. */
  const DomainDelay: nat := 1200 * Millisecond

  /** One image to fetch: its URL, the host it was found on, and its index. */
  datatype Task = Task(url: string, domain: string, idx: int)

  /** One task per URL, in order, numbered from 1; `hostOf` stands for the
      host `net/url` parses out of a URL. */
  function MakeTasks(urls: seq<string>, hostOf: string -> string): (tasks: seq<Task>)
    ensures |tasks| == |urls|
    ensures forall i :: 0 <= i < |urls| ==> tasks[i] == Task(urls[i], hostOf(urls[i]), i + 1)
  {
    if urls == [] then []
    else
      var n := |urls| - 1;
      var init := MakeTasks(urls[..n], hostOf);
      init + [Task(urls[n], hostOf(urls[n]), n + 1)]
  }

  // ------------------------------------------------------------ throttle

  /** When a task of domain `d` that holds the domain's lock at time `now`
      passes the throttle and records its start: at once for a domain never
      seen (its zero last time lies far in the past), otherwise after
      sleeping until 1200 ms past the domain's last recorded start. The
      requests the task then makes are not spaced by the throttle. */
  function StartTime(last: map<string, nat>, d: string, now: nat): (start: nat)
    ensures start >= now
    ensures d !in last ==> start == now
    ensures d in last ==> start >= last[d] + DomainDelay
    ensures start == now || (d in last && start == last[d] + DomainDelay)
  {
    if d in last && last[d] + DomainDelay > now then last[d] + DomainDelay else now
  }

  /** A task reaching its domain's lock at time `now`. */
  datatype Arrival = Arrival(task: Task, now: nat)

  /** The start times of `arrivals`, in the order they take the lock, when
      `last` holds each domain's previous start; every start becomes its
      domain's last. */
  function Schedule(arrivals: seq<Arrival>, last: map<string, nat>): (starts: seq<nat>)
    ensures |starts| == |arrivals|
    ensures forall i :: 0 <= i < |arrivals| ==> starts[i] >= arrivals[i].now
  {
    if arrivals == [] then []
    else
      var d := arrivals[0].task.domain;
      var s := StartTime(last, d, arrivals[0].now);
      [s] + Schedule(arrivals[1..], last[d := s])
  }

  /** Every start of a domain already in `last` lies at least 1200 ms past
      its recorded start. */
  lemma {:induction false} ScheduleAfterLast(arrivals: seq<Arrival>, last: map<string, nat>, d: string, j: nat)
    requires j < |arrivals| && arrivals[j].task.domain == d && d in last
    ensures Schedule(arrivals, last)[j] >= last[d] + DomainDelay
    decreases j
  {
    var d0 := arrivals[0].task.domain;
    var s := StartTime(last, d0, arrivals[0].now);
    if j > 0 {
      ScheduleAfterLast(arrivals[1..], last[d0 := s], d, j - 1);
    }
  }

  /** Two tasks of one domain pass the throttle at least 1200 ms apart,
      in the order they took the lock. */
  lemma {:induction false} ThrottleSpacing(arrivals: seq<Arrival>, last: map<string, nat>, i: nat, j: nat)
    requires i < j < |arrivals|
    requires arrivals[i].task.domain == arrivals[j].task.domain
    ensures Schedule(arrivals, last)[j] >= Schedule(arrivals, last)[i] + DomainDelay
    decreases i
  {
    var d0 := arrivals[0].task.domain;
    var s := StartTime(last, d0, arrivals[0].now);
    if i == 0 {
      ScheduleAfterLast(arrivals[1..], last[d0 := s], d0, j - 1);
    } else {
      ThrottleSpacing(arrivals[1..], last[d0 := s], i - 1, j - 1);
    }
  }

  /** The first task of a domain not in `last` passes the throttle at
      once. */
  lemma {:induction false} FirstOfDomainStartsAtOnce(arrivals: seq<Arrival>, last: map<string, nat>, j: nat)
    requires j < |arrivals| && arrivals[j].task.domain !in last
    requires forall k :: 0 <= k < j ==> arrivals[k].task.domain != arrivals[j].task.domain
    ensures Schedule(arrivals, last)[j] == arrivals[j].now
    decreases j
  {
    if j > 0 {
      var d0 := arrivals[0].task.domain;
      var s := StartTime(last, d0, arrivals[0].now);
      assert forall k :: 0 <= k < j - 1 ==> arrivals[1..][k] == arrivals[k + 1];
      FirstOfDomainStartsAtOnce(arrivals[1..], last[d0 := s], j - 1);
    }
  }

  // ------------------------------------------------------ classification

  const Forbidden: string := "403 Forbidden"
  const Timeout: string := "Timeout"
  const TlsClass: string := "SSL/TLS"
  const Other: string := "Other"

  predicate IsClass(c: string) {
    c == Forbidden || c == Timeout || c == TlsClass || c == Other
  }

  /** The class of an error, by the first of its substrings that matches:
      "403", then "timeout", then "SSL" or "tls"; the tests are case
      sensitive. */
  function Classify(err: string): (c: string)
    ensures IsClass(c)
    ensures c == Forbidden <==> Contains(err, "403")
    ensures c == Timeout <==> !Contains(err, "403") && Contains(err, "timeout")
    ensures c == TlsClass <==> !Contains(err, "403") && !Contains(err, "timeout") && (Contains(err, "SSL") || Contains(err, "tls"))
  {
    if Contains(err, "403") then Forbidden
    else if Contains(err, "timeout") then Timeout
    else if Contains(err, "SSL") || Contains(err, "tls") then TlsClass
    else Other
  }

  /** The order of the tests decides: a 403 that also timed out is a 403. */
  lemma ForbiddenFirst()
    ensures Classify("403 timeout") == Forbidden
  {
    ContainsAt("403 timeout", "403", 0);
  }

  /** A TLS handshake that timed out is a timeout: "TLS" in capitals is not
      "tls". */
  lemma TimeoutBeforeTls()
    ensures Classify("net/http: TLS handshake timeout") == Timeout
  {
    var h := "net/http: TLS handshake timeout";
    assert h[24..31] == "timeout";
    ContainsAt(h, "timeout", 24);
    NoDigit(h, "403");
  }

  /** A failed TLS handshake is classed SSL/TLS. */
  lemma TlsClassified(err: string)
    requires err == "tls: handshake failure"
    ensures Classify(err) == TlsClass
  {
    assert Contains(err, "tls") by {
      assert err[0..3] == "tls";
      ContainsAt(err, "tls", 0);
    }
    NoDigit(err, "403");
    NoChar(err, "timeout", 'o');
  }

  lemma OtherClassified()
    ensures Classify("EOF") == Other
  {
    NoDigit("EOF", "403");
    NoChar("EOF", "timeout", 't');
    NoChar("EOF", "SSL", 'S');
    NoChar("EOF", "tls", 't');
  }

  /** A text without the character `c` contains no pattern holding `c`. */
  lemma {:induction false} NoChar(s: string, sub: string, c: char)
    requires c in sub && c !in s
    ensures !Contains(s, sub)
    decreases |s|
  {
    var k :| 0 <= k < |sub| && sub[k] == c;
    assert !(sub <= s) by {
      assert k < |s| ==> s[k] != c;
    }
    if s != [] {
      NoChar(s[1..], sub, c);
    }
  }

  lemma NoDigit(s: string, sub: string)
    requires sub == "403" && '4' !in s
    ensures !Contains(s, sub)
  {
    NoChar(s, sub, '4');
  }

  // ------------------------------------------------------------- records

  /** The record a task leaves: its URL, the method reported, and the class
      of its error, absent when it succeeded. */
  datatype Record = Record(url: string, tier: string, errType: Option<string>)

  /** The record of a finished call, with `tier` the method it
      reports. */
  function RecordWith(url: string, tier: string, result: Result<StoredFile>): (r: Record)
    ensures r.url == url && r.tier == tier
    ensures r.errType.None? <==> result.Success?
    ensures result.Failure? ==> r.errType == Some(Classify(result.error))
  {
    if result.Success? then Record(url, tier, None) else Record(url, tier, Some(Classify(result.error)))
  }

  /** The record as the source makes it: the method is the one
      `AdvancedDownloadFileWithStats` reports. */
  function RecordAsWritten(url: string, run: Run): (r: Record)
    ensures r.errType.None? <==> run.result.Success?
    ensures run.result.Success? ==> r.tier == Escalation.Basic
  {
    RecordWith(url, Escalation.MethodAsWritten(run.result), run.result)
  }

  /** The record as evidently meant: the method is the tier the call
      ended in. */
  function RecordOf(url: string, run: Run): (r: Record)
    ensures r.errType.None? <==> run.result.Success?
    ensures r.tier == Escalation.Browser <==> run.escalated
    ensures r.tier == Escalation.Basic <==> !run.escalated
  {
    RecordWith(url, Escalation.MethodUsed(run), run.result)
  }

  /** The run of one task, `env` being what its call meets. */
  function TaskRun(t: Task, env: Escalation.AdvancedEnv): Run {
    Escalation.AdvancedDownload(t.url, t.idx, env)
  }

  /** The records the batch keeps for `tasks`, task `i` meeting
      `envs(i)`: exactly one per task, for its URL, with the method
      `AdvancedDownloadFileWithStats` reports. */
  function Records(tasks: seq<Task>, envs: nat -> Escalation.AdvancedEnv): (rs: seq<Record>)
    ensures |rs| == |tasks|
    ensures forall i :: 0 <= i < |tasks| ==> rs[i] == RecordAsWritten(tasks[i].url, TaskRun(tasks[i], envs(i)))
  {
    seq(|tasks|, i requires 0 <= i < |tasks| => RecordAsWritten(tasks[i].url, TaskRun(tasks[i], envs(i))))
  }

  /** The records with the method corrected to the tier each call ended
      in. */
  function RecordsCorrected(tasks: seq<Task>, envs: nat -> Escalation.AdvancedEnv): (rs: seq<Record>)
    ensures |rs| == |tasks|
    ensures forall i :: 0 <= i < |tasks| ==> rs[i] == RecordOf(tasks[i].url, TaskRun(tasks[i], envs(i)))
  {
    seq(|tasks|, i requires 0 <= i < |tasks| => RecordOf(tasks[i].url, TaskRun(tasks[i], envs(i))))
  }

  // ------------------------------------------------------------- summary

  /** Number of records reporting method `m`: none exactly when no record
      reports it, all exactly when every record does. */
  function CountMethod(rs: seq<Record>, m: string): (n: nat)
    ensures n <= |rs|
    ensures n == 0 <==> forall i :: 0 <= i < |rs| ==> rs[i].tier != m
    ensures n == |rs| <==> forall i :: 0 <= i < |rs| ==> rs[i].tier == m
  {
    if rs == [] then 0
    else
      assert forall i :: 1 <= i < |rs| ==> rs[1..][i - 1] == rs[i];
      (if rs[0].tier == m then 1 else 0) + CountMethod(rs[1..], m)
  }

  /** Number of records of error class `c`. */
  function CountClass(rs: seq<Record>, c: string): (n: nat)
    ensures n <= |rs|
  {
    if rs == [] then 0 else (if rs[0].errType == Some(c) then 1 else 0) + CountClass(rs[1..], c)
  }

  /** Number of records with an error. */
  function CountFailed(rs: seq<Record>): (n: nat)
    ensures n <= |rs|
    ensures n == 0 <==> forall i :: 0 <= i < |rs| ==> rs[i].errType.None?
  {
    if rs == [] then 0
    else
      assert forall i :: 1 <= i < |rs| ==> rs[1..][i - 1] == rs[i];
      (if rs[0].errType.Some? then 1 else 0) + CountFailed(rs[1..])
  }

  /** The keys of the error-count map: the distinct classes met. */
  function Classes(rs: seq<Record>): set<string> {
    set i | 0 <= i < |rs| && rs[i].errType.Some? :: rs[i].errType.value
  }

  predicate KnownMethods(rs: seq<Record>) {
    forall i :: 0 <= i < |rs| ==>
      rs[i].tier == Escalation.Basic || rs[i].tier == Escalation.Cookies || rs[i].tier == Escalation.Browser
  }

  predicate KnownClasses(rs: seq<Record>) {
    forall i :: 0 <= i < |rs| ==> rs[i].errType.Some? ==> IsClass(rs[i].errType.value)
  }

  /** Every record is counted under exactly one of the three methods. */
  lemma {:induction false} MethodCountsTotal(rs: seq<Record>)
    requires KnownMethods(rs)
    ensures CountMethod(rs, Escalation.Basic) + CountMethod(rs, Escalation.Cookies) + CountMethod(rs, Escalation.Browser) == |rs|
    decreases |rs|
  {
    if rs != [] {
      assert KnownMethods(rs[1..]) by {
        assert forall i :: 0 <= i < |rs| - 1 ==> rs[1..][i] == rs[i + 1];
      }
      MethodCountsTotal(rs[1..]);
    }
  }

  /** Every failed record is counted under exactly one of the four
      classes. */
  lemma {:induction false} ClassCountsTotal(rs: seq<Record>)
    requires KnownClasses(rs)
    ensures CountClass(rs, Forbidden) + CountClass(rs, Timeout) + CountClass(rs, TlsClass) + CountClass(rs, Other)
            == CountFailed(rs)
    decreases |rs|
  {
    if rs != [] {
      assert KnownClasses(rs[1..]) by {
        assert forall i :: 0 <= i < |rs| - 1 ==> rs[1..][i] == rs[i + 1];
      }
      ClassCountsTotal(rs[1..]);
    }
  }

  /** The records of a batch name known methods and classes only. */
  lemma RecordsKnown(tasks: seq<Task>, envs: nat -> Escalation.AdvancedEnv)
    ensures KnownMethods(Records(tasks, envs)) && KnownClasses(Records(tasks, envs))
    ensures KnownMethods(RecordsCorrected(tasks, envs)) && KnownClasses(RecordsCorrected(tasks, envs))
  {
  }

  /** The two summary lines: success and error counts, and the count per
      method. */
  datatype Summary = Summary(success: int, errors: int, basic: nat, cookies: nat, browser: nat)

  /** The summary as printed: "Errors" is the number of distinct classes
      met, and "Success" the method total less that number. */
  function SummaryAsWritten(rs: seq<Record>): (s: Summary)
    ensures s.errors == |Classes(rs)|
    ensures s.success + s.errors == s.basic + s.cookies + s.browser
  {
    var b := CountMethod(rs, Escalation.Basic);
    var c := CountMethod(rs, Escalation.Cookies);
    var w := CountMethod(rs, Escalation.Browser);
    Summary(b + c + w - |Classes(rs)|, |Classes(rs)|, b, c, w)
  }

  /** The summary as evidently meant: "Errors" counts the failed tasks and
      "Success" the others. */
  function Summarize(rs: seq<Record>): (s: Summary)
    ensures s.errors == CountFailed(rs)
    ensures KnownMethods(rs) ==> s.success + s.errors == |rs| == s.basic + s.cookies + s.browser
    ensures 0 <= s.success
  {
    var b := CountMethod(rs, Escalation.Basic);
    var c := CountMethod(rs, Escalation.Cookies);
    var w := CountMethod(rs, Escalation.Browser);
    var s := Summary(|rs| - CountFailed(rs), CountFailed(rs), b, c, w);
    if KnownMethods(rs) then MethodCountsTotal(rs); s else s
  }

  /** In the corrected summary, the errors are the failed tasks, the
      successes the tasks that returned no error, and the browser count
      the tasks that reached the browser tier. */
  lemma SummaryCorrected(tasks: seq<Task>, envs: nat -> Escalation.AdvancedEnv)
    ensures var rs := RecordsCorrected(tasks, envs);
      var s := Summarize(rs);
      && s.success + s.errors == |tasks|
      && s.errors == CountFailed(rs)
      && (s.errors == 0 <==> forall i :: 0 <= i < |tasks| ==> TaskRun(tasks[i], envs(i)).result.Success?)
      && s.basic + s.cookies + s.browser == |tasks|
      && (s.browser == |tasks| <==> forall i :: 0 <= i < |tasks| ==> TaskRun(tasks[i], envs(i)).escalated)
  {
    RecordsKnown(tasks, envs);
  }

  /** The summary the batch prints over its records: the method counts
      cover every task, "Errors" is the number of distinct classes met,
      and "Success" is the number of tasks less that. */
  lemma BatchSummaryAsWritten(tasks: seq<Task>, envs: nat -> Escalation.AdvancedEnv)
    ensures var rs := Records(tasks, envs);
      var s := SummaryAsWritten(rs);
      && s.basic + s.cookies + s.browser == |tasks|
      && s.errors == |Classes(rs)| <= 4
      && s.success == |tasks| - |Classes(rs)|
      && (s.errors == 0 <==> forall i :: 0 <= i < |tasks| ==> TaskRun(tasks[i], envs(i)).result.Success?)
  {
    var rs := Records(tasks, envs);
    RecordsKnown(tasks, envs);
    MethodCountsTotal(rs);
    ClassesAtMostFour(rs);
    if forall i :: 0 <= i < |tasks| ==> TaskRun(tasks[i], envs(i)).result.Success? {
      assert Classes(rs) == {};
    } else {
      var i :| 0 <= i < |tasks| && !TaskRun(tasks[i], envs(i)).result.Success?;
      assert rs[i].errType.value in Classes(rs);
    }
  }

  /** A batch whose tasks all fail with errors of one class prints one
      error and all but one task as successes. */
  lemma BatchUndercounts(tasks: seq<Task>, envs: nat -> Escalation.AdvancedEnv)
    requires |tasks| >= 1
    requires forall i :: 0 <= i < |tasks| ==>
               TaskRun(tasks[i], envs(i)).result.Failure? && Classify(TaskRun(tasks[i], envs(i)).result.error) == Other
    ensures var s := SummaryAsWritten(Records(tasks, envs));
      s.errors == 1 && s.success == |tasks| - 1
  {
    var rs := Records(tasks, envs);
    assert rs[0].errType.value in Classes(rs);
    assert Classes(rs) == {Other};
    BatchSummaryAsWritten(tasks, envs);
  }

  /** At most four classes exist, so the printed error count never exceeds
      four, however many tasks failed. */
  lemma ClassesAtMostFour(rs: seq<Record>)
    requires KnownClasses(rs)
    ensures |Classes(rs)| <= 4
  {
    var all: set<string> := {Forbidden, Timeout, TlsClass, Other};
    assert Classes(rs) <= all;
    SubsetCard(Classes(rs), all);
  }

  lemma {:induction false} SubsetCard<T>(a: set<T>, b: set<T>)
    requires a <= b
    ensures |a| <= |b|
    decreases |b|
  {
    if b != {} {
      var x :| x in b;
      SubsetCard(a - {x}, b - {x});
    }
  }

  /** Two tasks failing with errors of one class: the printed summary
      reports one success and one error where none succeeded and two
      failed. */
  lemma SummaryUndercounts()
    ensures var rs := [Record("a", Escalation.Basic, Some(Other)), Record("b", Escalation.Basic, Some(Other))];
      && SummaryAsWritten(rs).success == 1 && SummaryAsWritten(rs).errors == 1
      && Summarize(rs).success == 0 && Summarize(rs).errors == 2
  {
    var rs := [Record("a", Escalation.Basic, Some(Other)), Record("b", Escalation.Basic, Some(Other))];
    assert Classes(rs) == {Other} by {
      assert rs[0].errType.value == Other;
    }
    assert CountMethod(rs, Escalation.Basic) == 2;
    assert CountMethod(rs, Escalation.Cookies) == 0;
    assert CountMethod(rs, Escalation.Browser) == 0;
  }
}

=== FILE: codec.dfy ===
/** The encodings the downloader uses to name and decode files: lower-case
    hex (Go's `hex.EncodeToString`), the `%03d` and `%d` verbs of `fmt`,
    `strconv.Atoi`, and the standard base64 alphabet with padding of
    section 4 of RFC 4648 as Go's `base64.StdEncoding` decodes it. */
module Codec {
  import opened Wrappers

  // ---------------------------------------------------------------- hex

  /** The lower-case hex digit of a value below 16. */
  function HexDigit(v: nat): (c: char)
    requires v < 16
    ensures IsLowerHex(c)
  {
    if v < 10 then ('0' as int + v) as char else ('a' as int + v - 10) as char
  }

  predicate IsLowerHex(c: char) {
    '0' <= c <= '9' || 'a' <= c <= 'f'
  }

  function HexEncode(b: seq<Byte>): (s: string)
    ensures |s| == 2 * |b|
    ensures forall i :: 0 <= i < |s| ==> IsLowerHex(s[i])
  {
    if b == [] then [] else [HexDigit(b[0] / 16), HexDigit(b[0] % 16)] + HexEncode(b[1..])
  }

  function HexValue(c: char): Option<nat> {
    if '0' <= c <= '9' then Some(c as int - '0' as int)
    else if 'a' <= c <= 'f' then Some(c as int - 'a' as int + 10)
    else None
  }

  /** Inverse of `HexEncode` on its range (lower-case digits only). */
  function HexDecode(s: string): Option<seq<Byte>>
    decreases |s|
  {
    if s == [] then Some([])
    else if |s| == 1 then None
    else match (HexValue(s[0]), HexValue(s[1]), HexDecode(s[2..]))
      case (Some(hi), Some(lo), Some(rest)) => Some([hi * 16 + lo] + rest)
      case _ => None
  }

  /** The hex text of a byte string determines the bytes. */
  lemma {:induction false} HexRoundTrip(b: seq<Byte>)
    ensures HexDecode(HexEncode(b)) == Some(b)
  {
    if b != [] {
      var s := HexEncode(b);
      assert s[2..] == HexEncode(b[1..]);
      assert HexValue(s[0]) == Some(b[0] / 16);
      assert HexValue(s[1]) == Some(b[0] % 16);
      assert (b[0] / 16) * 16 + b[0] % 16 == b[0];
      HexRoundTrip(b[1..]);
      assert b == [b[0]] + b[1..];
    }
  }

  // ------------------------------------------------------------ decimal

  predicate IsDigit(c: char) {
    '0' <= c <= '9'
  }

  predicate AllDigits(s: string) {
    forall i :: 0 <= i < |s| ==> IsDigit(s[i])
  }

  /** Value of a string of decimal digits. */
  function DecimalValue(s: string): nat
    requires AllDigits(s)
  {
    if s == [] then 0 else 10 * DecimalValue(s[..|s| - 1]) + (s[|s| - 1] as int - '0' as int)
  }

  /** `strconv.Itoa` of a natural number: its shortest decimal form. */
  function NatToDecimal(n: nat): (s: string)
    ensures s != [] && AllDigits(s)
    ensures |s| > 1 ==> s[0] != '0'
    ensures n < 10 ==> |s| == 1
    ensures n < 100 ==> |s| <= 2
    ensures n < 1000 ==> |s| <= 3
  {
    if n < 10 then [('0' as int + n) as char]
    else NatToDecimal(n / 10) + [('0' as int + n % 10) as char]
  }

  lemma {:induction false} DecimalRoundTrip(n: nat)
    ensures DecimalValue(NatToDecimal(n)) == n
  {
    if n >= 10 {
      var s := NatToDecimal(n);
      assert s[..|s| - 1] == NatToDecimal(n / 10);
      DecimalRoundTrip(n / 10);
    }
  }

  /** Leading zeros do not change a decimal value. */
  lemma {:induction false} LeadingZeros(z: string, s: string)
    requires AllDigits(s)
    requires forall i :: 0 <= i < |z| ==> z[i] == '0'
    ensures AllDigits(z + s) && DecimalValue(z + s) == DecimalValue(s)
    decreases |s|
  {
    if s == [] {
      assert z + s == z;
      ZerosValue(z);
    } else {
      assert (z + s)[..|z + s| - 1] == z + s[..|s| - 1];
      LeadingZeros(z, s[..|s| - 1]);
    }
  }

  lemma {:induction false} ZerosValue(z: string)
    requires forall i :: 0 <= i < |z| ==> z[i] == '0'
    ensures AllDigits(z) && DecimalValue(z) == 0
    decreases |z|
  {
    if z != [] {
      ZerosValue(z[..|z| - 1]);
    }
  }

  function Zeros(n: nat): (z: string)
    ensures |z| == n && forall i :: 0 <= i < n ==> z[i] == '0'
  {
    seq(n, _ => '0')
  }

  /** `s` with zeros added in front up to `width` characters. */
  function PadLeftZeros(s: string, width: nat): (r: string)
    ensures |r| == if |s| >= width then |s| else width
    ensures HasZeroPrefixOf(r, s)
  {
    if |s| >= width then s else Zeros(width - |s|) + s
  }

  predicate HasZeroPrefixOf(r: string, s: string) {
    |s| <= |r| && r[|r| - |s|..] == s && forall i :: 0 <= i < |r| - |s| ==> r[i] == '0'
  }

  /** The `%03d` verb of Go's `fmt`: at least three characters, zero padded
      after the sign. */
  function Pad3(n: int): string {
    if n < 0 then "-" + PadLeftZeros(NatToDecimal(-n), 2)
    else PadLeftZeros(NatToDecimal(n), 3)
  }

  /** `%03d` is at least three wide, all digits for a non-negative number,
      and reads back as the number. */
  lemma Pad3Digits(n: nat)
    ensures var s := Pad3(n); |s| >= 3 && AllDigits(s) && DecimalValue(s) == n
    ensures n < 1000 ==> |Pad3(n)| == 3
  {
    var d := NatToDecimal(n);
    var s := Pad3(n);
    DecimalRoundTrip(n);
    if |d| < 3 {
      assert s == Zeros(3 - |d|) + d;
      LeadingZeros(Zeros(3 - |d|), d);
    }
  }

  /** A negative number prints as a minus sign and at least two digits. */
  lemma Pad3Negative(n: int)
    requires n < 0
    ensures var s := Pad3(n); |s| >= 3 && s[0] == '-' && AllDigits(s[1..])
  {
    var s := Pad3(n);
    assert s[1..] == PadLeftZeros(NatToDecimal(-n), 2);
  }

  lemma Pad3Width(n: int)
    ensures |Pad3(n)| >= 3
  {
    if n < 0 { Pad3Negative(n); } else { Pad3Digits(n); }
  }

  // --------------------------------------------------------------- Atoi

  const MaxInt64: int := 0x7FFF_FFFF_FFFF_FFFF
  const MinInt64: int := -0x8000_0000_0000_0000

  /** Go's `strconv.Atoi` on a 64-bit platform: an optional sign and at
      least one decimal digit, whose value must fit in an `int64`. */
  function Atoi(s: string): (r: Option<int>)
    ensures r.Some? ==> MinInt64 <= r.value <= MaxInt64
    ensures r.Some? ==> s != [] && (IsDigit(s[0]) || s[0] == '+' || s[0] == '-')
  {
    var signed := s != [] && (s[0] == '+' || s[0] == '-');
    var digits := if signed then s[1..] else s;
    if digits == [] || !AllDigits(digits) then None
    else
      var magnitude: int := DecimalValue(digits);
      var v := if signed && s[0] == '-' then -magnitude else magnitude;
      if MinInt64 <= v <= MaxInt64 then Some(v) else None
  }

  /** Every `int64` survives printing and `Atoi`. */
  lemma AtoiOfDecimal(n: int)
    requires MinInt64 <= n <= MaxInt64
    ensures n >= 0 ==> Atoi(NatToDecimal(n)) == Some(n)
    ensures n < 0 ==> Atoi("-" + NatToDecimal(-n)) == Some(n)
  {
    if n >= 0 {
      DecimalRoundTrip(n);
    } else {
      assert ("-" + NatToDecimal(-n))[1..] == NatToDecimal(-n);
      DecimalRoundTrip(-n);
    }
  }

  // -------------------------------------------------------------- int64

  /** Two's-complement wrap-around of an `int64` operation. */
  function WrapInt64(x: int): (r: int)
    ensures MinInt64 <= r <= MaxInt64
    ensures (r - x) % 0x1_0000_0000_0000_0000 == 0
    ensures MinInt64 <= x <= MaxInt64 ==> r == x
  {
    var m := (x - MinInt64) % 0x1_0000_0000_0000_0000;
    m + MinInt64
  }

  // ------------------------------------------------------------- base64

  /** Value of a character in the alphabet of Table 1 of RFC 4648. */
  function B64Value(c: char): Option<nat> {
    if 'A' <= c <= 'Z' then Some(c as int - 'A' as int)
    else if 'a' <= c <= 'z' then Some(c as int - 'a' as int + 26)
    else if '0' <= c <= '9' then Some(c as int - '0' as int + 52)
    else if c == '+' then Some(62)
    else if c == '/' then Some(63)
    else None
  }

  function B64Char(v: nat): char
    requires v < 64
  {
    if v < 26 then ('A' as int + v) as char
    else if v < 52 then ('a' as int + v - 26) as char
    else if v < 62 then ('0' as int + v - 52) as char
    else if v == 62 then '+'
    else '/'
  }

  lemma B64CharValue(v: nat)
    requires v < 64
    ensures B64Value(B64Char(v)) == Some(v)
  {
  }

  /** Go's base64 decoder skips carriage returns and line feeds anywhere. */
  function StripNewlines(s: string): (r: string)
    ensures forall i :: 0 <= i < |r| ==> r[i] != '\r' && r[i] != '\n'
    ensures |r| <= |s|
  {
    if s == [] then []
    else if s[0] == '\r' || s[0] == '\n' then StripNewlines(s[1..])
    else [s[0]] + StripNewlines(s[1..])
  }

  lemma {:induction false} StripNewlinesNoop(s: string)
    requires forall i :: 0 <= i < |s| ==> s[i] != '\r' && s[i] != '\n'
    ensures StripNewlines(s) == s
  {
    if s != [] {
      StripNewlinesNoop(s[1..]);
      assert s == [s[0]] + s[1..];
    }
  }

  /** The three bytes packed in four sextets. */
  function DecodeFull(q: string): Option<seq<Byte>>
    requires |q| == 4
  {
    match (B64Value(q[0]), B64Value(q[1]), B64Value(q[2]), B64Value(q[3]))
    case (Some(a), Some(b), Some(c), Some(d)) =>
      Some([a * 4 + b / 16, (b % 16) * 16 + c / 4, (c % 4) * 64 + d])
    case _ => None
  }

  /** The last quantum: complete, or padded as `xx==` or `xxx=`. Bits left
      over by padding are ignored (Go's decoder is not in strict mode). */
  function DecodeFinal(q: string): Option<seq<Byte>>
    requires |q| == 4
  {
    if q[3] != '=' then DecodeFull(q)
    else if q[2] == '=' then
      match (B64Value(q[0]), B64Value(q[1]))
      case (Some(a), Some(b)) => Some([a * 4 + b / 16])
      case _ => None
    else
      match (B64Value(q[0]), B64Value(q[1]), B64Value(q[2]))
      case (Some(a), Some(b), Some(c)) => Some([a * 4 + b / 16, (b % 16) * 16 + c / 4])
      case _ => None
  }

  function DecodeQuanta(s: string): Option<seq<Byte>>
    requires |s| % 4 == 0
    decreases |s|
  {
    if s == [] then Some([])
    else if |s| == 4 then DecodeFinal(s)
    else match (DecodeFull(s[..4]), DecodeQuanta(s[4..]))
      case (Some(x), Some(rest)) => Some(x + rest)
      case _ => None
  }

  /** `base64.StdEncoding.DecodeString`: after dropping line breaks the text
      must be whole quanta of four characters, padding only at the end. */
  function Base64Decode(s: string): (r: Option<seq<Byte>>)
    ensures r.Some? ==> |StripNewlines(s)| % 4 == 0
    ensures r.Some? ==> |r.value| <= 3 * (|StripNewlines(s)| / 4)
  {
    var t := StripNewlines(s);
    if |t| % 4 != 0 then None
    else
      var r := DecodeQuanta(t);
      QuantaLength(t);
      r
  }

  lemma {:induction false} QuantaLength(t: string)
    requires |t| % 4 == 0
    ensures DecodeQuanta(t).Some? ==> |DecodeQuanta(t).value| <= 3 * (|t| / 4)
    decreases |t|
  {
    if |t| > 4 {
      QuantaLength(t[4..]);
    }
  }

  /** Standard base64 with `=` padding, the inverse partner of the decoder. */
  function Base64Encode(b: seq<Byte>): (s: string)
    ensures |s| % 4 == 0
    ensures forall i :: 0 <= i < |s| ==> s[i] != '\r' && s[i] != '\n'
    decreases |b|
  {
    if |b| == 0 then []
    else if |b| == 1 then
      [B64Char(b[0] / 4), B64Char((b[0] % 4) * 16), '=', '=']
    else if |b| == 2 then
      [B64Char(b[0] / 4), B64Char((b[0] % 4) * 16 + b[1] / 16), B64Char((b[1] % 16) * 4), '=']
    else
      EncodeTriple(b[0], b[1], b[2]) + Base64Encode(b[3..])
  }

  function EncodeTriple(x: Byte, y: Byte, z: Byte): (q: string)
    ensures |q| == 4 && forall i :: 0 <= i < 4 ==> q[i] != '\r' && q[i] != '\n' && q[i] != '='
  {
    [B64Char(x / 4), B64Char((x % 4) * 16 + y / 16), B64Char((y % 16) * 4 + z / 64), B64Char(z % 64)]
  }

  lemma TripleRoundTrip(x: Byte, y: Byte, z: Byte)
    ensures DecodeFull(EncodeTriple(x, y, z)) == Some([x, y, z])
  {
    var q := EncodeTriple(x, y, z);
    B64CharValue(x / 4);
    B64CharValue((x % 4) * 16 + y / 16);
    B64CharValue((y % 16) * 4 + z / 64);
    B64CharValue(z % 64);
    assert (x / 4) * 4 + ((x % 4) * 16 + y / 16) / 16 == x;
    assert (((x % 4) * 16 + y / 16) % 16) * 16 + ((y % 16) * 4 + z / 64) / 4 == y;
    assert (((y % 16) * 4 + z / 64) % 4) * 64 + z % 64 == z;
  }

  lemma OneByteRoundTrip(x: Byte)
    ensures DecodeQuanta(Base64Encode([x])) == Some([x])
  {
    B64CharValue(x / 4);
    B64CharValue((x % 4) * 16);
    assert (x / 4) * 4 + ((x % 4) * 16) / 16 == x;
  }

  lemma TwoBytesRoundTrip(x: Byte, y: Byte)
    ensures DecodeQuanta(Base64Encode([x, y])) == Some([x, y])
  {
    B64CharValue(x / 4);
    B64CharValue((x % 4) * 16 + y / 16);
    B64CharValue((y % 16) * 4);
    assert (x / 4) * 4 + ((x % 4) * 16 + y / 16) / 16 == x;
    assert (((x % 4) * 16 + y / 16) % 16) * 16 + ((y % 16) * 4) / 4 == y;
  }

  /** Decoding the encoding of any byte string gives the bytes back. */
  lemma {:induction false} Base64RoundTrip(b: seq<Byte>)
    ensures Base64Decode(Base64Encode(b)) == Some(b)
  {
    var s := Base64Encode(b);
    StripNewlinesNoop(s);
    QuantaRoundTrip(b);
  }

  lemma {:induction false} QuantaRoundTrip(b: seq<Byte>)
    ensures DecodeQuanta(Base64Encode(b)) == Some(b)
    decreases |b|
  {
    if |b| == 1 {
      OneByteRoundTrip(b[0]);
      assert [b[0]] == b;
    } else if |b| == 2 {
      TwoBytesRoundTrip(b[0], b[1]);
      assert [b[0], b[1]] == b;
    } else if |b| >= 3 {
      var q := EncodeTriple(b[0], b[1], b[2]);
      var rest := Base64Encode(b[3..]);
      var s := q + rest;
      TripleRoundTrip(b[0], b[1], b[2]);
      assert s[..4] == q && s[4..] == rest;
      if rest == [] {
        assert |b[3..]| == 0;
        assert b == [b[0], b[1], b[2]];
      } else {
        QuantaRoundTrip(b[3..]);
        assert b == [b[0], b[1], b[2]] + b[3..];
      }
    }
  }
}

=== FILE: datauri.dfy ===
/** Inline images: the pattern `^data:image/(\w+);base64,(.*)$` both
    downloaders match a `data:image/` URL against, a narrow subset of the
    `data:` URL syntax of section 3 of RFC 2397. */
module DataUri {
  import opened Wrappers
  import opened Text
  import Codec

  const Prefix: string := "data:image/"
  const Marker: string := ";base64,"

  /** The two groups the pattern captures. */
  datatype DataUri = DataUri(format: string, payload: string)

  /** What the pattern can capture: a non-empty run of word characters and
      a payload without a line feed (`.` does not match `\n`). */
  predicate WellFormed(d: DataUri) {
    && d.format != []
    && (forall i :: 0 <= i < |d.format| ==> IsWordChar(d.format[i]))
    && '\n' !in d.payload
  }

  function Render(d: DataUri): string {
    Prefix + d.format + Marker + d.payload
  }

  /** Number of leading word characters. */
  function WordSpan(s: string): (n: nat)
    ensures n <= |s|
    ensures forall i :: 0 <= i < n ==> IsWordChar(s[i])
    ensures n == |s| || !IsWordChar(s[n])
  {
    if s == [] || !IsWordChar(s[0]) then 0 else 1 + WordSpan(s[1..])
  }

  /** The match of the pattern against `url`; a match is always well formed
      and renders back to `url`. */
  function Parse(url: string): (r: Option<DataUri>)
    ensures r.Some? ==> WellFormed(r.value) && Render(r.value) == url
  {
    if !HasPrefix(url, Prefix) then None
    else
      var rest := url[|Prefix|..];
      var n := WordSpan(rest);
      if n == 0 then None
      else
        var after := rest[n..];
        if !HasPrefix(after, Marker) then None
        else
          var payload := after[|Marker|..];
          if '\n' in payload then None
          else
            assert url == Prefix + rest;
            assert rest == rest[..n] + after;
            assert after == Marker + payload;
            Some(DataUri(rest[..n], payload))
  }

  /** The pattern matches every well-formed rendering, with the same groups:
      together with `Parse`'s contract, a URL matches exactly when it is the
      rendering of a well-formed pair. */
  lemma ParseRender(d: DataUri)
    requires WellFormed(d)
    ensures Parse(Render(d)) == Some(d)
  {
    var url := Render(d);
    var rest := url[|Prefix|..];
    assert rest == d.format + Marker + d.payload;
    assert rest[|d.format|] == ';';
    WordSpanOf(d.format, Marker + d.payload);
    assert HasPrefix(url, Prefix);
    assert rest[..|d.format|] == d.format;
    var after := rest[|d.format|..];
    assert after == Marker + d.payload;
    assert HasPrefix(after, Marker);
    assert after[|Marker|..] == d.payload;
  }

  lemma {:induction false} WordSpanOf(w: string, tail: string)
    requires forall i :: 0 <= i < |w| ==> IsWordChar(w[i])
    requires tail != [] && !IsWordChar(tail[0])
    ensures WordSpan(w + tail) == |w|
    decreases |w|
  {
    if w != [] {
      assert (w + tail)[1..] == w[1..] + tail;
      WordSpanOf(w[1..], tail);
    } else {
      assert w + tail == tail;
    }
  }

  /** The extension and bytes of a `data:image/` URL, or the error both
      downloaders return at once for it. */
  function Decode(url: string): (r: Result<(string, seq<Byte>)>)
    ensures Parse(url).None? ==> r == Failure("invalid data url format")
    ensures r.Success? ==>
              && Parse(url).Some? && r.value.0 == "." + Parse(url).value.format
              && Codec.Base64Decode(Parse(url).value.payload) == Some(r.value.1)
    ensures Parse(url).Some? && Codec.Base64Decode(Parse(url).value.payload).None? ==> r.Failure?
  {
    match Parse(url)
    case None => Failure("invalid data url format")
    case Some(d) =>
      match Codec.Base64Decode(d.payload)
      case None => Failure("base64 decode error: illegal base64 data")
      case Some(bytes) => Success(("." + d.format, bytes))
  }

  /** A rendered inline image of any bytes decodes to those bytes, with the
      format as extension. */
  lemma DecodeEncoded(format: string, bytes: seq<Byte>)
    requires format != [] && forall i :: 0 <= i < |format| ==> IsWordChar(format[i])
    ensures Decode(Render(DataUri(format, Codec.Base64Encode(bytes)))) == Success(("." + format, bytes))
  {
    var d := DataUri(format, Codec.Base64Encode(bytes));
    assert '\n' !in d.payload;
    ParseRender(d);
    Codec.Base64RoundTrip(bytes);
  }
}

=== FILE: escalation.dfy ===
/** The escalating downloader, `AdvancedDownloadFile` of
    internal/downloader.go: a cookie-priming visit to the hosting page,
    three attempts with browser-like headers, a one-time switch to
    unverified TLS when an HTTPS URL is answered in plain HTTP, a fixed
    pause after network errors and bad statuses, a 10 KiB floor, and the
    headless-browser tier when the last attempt is refused with 403. */
module Escalation {
  import opened Wrappers
  import opened Text
  import opened Naming
  import opened Attempts

  const MaxAttempts: nat := 3
  const MinFileSize: nat := 10 * 1024
  const HttpsMismatch: string := "server gave HTTP response to HTTPS client"

  /** The world as this downloader sees it: the error building the image
      request (if any), each attempt's exchange, file write and name bytes,
      and what the browser tier would yield with its own name bytes. The
      cookie-priming visit's outcome is ignored by the source and so has no
      field. */
  datatype AdvancedEnv = AdvancedEnv(
    request: Option<string>,
    exchange: nat -> Exchange,
    save: nat -> SaveOutcome,
    rnd: nat -> Rand4,
    browser: BrowserOutcome,
    browserRnd: Rand4)

  /** The pause after a failed attempt `a`: 500 ms plus 100 ms per attempt. */
  function PauseNs(a: nat): (ns: nat)
    ensures a < MaxAttempts ==> 500 * Millisecond <= ns <= 700 * Millisecond
  {
    (500 + 100 * a) * Millisecond
  }

  function UndersizedMessage(name: string): string {
    "file " + name + " deleted (size < 10KB)"
  }

  function ExhaustedMessage(url: string, lastErr: Option<string>): string {
    "advanced download failed for " + url + ": " + ErrText(lastErr)
  }

  /** `downloadWithChromedp`: the browser run's error, or the body written
      under a fresh name with the escalating extension rule; there is no
      size floor here. */
  function BrowserTier(url: string, idx: int, env: AdvancedEnv): (r: Result<StoredFile>)
    ensures env.browser.BrowserFailure? ==> r == Failure(env.browser.err)
    ensures env.browser.BrowserBody? && env.browser.writeErr.Some? ==> r == Failure(env.browser.writeErr.value)
    ensures r.Success? <==> env.browser.BrowserBody? && env.browser.writeErr.None?
    ensures r.Success? ==>
              r.value == StoredFile(FileName(env.browserRnd, idx, BrowserExtension(url)), Some(env.browser.size))
  {
    match env.browser
    case BrowserFailure(e) => Failure(e)
    case BrowserBody(size, writeErr) =>
      var name := FileName(env.browserRnd, idx, BrowserExtension(url));
      if writeErr.Some? then Failure(writeErr.value) else Success(StoredFile(name, Some(size)))
  }

  /** What one attempt decides: return (possibly through the browser
      tier), switch the transport and go round again keeping the last
      error, or go round again with a new last error, pausing or not. */
  datatype Decision =
    | Done(result: Result<StoredFile>, escalated: bool)
    | Relax
    | Next(err: string, pause: bool)

  /** One iteration `a` of the attempt loop. */
  function AttemptStep(url: string, idx: int, env: AdvancedEnv, a: nat): (d: Decision)
    requires a < MaxAttempts
    ensures d.Relax? <==> a == 0 && env.exchange(a).TransportFailure? && Contains(env.exchange(a).err, HttpsMismatch)
    ensures d.Done? && d.escalated <==> a == MaxAttempts - 1 && env.exchange(a).Reply? && env.exchange(a).code == 403
    ensures d.Done? && d.escalated ==> d.result == BrowserTier(url, idx, env)
    ensures d.Next? && d.pause <==>
              || (env.exchange(a).TransportFailure? && !d.Relax?)
              || (env.exchange(a).Reply? && IsBadStatus(env.exchange(a).code) && !(d.Done? && d.escalated))
    ensures d.Next? && d.pause && env.exchange(a).Reply? ==> d.err == BadStatus(env.exchange(a).status)
    ensures d.Next? && d.pause && env.exchange(a).TransportFailure? ==> d.err == env.exchange(a).err
    ensures env.exchange(a).Reply? && !IsBadStatus(env.exchange(a).code) ==>
              var name := FileName(env.rnd(a), idx, BrowserExtension(url));
              && (SaveFailed(env.save(a)) ==> d == Next(SaveError(env.save(a)), false))
              && (env.save(a) == SizeUnknown ==> d == Done(Success(StoredFile(name, None)), false))
              && (env.save(a).Saved? && env.save(a).size >= MinFileSize ==>
                    d == Done(Success(StoredFile(name, Some(env.save(a).size))), false))
              && (env.save(a).Saved? && env.save(a).size < MinFileSize ==> d == Next(UndersizedMessage(name), false))
    ensures d.Done? && !d.escalated ==>
              && d.result.Success?
              && env.exchange(a).Reply? && !IsBadStatus(env.exchange(a).code)
              && d.result.value.name == FileName(env.rnd(a), idx, BrowserExtension(url))
              && (d.result.value.size.None? ==> env.save(a) == SizeUnknown)
              && (d.result.value.size.Some? ==>
                    env.save(a) == Saved(d.result.value.size.value) && d.result.value.size.value >= MinFileSize)
  {
    match env.exchange(a)
    case TransportFailure(e) =>
      if Contains(e, HttpsMismatch) && a == 0 then Relax else Next(e, true)
    case Reply(code, status, _, _) =>
      if code == 403 && a == MaxAttempts - 1 then Done(BrowserTier(url, idx, env), true)
      else if IsBadStatus(code) then Next(BadStatus(status), true)
      else
        var name := FileName(env.rnd(a), idx, BrowserExtension(url));
        match env.save(a)
        case CreateFailure(e) => Next(e, false)
        case WriteFailure(e) => Next(e, false)
        case Saved(size) =>
          if size < MinFileSize then Next(UndersizedMessage(name), false)
          else Done(Success(StoredFile(name, Some(size))), false)
        case SizeUnknown => Done(Success(StoredFile(name, None)), false)
  }

  /** The decisions of the three iterations. */
  function Steps(url: string, idx: int, env: AdvancedEnv): (steps: seq<Decision>)
    ensures |steps| == MaxAttempts
    ensures forall k :: 0 <= k < MaxAttempts ==> steps[k] == AttemptStep(url, idx, env, k)
  {
    seq(MaxAttempts, k requires 0 <= k < MaxAttempts => AttemptStep(url, idx, env, k))
  }

  /** The pauses of the first `n` iterations from `a` on. */
  function Pauses(steps: seq<Decision>, a: nat, n: nat): seq<Wait>
    requires n <= |steps|
    decreases n
  {
    if n == 0 then []
    else
      var own := if steps[0].Next? && steps[0].pause then [Wait(a, Pause, PauseNs(a))] else [];
      own + Pauses(steps[1..], a + 1, n - 1)
  }

  /** The loop from iteration `a` on, `steps` being what the remaining
      iterations decide, `lastErr` the error kept so far and `relaxed`
      whether the transport was already switched. */
  function Loop(url: string, steps: seq<Decision>, a: nat, lastErr: Option<string>, relaxed: bool): (r: Run)
    decreases |steps|
    ensures r.attempts <= |steps|
    ensures |steps| > 0 ==> 1 <= r.attempts
    ensures r.requests == r.attempts
    ensures r.waits == Pauses(steps, a, r.attempts)
  {
    if steps == [] then
      Run(Failure(ExhaustedMessage(url, lastErr)), 0, 0, [], relaxed, false)
    else
      var d := steps[0];
      if d.Done? then Run(d.result, 1, 1, [], relaxed, d.escalated)
      else
        var own := if d.Next? && d.pause then [Wait(a, Pause, PauseNs(a))] else [];
        var rest := Loop(url, steps[1..], a + 1, KeptError(d, lastErr), relaxed || d.Relax?);
        Run(rest.result, rest.attempts + 1, rest.requests + 1, own + rest.waits, rest.relaxedTls, rest.escalated)
  }

  /** The last error after an iteration that goes round again: unchanged
      by the transport switch, replaced otherwise. */
  function KeptError(d: Decision, lastErr: Option<string>): Option<string>
    requires !d.Done?
  {
    if d.Relax? then lastErr else Some(d.err)
  }

  /** Every iteration but the last went round again and the last one's
      decision, or the exhaustion error, is the result; the browser tier
      is reached only by the last iteration. */
  lemma {:induction false} LoopOutcome(url: string, steps: seq<Decision>, a: nat, lastErr: Option<string>, relaxed: bool)
    decreases |steps|
    ensures var r := Loop(url, steps, a, lastErr, relaxed);
      && (forall k :: 0 <= k < r.attempts - 1 ==> !steps[k].Done?)
      && (r.attempts == 0 ==> r.result == Failure(ExhaustedMessage(url, lastErr)) && !r.escalated)
      && (r.attempts >= 1 && steps[r.attempts - 1].Done? ==>
            r.result == steps[r.attempts - 1].result && r.escalated == steps[r.attempts - 1].escalated)
      && (r.attempts >= 1 && !steps[r.attempts - 1].Done? ==> r.attempts == |steps| && !r.escalated && r.result.Failure?)
  {
    if steps != [] && !steps[0].Done? {
      var next := KeptError(steps[0], lastErr);
      LoopOutcome(url, steps[1..], a + 1, next, relaxed || steps[0].Relax?);
    }
  }

  /** The transport ends relaxed exactly when it already was or some
      iteration switched it. */
  lemma {:induction false} LoopRelaxed(url: string, steps: seq<Decision>, a: nat, lastErr: Option<string>, relaxed: bool)
    decreases |steps|
    ensures var r := Loop(url, steps, a, lastErr, relaxed);
      r.relaxedTls <==> relaxed || exists k :: 0 <= k < r.attempts && steps[k].Relax?
  {
    if steps != [] && !steps[0].Done? {
      var next := KeptError(steps[0], lastErr);
      var rest := Loop(url, steps[1..], a + 1, next, relaxed || steps[0].Relax?);
      LoopRelaxed(url, steps[1..], a + 1, next, relaxed || steps[0].Relax?);
      if rest.relaxedTls && !relaxed && !steps[0].Relax? {
        var k :| 0 <= k < rest.attempts && steps[1..][k].Relax?;
        assert steps[k + 1].Relax?;
      }
      if exists k :: 0 <= k < rest.attempts + 1 && steps[k].Relax? {
        var k :| 0 <= k < rest.attempts + 1 && steps[k].Relax?;
        if k > 0 { assert steps[1..][k - 1].Relax?; }
      }
    }
  }

  /** The exhaustion error when every iteration went round again: the
      last error recorded. */
  lemma {:induction false} LoopExhausted(url: string, steps: seq<Decision>, a: nat, lastErr: Option<string>, relaxed: bool)
    requires forall k :: 0 <= k < |steps| ==> !steps[k].Done?
    requires |steps| > 0 && steps[|steps| - 1].Next?
    decreases |steps|
    ensures Loop(url, steps, a, lastErr, relaxed).result == Failure(ExhaustedMessage(url, Some(steps[|steps| - 1].err)))
  {
    if |steps| > 1 {
      var next := KeptError(steps[0], lastErr);
      var tail := steps[1..];
      assert tail[|tail| - 1] == steps[|steps| - 1];
      LoopExhausted(url, tail, a + 1, next, relaxed || steps[0].Relax?);
    } else {
      assert Loop(url, steps[1..], a + 1, Some(steps[0].err), relaxed).result == Failure(ExhaustedMessage(url, Some(steps[0].err)));
    }
  }

  /** Each pause follows a network error or a bad status at its iteration
      and lasts `PauseNs` of it. */
  lemma {:induction false} PausesJustified(steps: seq<Decision>, a: nat, n: nat)
    requires n <= |steps|
    decreases n
    ensures forall i :: 0 <= i < |Pauses(steps, a, n)| ==>
              var w := Pauses(steps, a, n)[i];
              && w.cause == Pause && a <= w.attempt < a + n && w.ns == PauseNs(w.attempt)
              && steps[w.attempt - a].Next? && steps[w.attempt - a].pause
  {
    if n > 0 {
      var own := if steps[0].Next? && steps[0].pause then [Wait(a, Pause, PauseNs(a))] else [];
      var tail := steps[1..];
      var rest := Pauses(tail, a + 1, n - 1);
      PausesJustified(tail, a + 1, n - 1);
      assert forall i :: 0 <= i < |rest| ==> tail[rest[i].attempt - (a + 1)] == steps[rest[i].attempt - a];
      assert Pauses(steps, a, n) == own + rest;
    }
  }

  /** Every pausing iteration left its pause. */
  lemma {:induction false} PausesComplete(steps: seq<Decision>, a: nat, n: nat)
    requires n <= |steps|
    decreases n
    ensures forall k :: 0 <= k < n && steps[k].Next? && steps[k].pause ==>
              Wait(a + k, Pause, PauseNs(a + k)) in Pauses(steps, a, n)
  {
    if n > 0 {
      var own := if steps[0].Next? && steps[0].pause then [Wait(a, Pause, PauseNs(a))] else [];
      var tail := steps[1..];
      PausesComplete(tail, a + 1, n - 1);
      assert Pauses(steps, a, n) == own + Pauses(tail, a + 1, n - 1);
      assert forall k :: 1 <= k < n ==> tail[k - 1] == steps[k];
    }
  }

  /** `AdvancedDownloadFile(imgURL, pageURL, outDir, idx)`. The priming
      visit always goes out; an image request that cannot be built fails
      with its error before any attempt. */
  function AdvancedDownload(url: string, idx: int, env: AdvancedEnv): (r: Run)
    ensures env.request.Some? ==> r == Run(Failure(env.request.value), 0, 1, [], false, false)
    ensures env.request.None? ==> 1 <= r.attempts <= MaxAttempts && r.requests == r.attempts + 1
  {
    if env.request.Some? then Run(Failure(env.request.value), 0, 1, [], false, false)
    else
      var r := Loop(url, Steps(url, idx, env), 0, None, false);
      Run(r.result, r.attempts, r.requests + 1, r.waits, r.relaxedTls, r.escalated)
  }

  /** Every iteration but the last went round again; the last one's
      decision is the result, or all three iterations went round again. */
  lemma AdvancedOutcome(url: string, idx: int, env: AdvancedEnv)
    requires env.request.None?
    ensures var r := AdvancedDownload(url, idx, env);
      && (forall k :: 0 <= k < r.attempts - 1 ==> !AttemptStep(url, idx, env, k).Done?)
      && var d := AttemptStep(url, idx, env, r.attempts - 1);
         && (d.Done? ==> r.result == d.result && r.escalated == d.escalated)
         && (!d.Done? ==> r.attempts == MaxAttempts && !r.escalated && r.result.Failure?)
  {
    EarlierStepsGoRound(url, idx, env);
    LastStepDecides(url, idx, env);
  }

  /** Every iteration before the last went round again. */
  lemma EarlierStepsGoRound(url: string, idx: int, env: AdvancedEnv)
    requires env.request.None?
    ensures var r := AdvancedDownload(url, idx, env);
      forall k :: 0 <= k < r.attempts - 1 ==> !AttemptStep(url, idx, env, k).Done?
  {
    var steps := Steps(url, idx, env);
    var r := AdvancedDownload(url, idx, env);
    assert r.attempts == Loop(url, steps, 0, None, false).attempts;
    LoopOutcome(url, steps, 0, None, false);
    forall k | 0 <= k < r.attempts - 1 ensures !AttemptStep(url, idx, env, k).Done? {
      assert !steps[k].Done?;
    }
  }

  /** The last iteration's decision is the result, or all three went
      round again and the call fails without escalating. */
  lemma LastStepDecides(url: string, idx: int, env: AdvancedEnv)
    requires env.request.None?
    ensures var r := AdvancedDownload(url, idx, env);
      var d := AttemptStep(url, idx, env, r.attempts - 1);
      && (d.Done? ==> r.result == d.result && r.escalated == d.escalated)
      && (!d.Done? ==> r.attempts == MaxAttempts && !r.escalated && r.result.Failure?)
  {
    LastStepReturns(url, idx, env);
    LastStepExhausts(url, idx, env);
  }

  /** A last iteration that returns gives the call's result. */
  lemma LastStepReturns(url: string, idx: int, env: AdvancedEnv)
    requires env.request.None?
    ensures var r := AdvancedDownload(url, idx, env);
      var d := AttemptStep(url, idx, env, r.attempts - 1);
      d.Done? ==> r.result == d.result && r.escalated == d.escalated
  {
    var steps := Steps(url, idx, env);
    var r := AdvancedDownload(url, idx, env);
    LastOfAdvanced(url, idx, env);
    if r.attempts == 1 {
      assert steps[0] == AttemptStep(url, idx, env, 0);
    } else if r.attempts == 2 {
      assert steps[1] == AttemptStep(url, idx, env, 1);
    } else {
      assert steps[2] == AttemptStep(url, idx, env, 2);
    }
  }

  /** A last iteration that goes round again is the third, and the call
      fails without escalating. */
  lemma LastStepExhausts(url: string, idx: int, env: AdvancedEnv)
    requires env.request.None?
    ensures var r := AdvancedDownload(url, idx, env);
      !AttemptStep(url, idx, env, r.attempts - 1).Done? ==> r.attempts == MaxAttempts && !r.escalated && r.result.Failure?
  {
    var steps := Steps(url, idx, env);
    var r := AdvancedDownload(url, idx, env);
    LastOfAdvanced(url, idx, env);
    if r.attempts == 1 {
      assert steps[0] == AttemptStep(url, idx, env, 0);
    } else if r.attempts == 2 {
      assert steps[1] == AttemptStep(url, idx, env, 1);
    } else {
      assert steps[2] == AttemptStep(url, idx, env, 2);
    }
  }

  /** The call's last iteration decides it, or all three went round
      again, in terms of the decisions the iterations make. */
  lemma LastOfAdvanced(url: string, idx: int, env: AdvancedEnv)
    requires env.request.None?
    ensures var r := AdvancedDownload(url, idx, env);
      var d := Steps(url, idx, env)[r.attempts - 1];
      && (d.Done? ==> r.result == d.result && r.escalated == d.escalated)
      && (!d.Done? ==> r.attempts == MaxAttempts && !r.escalated && r.result.Failure?)
  {
    LastOfLoop(url, Steps(url, idx, env));
  }

  /** Over three decisions, the loop's last one decides the result, or
      all three went round again and the loop fails without escalating. */
  lemma LastOfLoop(url: string, steps: seq<Decision>)
    requires |steps| == MaxAttempts
    ensures var r := Loop(url, steps, 0, None, false);
      && 1 <= r.attempts <= MaxAttempts
      && (steps[r.attempts - 1].Done? ==>
            r.result == steps[r.attempts - 1].result && r.escalated == steps[r.attempts - 1].escalated)
      && (!steps[r.attempts - 1].Done? ==> r.attempts == MaxAttempts && !r.escalated && r.result.Failure?)
  {
    LoopOutcome(url, steps, 0, None, false);
  }

  /** When no iteration returned, the error names the URL and carries the
      third iteration's error. */
  lemma AdvancedExhausted(url: string, idx: int, env: AdvancedEnv)
    requires env.request.None?
    requires forall k :: 0 <= k < MaxAttempts ==> !AttemptStep(url, idx, env, k).Done?
    ensures AttemptStep(url, idx, env, MaxAttempts - 1).Next?
    ensures AdvancedDownload(url, idx, env).result ==
              Failure(ExhaustedMessage(url, Some(AttemptStep(url, idx, env, MaxAttempts - 1).err)))
  {
    var steps := Steps(url, idx, env);
    assert steps[2] == AttemptStep(url, idx, env, 2);
    LoopExhausted(url, steps, 0, None, false);
  }

  /** The browser tier is reached exactly when the first two attempts went
      round again and the third was refused with 403; its result is then
      the call's result. */
  lemma EscalatesOnlyOnFinal403(url: string, idx: int, env: AdvancedEnv)
    requires env.request.None?
    ensures var r := AdvancedDownload(url, idx, env);
      && (r.escalated <==> r.attempts == MaxAttempts && env.exchange(2).Reply? && env.exchange(2).code == 403)
      && (r.escalated ==> r.result == BrowserTier(url, idx, env))
  {
    AdvancedOutcome(url, idx, env);
  }

  /** A 403 on an earlier attempt is an ordinary bad status: recorded, then
      a pause. */
  lemma Early403Pauses(url: string, idx: int, env: AdvancedEnv, a: nat)
    requires a < MaxAttempts - 1
    requires env.exchange(a).Reply? && env.exchange(a).code == 403
    ensures AttemptStep(url, idx, env, a) == Next(BadStatus(env.exchange(a).status), true)
  {
  }

  /** The transport is switched to unverified TLS exactly when the first
      attempt fails because an HTTPS URL was answered in plain HTTP; that
      attempt neither pauses nor records its error. */
  lemma RelaxedOnlyOnFirstMismatch(url: string, idx: int, env: AdvancedEnv)
    requires env.request.None?
    ensures var r := AdvancedDownload(url, idx, env);
      && (r.relaxedTls <==> env.exchange(0).TransportFailure? && Contains(env.exchange(0).err, HttpsMismatch))
      && (forall i :: 0 <= i < |r.waits| ==> r.waits[i].cause == Pause && r.waits[i].ns == PauseNs(r.waits[i].attempt))
      && (r.relaxedTls ==> forall i :: 0 <= i < |r.waits| ==> r.waits[i].attempt != 0)
  {
    var steps := Steps(url, idx, env);
    var r := Loop(url, steps, 0, None, false);
    LoopRelaxed(url, steps, 0, None, false);
    PausesJustified(steps, 0, r.attempts);
    if r.relaxedTls {
      var k :| 0 <= k < r.attempts && steps[k].Relax?;
      assert AttemptStep(url, idx, env, k).Relax?;
    }
  }

  /** Every network error and every bad status short of the escalating 403
      is followed by its pause. */
  lemma FailuresPause(url: string, idx: int, env: AdvancedEnv)
    requires env.request.None?
    ensures var r := AdvancedDownload(url, idx, env);
      forall k :: 0 <= k < r.attempts && AttemptStep(url, idx, env, k).Next? && AttemptStep(url, idx, env, k).pause ==>
        Wait(k, Pause, PauseNs(k)) in r.waits
  {
    var steps := Steps(url, idx, env);
    var r := Loop(url, steps, 0, None, false);
    PausesComplete(steps, 0, r.attempts);
  }

  /** A file stored directly is at least 10 KiB when its size is known; one
      stored by the browser tier has no floor. */
  lemma DirectSizeFloor(url: string, idx: int, env: AdvancedEnv)
    requires env.request.None?
    ensures var r := AdvancedDownload(url, idx, env);
      r.result.Success? && !r.escalated && r.result.value.size.Some? ==> r.result.value.size.value >= MinFileSize
  {
    var r := AdvancedDownload(url, idx, env);
    if r.result.Success? && !r.escalated {
      LastStepExhausts(url, idx, env);
      assert AttemptStep(url, idx, env, r.attempts - 1).Done?;
      LastStepReturns(url, idx, env);
    }
  }

  /** The browser tier stores even an empty body. */
  lemma BrowserTierNoFloor(url: string, idx: int, env: AdvancedEnv)
    requires env.browser == BrowserBody(0, None)
    ensures BrowserTier(url, idx, env) == Success(StoredFile(FileName(env.browserRnd, idx, BrowserExtension(url)), Some(0)))
  {
  }

  // ------------------------------------------------------------ files on disk

  /** Whether iteration `a` reaches `os.Create`: a request answered with a
      good status. */
  predicate Creates(env: AdvancedEnv, a: nat) {
    env.exchange(a).Reply? && !IsBadStatus(env.exchange(a).code)
  }

  /** The file iteration `a` abandons: one it created and then failed to
      write. The iteration goes round again with the write error and no
      `os.Remove`, so the partial file stays on disk. */
  function Abandoned(url: string, idx: int, env: AdvancedEnv, a: nat): (f: Option<string>)
    ensures f.Some? <==> Creates(env, a) && env.save(a).WriteFailure?
    ensures f.Some? ==> f.value == FileName(env.rnd(a), idx, BrowserExtension(url))
  {
    if Creates(env, a) && env.save(a).WriteFailure? then Some(FileName(env.rnd(a), idx, BrowserExtension(url)))
    else None
  }

  /** An iteration that abandons a file goes round again with the write
      error and without pausing. */
  lemma AbandonedGoesRoundAgain(url: string, idx: int, env: AdvancedEnv, a: nat)
    requires a < MaxAttempts
    requires Abandoned(url, idx, env, a).Some?
    ensures AttemptStep(url, idx, env, a) == Next(env.save(a).err, false)
  {
  }

  /** What each iteration abandons, as one function of the iteration. */
  function Abandons(url: string, idx: int, env: AdvancedEnv): (abandon: nat -> Option<string>)
    ensures forall k: nat :: abandon(k) == Abandoned(url, idx, env, k)
  {
    (k: nat) => Abandoned(url, idx, env, k)
  }

  /** The names of the files a call leaves on disk: those its iterations
      abandoned, then the file it returns; a name repeated is one file
      created twice. */
  function LeftOnDisk(url: string, idx: int, env: AdvancedEnv): (names: seq<string>)
    ensures var r := AdvancedDownload(url, idx, env);
      && AbandonedBy(Abandons(url, idx, env), r.attempts) <= names
      && (r.result.Success? <==> |names| == |AbandonedBy(Abandons(url, idx, env), r.attempts)| + 1)
      && (r.result.Success? ==> names[|names| - 1] == r.result.value.name)
  {
    var r := AdvancedDownload(url, idx, env);
    AbandonedBy(Abandons(url, idx, env), r.attempts) + (if r.result.Success? then [r.result.value.name] else [])
  }

  /** The files a call would leave if a failed write removed its file, as
      an undersized one is removed: only the file returned, which, when
      stored directly with a known size, meets the 10 KiB floor. */
  function LeftOnDiskCorrected(url: string, idx: int, env: AdvancedEnv): (names: seq<string>)
    ensures var r := AdvancedDownload(url, idx, env);
      && |names| <= 1
      && (names != [] <==> r.result.Success?)
      && forall i :: 0 <= i < |names| ==>
           && names[i] == r.result.value.name
           && (!r.escalated && r.result.value.size.Some? ==> r.result.value.size.value >= MinFileSize)
  {
    var r := AdvancedDownload(url, idx, env);
    assert r.result.Success? && !r.escalated && r.result.value.size.Some? ==> r.result.value.size.value >= MinFileSize by {
      if env.request.None? {
        DirectSizeFloor(url, idx, env);
      }
    }
    if r.result.Success? then [r.result.value.name] else []
  }

  /** As written, a call leaves its abandoned files on top of what the
      corrected call leaves, and the two agree exactly when no iteration
      run created a file and then failed to write it. */
  lemma LeftOnDiskAsWritten(url: string, idx: int, env: AdvancedEnv)
    ensures var r := AdvancedDownload(url, idx, env);
      && LeftOnDisk(url, idx, env) == AbandonedBy(Abandons(url, idx, env), r.attempts) + LeftOnDiskCorrected(url, idx, env)
      && (LeftOnDisk(url, idx, env) == LeftOnDiskCorrected(url, idx, env) <==>
            forall k :: 0 <= k < r.attempts ==> !(Creates(env, k) && env.save(k).WriteFailure?))
  {
    var r := AdvancedDownload(url, idx, env);
    var a := AbandonedBy(Abandons(url, idx, env), r.attempts);
    var c := LeftOnDiskCorrected(url, idx, env);
    assert LeftOnDisk(url, idx, env) == a + c;
    assert a == [] <==> forall k :: 0 <= k < r.attempts ==> !(Creates(env, k) && env.save(k).WriteFailure?) by {
      AbandonedNone(Abandons(url, idx, env), r.attempts);
      assert forall k :: 0 <= k < r.attempts ==>
               (Abandoned(url, idx, env, k).None? <==> !(Creates(env, k) && env.save(k).WriteFailure?));
    }
    if a + c == c {
      assert |a| == 0;
    }
  }

  /** An attempt whose write fails followed by one that stores the image
      leaves two names on disk: the partial file under the first, and the
      stored file, which alone is returned. When both attempts draw the
      same random bytes the names coincide, `os.Create` truncates the
      partial file, and one file remains under that name. */
  lemma PartialFileKept(url: string, idx: int, env: AdvancedEnv, size: nat)
    requires env.request.None?
    requires Creates(env, 0) && env.save(0).WriteFailure?
    requires Creates(env, 1) && env.save(1) == Saved(size) && size >= MinFileSize
    ensures AdvancedDownload(url, idx, env).result ==
              Success(StoredFile(FileName(env.rnd(1), idx, BrowserExtension(url)), Some(size)))
    ensures LeftOnDisk(url, idx, env) ==
              [FileName(env.rnd(0), idx, BrowserExtension(url)), FileName(env.rnd(1), idx, BrowserExtension(url))]
    ensures LeftOnDiskCorrected(url, idx, env) == [FileName(env.rnd(1), idx, BrowserExtension(url))]
  {
    SecondAttemptStores(url, idx, env, size);
    PartialLeft(url, idx, env, size);
    FirstAbandoned(url, idx, env);
    OneThenStored(AbandonedBy(Abandons(url, idx, env), 2), FileName(env.rnd(0), idx, BrowserExtension(url)),
                  FileName(env.rnd(1), idx, BrowserExtension(url)));
    PartialLeftCorrected(url, idx, env, size);
  }

  /** One abandoned name followed by the stored one. */
  lemma OneThenStored(abandoned: seq<string>, first: string, stored: string)
    requires abandoned == [first]
    ensures abandoned + [stored] == [first, stored]
  {
  }

  /** After a failed write and then a stored file, the call leaves what
      its first two iterations abandoned and then the stored file. */
  lemma PartialLeft(url: string, idx: int, env: AdvancedEnv, size: nat)
    requires env.request.None?
    requires Creates(env, 0) && env.save(0).WriteFailure?
    requires Creates(env, 1) && env.save(1) == Saved(size) && size >= MinFileSize
    ensures LeftOnDisk(url, idx, env) ==
              AbandonedBy(Abandons(url, idx, env), 2) + [FileName(env.rnd(1), idx, BrowserExtension(url))]
  {
    SecondAttemptStores(url, idx, env, size);
  }

  /** The name the corrected call leaves after a failed write and then a
      stored file. */
  lemma PartialLeftCorrected(url: string, idx: int, env: AdvancedEnv, size: nat)
    requires env.request.None?
    requires Creates(env, 0) && env.save(0).WriteFailure?
    requires Creates(env, 1) && env.save(1) == Saved(size) && size >= MinFileSize
    ensures LeftOnDiskCorrected(url, idx, env) == [FileName(env.rnd(1), idx, BrowserExtension(url))]
  {
    SecondAttemptStores(url, idx, env, size);
    assert LeftOnDiskCorrected(url, idx, env) == [FileName(env.rnd(1), idx, BrowserExtension(url))];
  }

  /** A failed first write followed by a stored second file ends the call
      at the second iteration with that file. */
  lemma SecondAttemptStores(url: string, idx: int, env: AdvancedEnv, size: nat)
    requires env.request.None?
    requires Creates(env, 0) && env.save(0).WriteFailure?
    requires Creates(env, 1) && env.save(1) == Saved(size) && size >= MinFileSize
    ensures var r := AdvancedDownload(url, idx, env);
      r.attempts == 2 && r.result == Success(StoredFile(FileName(env.rnd(1), idx, BrowserExtension(url)), Some(size)))
  {
    var steps := Steps(url, idx, env);
    assert !steps[0].Done?;
    assert steps[1] == Done(Success(StoredFile(FileName(env.rnd(1), idx, BrowserExtension(url)), Some(size))), false);
    LoopSecondDecides(url, steps);
    AdvancedIsLoop(url, idx, env);
  }

  /** Without a priming request, the call reports what its loop decides. */
  lemma AdvancedIsLoop(url: string, idx: int, env: AdvancedEnv)
    requires env.request.None?
    ensures var r := AdvancedDownload(url, idx, env);
      var lr := Loop(url, Steps(url, idx, env), 0, None, false);
      r.attempts == lr.attempts && r.result == lr.result && r.escalated == lr.escalated
  {
  }

  /** A first iteration that goes round again and a second that returns
      end the loop at the second with its result. */
  lemma LoopSecondDecides(url: string, steps: seq<Decision>)
    requires |steps| >= 2 && !steps[0].Done? && steps[1].Done?
    ensures var r := Loop(url, steps, 0, None, false);
      r.attempts == 2 && r.result == steps[1].result
  {
    assert steps[1..][0] == steps[1];
  }

  /** Of the first two iterations, only the first abandons a file. */
  lemma FirstAbandoned(url: string, idx: int, env: AdvancedEnv)
    requires Creates(env, 0) && env.save(0).WriteFailure?
    requires env.save(1).Saved?
    ensures AbandonedBy(Abandons(url, idx, env), 2) == [FileName(env.rnd(0), idx, BrowserExtension(url))]
  {
    var fs := AbandonedEach(Abandons(url, idx, env), 2);
    assert fs[0] == Some(FileName(env.rnd(0), idx, BrowserExtension(url))) && fs[1] == None;
    assert Somes(fs[1..]) == [] by {
      assert fs[1..][1..] == [];
    }
  }

  // ---------------------------------------------------------------- stats

  const Basic: string := "basic"
  const Cookies: string := "cookies"
  const Browser: string := "browser"

  /** `AdvancedDownloadFileWithStats`: "basic" on success; on failure the
      method named in the error text, "basic" (the caller's initial value)
      when the text names none. */
  function MethodAsWritten(result: Result<StoredFile>): (m: string)
    ensures m == Basic || m == Cookies || m == Browser
    ensures result.Success? ==> m == Basic
    ensures result.Failure? && Contains(result.error, "cookies") ==> m == Cookies
    ensures m == Browser <==>
              result.Failure? && !Contains(result.error, "cookies")
              && (Contains(result.error, "chromedp") || Contains(result.error, "browser"))
  {
    if result.Success? then Basic
    else if Contains(result.error, "cookies") then Cookies
    else if Contains(result.error, "chromedp") || Contains(result.error, "browser") then Browser
    else Basic
  }

  /** The method the call actually ended with: the browser tier when it was
      reached, the direct client otherwise. */
  function MethodUsed(r: Run): (m: string)
    ensures m == Browser <==> r.escalated
    ensures m == Basic <==> !r.escalated
  {
    if r.escalated then Browser else Basic
  }

  /** Three refusals with 403 and a browser run that stores the image: the
      call succeeds through the browser tier, yet the method recorded is
      "basic". */
  lemma BrowserSuccessReportedBasic(url: string, idx: int, env: AdvancedEnv)
    requires env.request.None?
    requires forall k :: 0 <= k < MaxAttempts ==> env.exchange(k) == Reply(403, "403 Forbidden", "", "")
    requires env.browser.BrowserBody? && env.browser.writeErr.None?
    ensures var r := AdvancedDownload(url, idx, env);
      && r.result.Success? && r.escalated
      && MethodAsWritten(r.result) == Basic
      && MethodUsed(r) == Browser
  {
    AdvancedOutcome(url, idx, env);
    assert !AttemptStep(url, idx, env, 0).Done? && !AttemptStep(url, idx, env, 1).Done?;
  }
}

=== FILE: extractor.dfy ===
/** `ExtractImageURLs` of internal/image/extractor.go over an abstract
    document: the elements in document order, each a tag and its
    attributes. Image links of `<a>` elements come first, deduplicated;
    then the candidates of `<img>` elements, each dropped when an earlier
    URL's file name contains its stem. Parsing HTML and resolving URLs are
    parameters. */
module Extractor {
  import opened Wrappers
  import opened Text
  import opened Paths

  /** An element of the parsed document: its lower-case tag name and its
      attributes. */
  datatype Element = Element(tag: string, attrs: map<string, string>)

  /** `base.ResolveReference(url.Parse(ref))` rendered back to text, or
      `None` when `url.Parse` rejects the reference. */
  type Resolver = string -> Option<string>

  // ------------------------------------------------------------- helpers

  /** No value occurs twice. */
  predicate NoDup(xs: seq<string>) {
    forall i, j :: 0 <= i < j < |xs| ==> xs[i] != xs[j]
  }

  /** Whether a candidate is resolved against the page: one starting with
      "http" or "data:" is taken as it is. */
  predicate NeedsResolve(v: string) {
    !HasPrefix(v, "http") && !HasPrefix(v, "data:")
  }

  /** A candidate after the resolution step: resolved when it needs it and
      parses, verbatim otherwise. */
  function Resolve(v: string, resolve: Resolver): (r: string)
    ensures r == v || (NeedsResolve(v) && resolve(v) == Some(r))
    ensures NeedsResolve(v) && resolve(v).Some? ==> r == resolve(v).value
  {
    if NeedsResolve(v) && resolve(v).Some? then resolve(v).value else v
  }

  /** `AddNew(acc, xs)`: `acc` followed by each value of `xs` not seen
      before, in order, as the `found` map and `urls` slice keep them. */
  function AddNew(acc: seq<string>, xs: seq<string>): seq<string>
    decreases |xs|
  {
    if xs == [] then acc
    else AddNew(if xs[0] in acc then acc else acc + [xs[0]], xs[1..])
  }

  /** The reference: the values of `xs` at the positions where they occur
      for the first time. */
  function FirstOccurrences(xs: seq<string>): (r: seq<string>)
    ensures |r| <= |xs|
  {
    if xs == [] then []
    else
      var n := |xs| - 1;
      var init := FirstOccurrences(xs[..n]);
      if xs[n] in init then init else init + [xs[n]]
  }

  /** The first occurrences hold every value of `xs` once. */
  lemma {:induction false} FirstOccurrencesSound(xs: seq<string>)
    ensures forall x :: x in FirstOccurrences(xs) <==> x in xs
    ensures NoDup(FirstOccurrences(xs))
    decreases |xs|
  {
    if xs != [] {
      var n := |xs| - 1;
      FirstOccurrencesSound(xs[..n]);
      assert xs == xs[..n] + [xs[n]];
    }
  }

  /** Deduplicating from nothing keeps exactly the first occurrences, in
      their order. */
  lemma {:induction false} AddNewFirstOccurrences(xs: seq<string>)
    ensures AddNew([], xs) == FirstOccurrences(xs)
    decreases |xs|
  {
    if xs != [] {
      var n := |xs| - 1;
      AddNewFirstOccurrences(xs[..n]);
      AddNewSnoc([], xs[..n], xs[n]);
      assert xs[..n] + [xs[n]] == xs;
    }
  }

  /** Appending one value to the input appends it to the output unless
      the output already holds it. */
  lemma {:induction false} AddNewSnoc(acc: seq<string>, xs: seq<string>, y: string)
    ensures AddNew(acc, xs + [y]) ==
              (if y in AddNew(acc, xs) then AddNew(acc, xs) else AddNew(acc, xs) + [y])
    decreases |xs|
  {
    if xs == [] {
      assert xs + [y] == [y];
    } else {
      var acc' := if xs[0] in acc then acc else acc + [xs[0]];
      assert (xs + [y])[1..] == xs[1..] + [y];
      AddNewSnoc(acc', xs[1..], y);
    }
  }

  // ------------------------------------------------------------- anchors

  const ImageExts: seq<string> := [".jpg", ".jpeg", ".png", ".webp", ".gif", ".bmp", ".tiff"]

  /** Whether the lower-cased link ends with one of the image extensions. */
  predicate HasImageExt(href: string) {
    exists k :: 0 <= k < |ImageExts| && HasSuffix(ToLower(href), ImageExts[k])
  }

  /** The image link an element offers in the first pass: an `<a>` whose
      trimmed `href` is non-empty and ends with an image extension, after
      the resolution step. */
  function AnchorLink(e: Element, resolve: Resolver): (r: Option<string>)
    ensures r.Some? <==>
              e.tag == "a" && "href" in e.attrs
              && TrimSpace(e.attrs["href"]) != [] && HasImageExt(TrimSpace(e.attrs["href"]))
    ensures r.Some? ==> r.value == Resolve(TrimSpace(e.attrs["href"]), resolve)
  {
    if e.tag != "a" || "href" !in e.attrs then None
    else
      var href := TrimSpace(e.attrs["href"]);
      if href == [] || !HasImageExt(href) then None else Some(Resolve(href, resolve))
  }

  /** Present values that are never empty give no empty value. */
  lemma {:induction false} SomesNonEmpty(opts: seq<Option<string>>)
    requires forall k :: 0 <= k < |opts| && opts[k].Some? ==> opts[k].value != []
    ensures [] !in Somes(opts)
    decreases |opts|
  {
    if opts != [] {
      SomesNonEmpty(opts[1..]);
    }
  }

  /** The image links of the document, in document order, repeats
      included. */
  function AnchorLinks(els: seq<Element>, resolve: Resolver): seq<string> {
    Somes(seq(|els|, k requires 0 <= k < |els| => AnchorLink(els[k], resolve)))
  }

  /** The image links are exactly the links the elements offer. */
  lemma AnchorLinksExact(els: seq<Element>, resolve: Resolver)
    ensures forall x :: x in AnchorLinks(els, resolve) <==>
              exists k :: 0 <= k < |els| && AnchorLink(els[k], resolve) == Some(x)
  {
    var opts := seq(|els|, k requires 0 <= k < |els| => AnchorLink(els[k], resolve));
    SomesExact(opts);
    assert forall k :: 0 <= k < |els| ==> opts[k] == AnchorLink(els[k], resolve);
  }

  // ---------------------------------------------------------------- imgs

  /** The attributes an `<img>` is read for, in this order. */
  const ImgAttrs: seq<string> := ["src", "data-src", "data-lazy", "data-original"]

  /** The value of attribute `name`, if `e` has it. */
  function Lookup(e: Element, name: string): Option<string> {
    if name in e.attrs then Some(e.attrs[name]) else None
  }

  /** The lookups of `names`, one per name, in order. */
  function Lookups(e: Element, names: seq<string>): (opts: seq<Option<string>>)
    ensures |opts| == |names|
    ensures forall k :: 0 <= k < |names| ==> opts[k] == Lookup(e, names[k])
  {
    seq(|names|, k requires 0 <= k < |names| => Lookup(e, names[k]))
  }

  /** The values of the attributes `names` that `e` has, in the order of
      `names`: the present lookups, in order. */
  function AttrValues(e: Element, names: seq<string>): (vs: seq<string>)
    ensures |vs| <= |names|
    ensures vs == Somes(Lookups(e, names))
    ensures forall v :: v in vs <==> exists k :: 0 <= k < |names| && names[k] in e.attrs && e.attrs[names[k]] == v
  {
    if names == [] then []
    else
      var own := if names[0] in e.attrs then [e.attrs[names[0]]] else [];
      var rest := AttrValues(e, names[1..]);
      assert forall k :: 1 <= k < |names| ==> names[1..][k - 1] == names[k];
      assert Lookups(e, names)[1..] == Lookups(e, names[1..]);
      own + rest
  }

  /** The first whitespace-separated token of each comma-separated part
      of a `srcset` value, parts without one skipped. */
  function SrcsetTokens(v: string): (ts: seq<string>)
    ensures [] !in ts
  {
    var parts := Split(v, ',');
    SomesNonEmpty(PartTokens(parts));
    TokensOf(parts)
  }

  /** The first token of one `srcset` part, if it has one. */
  function PartToken(part: string): (r: Option<string>)
    ensures r.Some? ==> r.value != []
  {
    FirstField(TrimSpace(part))
  }

  /** The token of each part, present or not, in part order. */
  function PartTokens(parts: seq<string>): (opts: seq<Option<string>>)
    ensures |opts| == |parts|
    ensures forall k :: 0 <= k < |parts| ==> opts[k] == PartToken(parts[k])
  {
    seq(|parts|, k requires 0 <= k < |parts| => PartToken(parts[k]))
  }

  /** The first token of each part that has one, in part order. */
  function TokensOf(parts: seq<string>): (ts: seq<string>)
    ensures |ts| <= |parts|
    ensures ts == Somes(PartTokens(parts))
  {
    if parts == [] then []
    else
      var f := PartToken(parts[0]);
      var rest := TokensOf(parts[1..]);
      var opts := PartTokens(parts);
      assert opts[0] == f;
      assert opts[1..] == PartTokens(parts[1..]);
      (if f.Some? then [f.value] else []) + rest
  }

  /** A `srcset` written as comma-joined space-free URLs yields those
      URLs. */
  lemma {:induction false} SrcsetOfUrls(urls: seq<string>)
    requires |urls| >= 1
    requires forall i :: 0 <= i < |urls| ==> urls[i] != [] && ',' !in urls[i] && forall k :: 0 <= k < |urls[i]| ==> !IsSpace(urls[i][k])
    ensures SrcsetTokens(Join(urls, ',')) == urls
  {
    SplitJoin(urls, ',');
    TokensOfPlain(urls);
  }

  lemma {:induction false} TokensOfPlain(urls: seq<string>)
    requires forall i :: 0 <= i < |urls| ==> urls[i] != [] && ',' !in urls[i] && forall k :: 0 <= k < |urls[i]| ==> !IsSpace(urls[i][k])
    ensures TokensOf(urls) == urls
    decreases |urls|
  {
    if urls != [] {
      TokensOfCons(urls);
      TokensOfPlain(urls[1..]);
      assert urls == [urls[0]] + urls[1..];
    }
  }

  /** A first part that is a plain URL contributes that URL. */
  lemma TokensOfCons(urls: seq<string>)
    requires urls != [] && urls[0] != [] && forall k :: 0 <= k < |urls[0]| ==> !IsSpace(urls[0][k])
    ensures TokensOf(urls) == [urls[0]] + TokensOf(urls[1..])
  {
    PlainToken(urls[0]);
  }

  /** A non-empty URL without white space is its own token. */
  lemma PlainToken(u: string)
    requires u != [] && forall k :: 0 <= k < |u| ==> !IsSpace(u[k])
    ensures PartToken(u) == Some(u)
  {
    assert TrimLeft(u) == u;
    assert TrimRight(u) == u;
    assert TrimSpace(u) == u;
    PlainSpan(u);
    assert FirstField(u) == Some(u);
  }

  lemma {:induction false} PlainSpan(u: string)
    requires forall k :: 0 <= k < |u| ==> !IsSpace(u[k])
    ensures SpanNonSpace(u) == |u|
    decreases |u|
  {
    if u != [] {
      PlainSpan(u[1..]);
    }
  }

  /** A part made of white space, a word and a descriptor that starts with
      white space yields that word: `strings.Fields` splits at the first
      space after it. */
  lemma PartTokenWord(lead: string, u: string, rest: string)
    requires AllSpace(lead) && u != [] && NoSpace(u) && (rest == [] || IsSpace(rest[0]))
    ensures PartToken(lead + u + rest) == Some(u)
  {
    assert lead + u + rest == lead + (u + rest);
    TrimLeftSpaces(lead, u + rest);
    TrimRightKeeps(u, rest);
    FirstFieldWord(TrimRight(u + rest), u);
  }

  /** The parts of a `srcset` value: white space, a URL, a descriptor. */
  function SrcsetParts(leads: seq<string>, urls: seq<string>, rests: seq<string>): (parts: seq<string>)
    requires |leads| == |urls| == |rests|
    ensures |parts| == |urls|
    ensures forall i :: 0 <= i < |urls| ==> parts[i] == leads[i] + urls[i] + rests[i]
  {
    seq(|urls|, i requires 0 <= i < |urls| => leads[i] + urls[i] + rests[i])
  }

  /** Parts whose tokens are all present give those tokens. */
  lemma {:induction false} TokensOfWords(parts: seq<string>, urls: seq<string>)
    requires |parts| == |urls|
    requires forall i :: 0 <= i < |parts| ==> PartToken(parts[i]) == Some(urls[i])
    ensures TokensOf(parts) == urls
    decreases |parts|
  {
    if parts != [] {
      TokensOfWords(parts[1..], urls[1..]);
      assert urls == [urls[0]] + urls[1..];
    }
  }

  /** A `srcset` whose parts carry width or density descriptors, such as
      "a.jpg 1x, b.jpg 2x", yields its URLs in order, the descriptors
      dropped. */
  lemma SrcsetWithDescriptors(leads: seq<string>, urls: seq<string>, rests: seq<string>)
    requires |leads| == |urls| == |rests| >= 1
    requires forall i :: 0 <= i < |urls| ==>
               AllSpace(leads[i]) && urls[i] != [] && NoSpace(urls[i]) && (rests[i] == [] || IsSpace(rests[i][0]))
    requires forall i :: 0 <= i < |urls| ==> ',' !in leads[i] && ',' !in urls[i] && ',' !in rests[i]
    ensures SrcsetTokens(Join(SrcsetParts(leads, urls, rests), ',')) == urls
  {
    var parts := SrcsetParts(leads, urls, rests);
    forall i | 0 <= i < |parts| ensures ',' !in parts[i] && PartToken(parts[i]) == Some(urls[i]) {
      PartTokenWord(leads[i], urls[i], rests[i]);
    }
    SplitJoin(parts, ',');
    TokensOfWords(parts, urls);
  }

  /** "a.jpg 1x, b.jpg 2x" yields "a.jpg" then "b.jpg". */
  lemma SrcsetDensityExample()
    ensures SrcsetTokens("a.jpg 1x, b.jpg 2x") == ["a.jpg", "b.jpg"]
  {
    var leads, urls, rests := ["", " "], ["a.jpg", "b.jpg"], [" 1x", " 2x"];
    var parts := SrcsetParts(leads, urls, rests);
    assert parts[0] == "a.jpg 1x" && parts[1] == " b.jpg 2x";
    assert parts == ["a.jpg 1x", " b.jpg 2x"];
    assert Join(parts, ',') == "a.jpg 1x, b.jpg 2x";
    SrcsetWithDescriptors(leads, urls, rests);
  }

  /** The candidates one `<img>` offers, in the order they are tried: the
      four attributes, then the `srcset` tokens. */
  function ImgValues(e: Element): seq<string> {
    AttrValues(e, ImgAttrs) + (if "srcset" in e.attrs then SrcsetTokens(e.attrs["srcset"]) else [])
  }

  /** The value of attribute `name` as a candidate list: one value or
      none. */
  function AttrValue(e: Element, name: string): seq<string> {
    if name in e.attrs then [e.attrs[name]] else []
  }

  /** The first name's value, then the rest's. */
  lemma AttrValuesCons(e: Element, names: seq<string>)
    requires names != []
    ensures AttrValues(e, names) == AttrValue(e, names[0]) + AttrValues(e, names[1..])
  {
  }

  /** The four attributes' values, in the order of `ImgAttrs`. */
  lemma ImgAttrValues(e: Element)
    ensures AttrValues(e, ImgAttrs) ==
              AttrValue(e, "src") + (AttrValue(e, "data-src") + (AttrValue(e, "data-lazy") + AttrValue(e, "data-original")))
  {
    var n1 := ["data-src", "data-lazy", "data-original"];
    var n2 := ["data-lazy", "data-original"];
    var n3 := ["data-original"];
    assert ImgAttrs[1..] == n1;
    AttrValuesCons(e, ImgAttrs);
    assert n1[1..] == n2;
    AttrValuesCons(e, n1);
    assert n2[1..] == n3;
    AttrValuesCons(e, n2);
  }

  /** An `<img>` is tried for `src`, `data-src`, `data-lazy` and
      `data-original`, in that order, then for each `srcset` token. */
  lemma ImgValuesOrder(e: Element)
    ensures ImgValues(e) ==
              AttrValue(e, "src") + AttrValue(e, "data-src") + AttrValue(e, "data-lazy") + AttrValue(e, "data-original")
              + (if "srcset" in e.attrs then SrcsetTokens(e.attrs["srcset"]) else [])
  {
    ImgAttrValues(e);
  }

  /** The candidates of all `<img>` elements, in document order. */
  function ImgCandidates(els: seq<Element>): (vs: seq<string>)
    ensures forall v :: v in vs ==> exists k :: 0 <= k < |els| && els[k].tag == "img" && v in ImgValues(els[k])
  {
    if els == [] then []
    else
      var own := if els[0].tag == "img" then ImgValues(els[0]) else [];
      var rest := ImgCandidates(els[1..]);
      assert forall k :: 1 <= k < |els| ==> els[1..][k - 1] == els[k];
      own + rest
  }

  /** The candidates of a document split in two are those of the first
      part followed by those of the second: element by element, in
      document order. */
  lemma {:induction false} ImgCandidatesAppend(a: seq<Element>, b: seq<Element>)
    ensures ImgCandidates(a + b) == ImgCandidates(a) + ImgCandidates(b)
    decreases |a|
  {
    if a == [] {
      assert a + b == b;
    } else {
      var own := if a[0].tag == "img" then ImgValues(a[0]) else [];
      assert (a + b)[0] == a[0];
      assert (a + b)[1..] == a[1..] + b;
      assert ImgCandidates(a) == own + ImgCandidates(a[1..]);
      assert ImgCandidates(a + b) == own + ImgCandidates(a[1..] + b);
      ImgCandidatesAppend(a[1..], b);
      assert own + (ImgCandidates(a[1..]) + ImgCandidates(b)) == (own + ImgCandidates(a[1..])) + ImgCandidates(b);
    }
  }

  /** The candidates of element `k` come after those of the elements
      before it and before those of the elements after it. */
  lemma ImgCandidatesAt(els: seq<Element>, k: nat)
    requires k < |els|
    ensures ImgCandidates(els) ==
              ImgCandidates(els[..k]) + (if els[k].tag == "img" then ImgValues(els[k]) else []) + ImgCandidates(els[k + 1..])
  {
    var tail := [els[k]] + els[k + 1..];
    assert els == els[..k] + tail;
    ImgCandidatesAppend(els[..k], tail);
    ImgCandidatesAppend([els[k]], els[k + 1..]);
    ImgCandidatesOne(els[k]);
  }

  /** The candidates of a single element are its own. */
  lemma ImgCandidatesOne(e: Element)
    ensures ImgCandidates([e]) == (if e.tag == "img" then ImgValues(e) else [])
  {
    assert [e][1..] == [];
  }

  /** The file name of a URL, lower-cased, without its extension. */
  function Stem(u: string): string {
    var b := ToLower(Base(u));
    TrimSuffix(b, Ext(b))
  }

  /** The lower-cased file names of the URLs collected so far. */
  function LowerBases(found: seq<string>): (names: seq<string>)
    ensures |names| == |found|
    ensures forall k :: 0 <= k < |found| ==> names[k] == ToLower(Base(found[k]))
  {
    seq(|found|, k requires 0 <= k < |found| => ToLower(Base(found[k])))
  }

  /** Whether one of `names` contains `stem`, checked from the last one
      back. */
  predicate AnyContains(names: seq<string>, stem: string)
    decreases |names|
  {
    names != [] && (Contains(names[|names| - 1], stem) || AnyContains(names[..|names| - 1], stem))
  }

  /** The skip test: the lower-cased file name of some URL already
      collected contains the candidate's stem. */
  predicate Shadowed(found: seq<string>, u: string) {
    AnyContains(LowerBases(found), Stem(u))
  }

  /** `AnyContains` is the scan over all names. */
  lemma {:induction false} AnyContainsExists(names: seq<string>, stem: string)
    ensures AnyContains(names, stem) <==> exists k :: 0 <= k < |names| && Contains(names[k], stem)
    decreases |names|
  {
    if names != [] {
      var n := |names| - 1;
      var init := names[..n];
      AnyContainsExists(init, stem);
      if Contains(names[n], stem) {
        assert AnyContains(names, stem);
      } else if AnyContains(init, stem) {
        var k :| 0 <= k < n && Contains(init[k], stem);
        assert init[k] == names[k];
      } else {
        forall k | 0 <= k < |names|
          ensures !Contains(names[k], stem)
        {
          if k < n {
            assert init[k] == names[k];
          }
        }
      }
    }
  }

  /** A URL's own file name contains its stem. */
  lemma CoversSelf(u: string)
    ensures Contains(ToLower(Base(u)), Stem(u))
  {
    var b := ToLower(Base(u));
    var stem := TrimSuffix(b, Ext(b));
    assert b[0..|stem|] == stem;
    ContainsAt(b, stem, 0);
  }

  /** A URL already collected is always shadowed, so the duplicate test
      after the skip test never drops anything. */
  lemma OwnStem(found: seq<string>, u: string)
    requires u in found
    ensures Shadowed(found, u)
  {
    var k :| 0 <= k < |found| && found[k] == u;
    CoversSelf(u);
    AnyContainsExists(LowerBases(found), Stem(u));
  }

  /** An empty stem, as for a file name that is all extension, is
      contained in every name: once anything is collected, such a
      candidate is always skipped. */
  lemma EmptyStemSkips(found: seq<string>, u: string)
    requires Stem(u) == [] && found != []
    ensures Shadowed(found, u)
  {
    var names := LowerBases(found);
    ContainsEmpty(names[0]);
    AnyContainsExists(names, Stem(u));
  }

  /** One `<img>` candidate offered to the list: trimmed, dropped when
      empty, resolved, then skipped when shadowed or already present. */
  function Offer(found: seq<string>, raw: string, resolve: Resolver): (r: seq<string>)
    ensures r == found || (|r| == |found| + 1 && r[..|found|] == found)
    ensures r != found ==> !Shadowed(found, r[|found|]) && r[|found|] !in found
    ensures r != found ==> r[|found|] == Resolve(TrimSpace(raw), resolve)
    ensures var u := Resolve(TrimSpace(raw), resolve);
      TrimSpace(raw) != [] && !Shadowed(found, u) && u !in found ==> r == found + [u]
    ensures var u := Resolve(TrimSpace(raw), resolve);
      r != found <==> TrimSpace(raw) != [] && !Shadowed(found, u) && u !in found
  {
    var v := TrimSpace(raw);
    if v == [] then found
    else
      var u := Resolve(v, resolve);
      if Shadowed(found, u) || u in found then found else found + [u]
  }

  /** Collecting more URLs never unshadows a candidate. */
  lemma {:induction false} ShadowedGrows(found: seq<string>, more: seq<string>, u: string)
    requires Shadowed(found, u)
    ensures Shadowed(found + more, u)
  {
    LowerBasesAppend(found, more);
    AnyContainsGrows(LowerBases(found), LowerBases(found + more), Stem(u));
  }

  /** The names of a longer list start with the names of its prefix. */
  lemma LowerBasesAppend(found: seq<string>, more: seq<string>)
    ensures |LowerBases(found)| <= |LowerBases(found + more)|
    ensures LowerBases(found) == LowerBases(found + more)[..|found|]
  {
    var names, names' := LowerBases(found), LowerBases(found + more);
    forall k | 0 <= k < |found| ensures names'[k] == names[k] {
      assert (found + more)[k] == found[k];
    }
  }

  /** A name found among the first names is still found once more names
      follow. */
  lemma AnyContainsGrows(names: seq<string>, names': seq<string>, stem: string)
    requires |names| <= |names'| && names == names'[..|names|]
    requires AnyContains(names, stem)
    ensures AnyContains(names', stem)
  {
    AnyContainsExists(names, stem);
    var k :| 0 <= k < |names| && Contains(names[k], stem);
    assert names'[k] == names[k];
    AnyContainsExists(names', stem);
  }

  /** The candidates as they are offered: trimmed and resolved. */
  function Resolved(vs: seq<string>, resolve: Resolver): (us: seq<string>)
    ensures |us| == |vs|
    ensures forall k :: 0 <= k < |vs| ==> us[k] == Resolve(TrimSpace(vs[k]), resolve)
  {
    seq(|vs|, k requires 0 <= k < |vs| => Resolve(TrimSpace(vs[k]), resolve))
  }

  /** The candidates `vs` offered in turn; the list only grows at its
      end. */
  function OfferAll(found: seq<string>, vs: seq<string>, resolve: Resolver): (r: seq<string>)
    ensures found <= r
    decreases |vs|
  {
    if vs == [] then found
    else OfferAll(Offer(found, vs[0], resolve), vs[1..], resolve)
  }

  /** Appending a value the list lacks keeps it free of repeats. */
  lemma NoDupSnoc(xs: seq<string>, u: string)
    requires NoDup(xs) && u !in xs
    ensures NoDup(xs + [u])
  {
  }

  /** Offering keeps the list free of repeats. */
  lemma {:induction false} OfferAllNoDup(found: seq<string>, vs: seq<string>, resolve: Resolver)
    requires NoDup(found)
    ensures NoDup(OfferAll(found, vs, resolve))
    decreases |vs|
  {
    if vs != [] {
      var next := Offer(found, vs[0], resolve);
      if next != found {
        assert next == found + [next[|found|]];
        NoDupSnoc(found, next[|found|]);
      }
      OfferAllNoDup(next, vs[1..], resolve);
    }
  }

  /** Every URL offering adds was not shadowed by the list before it. */
  lemma {:induction false} OfferAllUnshadowed(found: seq<string>, vs: seq<string>, resolve: Resolver, p: nat)
    requires |found| <= p < |OfferAll(found, vs, resolve)|
    ensures var r := OfferAll(found, vs, resolve); !Shadowed(r[..p], r[p])
    decreases |vs|
  {
    var next := Offer(found, vs[0], resolve);
    var r := OfferAll(next, vs[1..], resolve);
    if p < |next| {
      assert r[..p] == next[..p] == found;
      assert r[p] == next[p];
    } else {
      OfferAllUnshadowed(next, vs[1..], resolve, p);
    }
  }

  /** Every URL offering adds comes from a candidate, trimmed and
      resolved. */
  lemma {:induction false} OfferAllFromCandidates(found: seq<string>, vs: seq<string>, resolve: Resolver, p: nat)
    requires |found| <= p < |OfferAll(found, vs, resolve)|
    ensures OfferAll(found, vs, resolve)[p] in Resolved(vs, resolve)
    decreases |vs|
  {
    var next := Offer(found, vs[0], resolve);
    var r := OfferAll(next, vs[1..], resolve);
    if p < |next| {
      assert r[p] == next[p];
      OfferedFromHead(found, vs, resolve);
    } else {
      OfferAllFromCandidates(next, vs[1..], resolve, p);
      ResolvedTail(vs, resolve, r[p]);
    }
  }

  lemma OfferedFromHead(found: seq<string>, vs: seq<string>, resolve: Resolver)
    requires vs != [] && |found| < |Offer(found, vs[0], resolve)|
    ensures Offer(found, vs[0], resolve)[|found|] in Resolved(vs, resolve)
  {
    assert Offer(found, vs[0], resolve)[|found|] == Resolved(vs, resolve)[0];
  }

  lemma ResolvedTail(vs: seq<string>, resolve: Resolver, u: string)
    requires vs != [] && u in Resolved(vs[1..], resolve)
    ensures u in Resolved(vs, resolve)
  {
    var rest := Resolved(vs[1..], resolve);
    var j :| 0 <= j < |rest| && rest[j] == u;
    assert vs[1..][j] == vs[j + 1];
    assert Resolved(vs, resolve)[j + 1] == u;
  }

  /** One offer keeps a shadowed URL shadowed and out of the list. */
  lemma OfferKeepsShadowedOut(found: seq<string>, raw: string, resolve: Resolver, u: string)
    requires Shadowed(found, u) && u !in found
    ensures var next := Offer(found, raw, resolve); Shadowed(next, u) && u !in next
  {
    var next := Offer(found, raw, resolve);
    if next != found {
      var w := next[|found|];
      assert next == found + [w];
      ShadowedGrows(found, [w], u);
    }
  }

  /** A URL shadowed by the list at the start and not in it is never
      added. */
  lemma {:induction false} ShadowedNeverAdded(found: seq<string>, vs: seq<string>, resolve: Resolver, u: string)
    requires Shadowed(found, u) && u !in found
    ensures u !in OfferAll(found, vs, resolve)
    decreases |vs|
  {
    if vs != [] {
      var next := Offer(found, vs[0], resolve);
      OfferKeepsShadowedOut(found, vs[0], resolve, u);
      assert OfferAll(found, vs, resolve) == OfferAll(next, vs[1..], resolve);
      ShadowedNeverAdded(next, vs[1..], resolve, u);
    }
  }

  /** Offering `xs` then `ys` is offering `xs + ys`. */
  lemma {:induction false} OfferAllAppend(found: seq<string>, xs: seq<string>, ys: seq<string>, resolve: Resolver)
    ensures OfferAll(found, xs + ys, resolve) == OfferAll(OfferAll(found, xs, resolve), ys, resolve)
    decreases |xs|
  {
    if xs == [] {
      assert xs + ys == ys;
    } else {
      assert (xs + ys)[0] == xs[0];
      assert (xs + ys)[1..] == xs[1..] + ys;
      OfferAllAppend(Offer(found, xs[0], resolve), xs[1..], ys, resolve);
    }
  }

  /** Offering one more candidate is one more `Offer`. */
  lemma OfferAllSnoc(found: seq<string>, xs: seq<string>, y: string, resolve: Resolver)
    ensures OfferAll(found, xs + [y], resolve) == Offer(OfferAll(found, xs, resolve), y, resolve)
  {
    OfferAllAppend(found, xs, [y], resolve);
    var mid := OfferAll(found, xs, resolve);
    assert [y][1..] == [];
    assert OfferAll(mid, [y], resolve) == OfferAll(Offer(mid, y, resolve), [], resolve);
  }

  /** What one offer does, as a case split. */
  lemma OfferCases(found: seq<string>, raw: string, resolve: Resolver)
    ensures var u := Resolve(TrimSpace(raw), resolve);
      Offer(found, raw, resolve) == (if TrimSpace(raw) != [] && !Shadowed(found, u) && u !in found then found + [u] else found)
  {
  }

  /** Candidate `j` is appended exactly when it is non-empty and neither
      shadowed by nor present in the list the candidates before it built. */
  lemma OfferAllCandidate(found: seq<string>, vs: seq<string>, resolve: Resolver, j: nat)
    requires j < |vs|
    ensures var before := OfferAll(found, vs[..j], resolve);
      var u := Resolve(TrimSpace(vs[j]), resolve);
      OfferAll(found, vs[..j + 1], resolve) ==
        (if TrimSpace(vs[j]) != [] && !Shadowed(before, u) && u !in before then before + [u] else before)
  {
    assert vs[..j + 1] == vs[..j] + [vs[j]];
    OfferAllSnoc(found, vs[..j], vs[j], resolve);
    OfferCases(OfferAll(found, vs[..j], resolve), vs[j], resolve);
  }

  /** What the first `j` candidates build is kept by the rest. */
  lemma OfferAllPrefix(found: seq<string>, vs: seq<string>, resolve: Resolver, j: nat)
    requires j <= |vs|
    ensures OfferAll(found, vs[..j], resolve) <= OfferAll(found, vs, resolve)
  {
    assert vs == vs[..j] + vs[j..];
    OfferAllAppend(found, vs[..j], vs[j..], resolve);
  }

  /** A URL shadowed by the list stays shadowed however many candidates
      are offered. */
  lemma OfferAllKeepsShadow(found: seq<string>, vs: seq<string>, resolve: Resolver, u: string)
    requires Shadowed(found, u)
    ensures Shadowed(OfferAll(found, vs, resolve), u)
  {
    var r := OfferAll(found, vs, resolve);
    assert r == found + r[|found|..];
    ShadowedGrows(found, r[|found|..], u);
  }

  /** After one offer, a non-empty candidate is shadowed by the list. */
  lemma OfferCovers(found: seq<string>, raw: string, resolve: Resolver)
    requires TrimSpace(raw) != []
    ensures Shadowed(Offer(found, raw, resolve), Resolve(TrimSpace(raw), resolve))
  {
    var next := Offer(found, raw, resolve);
    var u := Resolve(TrimSpace(raw), resolve);
    if u in next {
      OwnStem(next, u);
    }
  }

  /** After offering, every non-empty candidate is shadowed by the list:
      it was added, or some URL already there covered its stem. */
  lemma {:induction false} OfferAllCovers(found: seq<string>, vs: seq<string>, resolve: Resolver, j: nat)
    requires j < |vs| && TrimSpace(vs[j]) != []
    ensures Shadowed(OfferAll(found, vs, resolve), Resolve(TrimSpace(vs[j]), resolve))
    decreases |vs|
  {
    var next := Offer(found, vs[0], resolve);
    assert OfferAll(found, vs, resolve) == OfferAll(next, vs[1..], resolve);
    if j == 0 {
      OfferCovers(found, vs[0], resolve);
      OfferAllKeepsShadow(next, vs[1..], resolve, Resolve(TrimSpace(vs[0]), resolve));
    } else {
      assert vs[1..][j - 1] == vs[j];
      OfferAllCovers(next, vs[1..], resolve, j - 1);
    }
  }

  // ------------------------------------------------------------ the pass

  /** `ExtractImageURLs(html, baseURL)`, `doc` being the parser's outcome:
      a parse error is returned as it is; otherwise a list free of repeats
      that starts with the deduplicated image links. */
  function ExtractImageUrls(doc: Result<seq<Element>>, resolve: Resolver): (r: Result<seq<string>>)
    ensures doc.Failure? ==> r == Failure(doc.error)
    ensures doc.Success? ==> r.Success? && NoDup(r.value)
    ensures doc.Success? ==> FirstOccurrences(AnchorLinks(doc.value, resolve)) <= r.value
    ensures doc.Success? ==>
              forall j :: 0 <= j < |ImgCandidates(doc.value)| && TrimSpace(ImgCandidates(doc.value)[j]) != [] ==>
                Shadowed(r.value, Resolve(TrimSpace(ImgCandidates(doc.value)[j]), resolve))
  {
    match doc
    case Failure(e) => Failure(e)
    case Success(els) =>
      var links := AddNew([], AnchorLinks(els, resolve));
      var vs := ImgCandidates(els);
      AddNewFirstOccurrences(AnchorLinks(els, resolve));
      FirstOccurrencesSound(AnchorLinks(els, resolve));
      OfferAllNoDup(links, vs, resolve);
      assert forall j :: 0 <= j < |vs| && TrimSpace(vs[j]) != [] ==>
               Shadowed(OfferAll(links, vs, resolve), Resolve(TrimSpace(vs[j]), resolve)) by {
        forall j | 0 <= j < |vs| && TrimSpace(vs[j]) != []
          ensures Shadowed(OfferAll(links, vs, resolve), Resolve(TrimSpace(vs[j]), resolve))
        {
          OfferAllCovers(links, vs, resolve, j);
        }
      }
      Success(OfferAll(links, vs, resolve))
  }

  /** An `<img>` candidate that is non-empty, and neither shadowed by nor
      present in what the links and the earlier candidates built, is
      returned, at the position that list ends. */
  lemma ImgCandidateReturned(els: seq<Element>, resolve: Resolver, j: nat)
    requires j < |ImgCandidates(els)|
    ensures var vs := ImgCandidates(els);
      var before := OfferAll(FirstOccurrences(AnchorLinks(els, resolve)), vs[..j], resolve);
      var u := Resolve(TrimSpace(vs[j]), resolve);
      var r := ExtractImageUrls(Success(els), resolve).value;
      TrimSpace(vs[j]) != [] && !Shadowed(before, u) && u !in before ==> |before| < |r| && r[|before|] == u
  {
    var links := FirstOccurrences(AnchorLinks(els, resolve));
    var vs := ImgCandidates(els);
    AddNewFirstOccurrences(AnchorLinks(els, resolve));
    OfferAllCandidate(links, vs, resolve, j);
    OfferAllPrefix(links, vs, resolve, j + 1);
  }

  /** After the image links, each returned URL comes from an `<img>`
      candidate and was not shadowed by any URL before it. */
  lemma ImgEntryAdmitted(els: seq<Element>, resolve: Resolver, p: nat)
    requires |FirstOccurrences(AnchorLinks(els, resolve))| <= p < |ExtractImageUrls(Success(els), resolve).value|
    ensures var r := ExtractImageUrls(Success(els), resolve).value;
      !Shadowed(r[..p], r[p]) && r[p] in Resolved(ImgCandidates(els), resolve)
  {
    AddNewFirstOccurrences(AnchorLinks(els, resolve));
    OfferAllUnshadowed(FirstOccurrences(AnchorLinks(els, resolve)), ImgCandidates(els), resolve, p);
    OfferAllFromCandidates(FirstOccurrences(AnchorLinks(els, resolve)), ImgCandidates(els), resolve, p);
  }

  /** Every image link of the document is returned; an `<img>` candidate
      shadowed by the image links, and not itself one of them, is not. */
  lemma LinksKeptShadowedDropped(els: seq<Element>, resolve: Resolver, u: string)
    ensures forall x :: x in AnchorLinks(els, resolve) ==> x in ExtractImageUrls(Success(els), resolve).value
    ensures var links := FirstOccurrences(AnchorLinks(els, resolve));
      Shadowed(links, u) && u !in links ==> u !in ExtractImageUrls(Success(els), resolve).value
  {
    var links := FirstOccurrences(AnchorLinks(els, resolve));
    AddNewFirstOccurrences(AnchorLinks(els, resolve));
    FirstOccurrencesSound(AnchorLinks(els, resolve));
    if Shadowed(links, u) && u !in links {
      ShadowedNeverAdded(links, ImgCandidates(els), resolve, u);
    }
  }
}

=== FILE: fanout.dfy ===
/** The two `DownloadFilesConcurrently` wrappers, of internal/downloader.go
    and internal/image/downloader.go, as the sequence of their calls: URL
    `i` is downloaded with index `i + 1`, and the count printed at the end
    is one increment per call that returned no error. */
module Fanout {
  import opened Wrappers
  import opened Codec
  import opened Naming
  import opened Attempts
  import DataUri
  import Retry
  import ImageDownload

  /** The count the goroutines keep: one increment per success. */
  function SuccessCount(rs: seq<Result<StoredFile>>): (n: nat)
    ensures n <= |rs|
    ensures n == |rs| <==> forall i :: 0 <= i < |rs| ==> rs[i].Success?
  {
    if rs == [] then 0
    else
      var n := SuccessCount(rs[..|rs| - 1]);
      assert forall i :: 0 <= i < |rs| - 1 ==> rs[..|rs| - 1][i] == rs[i];
      n + (if rs[|rs| - 1].Success? then 1 else 0)
  }

  /** The positions of the calls that returned no error. */
  function Succeeded(rs: seq<Result<StoredFile>>): set<nat> {
    set i: nat | i < |rs| && rs[i].Success?
  }

  /** The count is the number of calls that returned no error. */
  lemma {:induction false} SuccessCountExact(rs: seq<Result<StoredFile>>)
    ensures SuccessCount(rs) == |Succeeded(rs)|
    decreases |rs|
  {
    if rs != [] {
      var init := rs[..|rs| - 1];
      SuccessCountExact(init);
      var last := |rs| - 1;
      if rs[last].Success? {
        assert Succeeded(rs) == Succeeded(init) + {last};
        assert last !in Succeeded(init);
      } else {
        assert Succeeded(rs) == Succeeded(init);
      }
    }
  }

  // ------------------------------------------------ internal/downloader.go

  /** The result of one call of the retrying downloader. */
  function RetryCall(url: string, idx: int, env: Retry.Env): Result<StoredFile> {
    Retry.DownloadFile(url, idx, env).result
  }

  /** The results of the retrying downloader over `urls`, `envs(i)` being
      what the call for URL `i` meets. */
  function RetryResults(urls: seq<string>, envs: nat -> Retry.Env): (rs: seq<Result<StoredFile>>)
    ensures |rs| == |urls|
  {
    seq(|urls|, i requires 0 <= i < |urls| => RetryCall(urls[i], i + 1, envs(i)))
  }

  /** The count `DownloadFilesConcurrently` prints. */
  function RetryReported(urls: seq<string>, envs: nat -> Retry.Env): (n: nat)
    ensures n == |set i: nat | i < |urls| && RetryCall(urls[i], i + 1, envs(i)).Success?|
  {
    var rs := RetryResults(urls, envs);
    SuccessCountExact(rs);
    assert Succeeded(rs) == set i: nat | i < |urls| && RetryCall(urls[i], i + 1, envs(i)).Success?;
    SuccessCount(rs)
  }

  /** A stored file's name reads back to the index `idx`. */
  predicate NamedFor(r: Result<StoredFile>, idx: nat) {
    r.Success? ==> ParseFileName(r.value.name).Some? && ParseFileName(r.value.name).value.1 == idx
  }

  /** Successes named for different indices have different names. */
  lemma NamedForDistinct(r1: Result<StoredFile>, i1: nat, r2: Result<StoredFile>, i2: nat)
    requires r1.Success? && r2.Success? && i1 != i2
    requires NamedFor(r1, i1) && NamedFor(r2, i2)
    ensures r1.value.name != r2.value.name
  {
  }

  /** A file the retrying downloader stores for index `idx` carries that
      index in its name. */
  lemma RetryNameCarriesIndex(url: string, idx: nat, env: Retry.Env)
    ensures NamedFor(RetryCall(url, idx, env), idx)
  {
    Retry.DownloadOutcome(url, idx, env);
    var r := Retry.DownloadFile(url, idx, env);
    if r.result.Success? {
      var a := r.attempts - 1;
      var s := Retry.AttemptStep(url, idx, env, a);
      assert s.Stop? && s.result == r.result == RetryCall(url, idx, env);
      if Retry.IsInline(url) {
        FileNameRoundTrip(env.rnd(a), idx, DataUri.Decode(url).value.0);
      } else {
        FileNameRoundTrip(env.rnd(a), idx, ChooseExtension(url, env.exchange(a).contentType));
      }
    }
  }

  /** No two calls of one batch store under the same name, whatever random
      bytes they drew: the calls for URLs `i` and `j` use indices `i + 1`
      and `j + 1`. */
  lemma RetryNamesDistinct(u1: string, i1: nat, e1: Retry.Env, u2: string, i2: nat, e2: Retry.Env)
    requires i1 != i2
    requires RetryCall(u1, i1, e1).Success? && RetryCall(u2, i2, e2).Success?
    ensures RetryCall(u1, i1, e1).value.name != RetryCall(u2, i2, e2).value.name
  {
    RetryNameCarriesIndex(u1, i1, e1);
    RetryNameCarriesIndex(u2, i2, e2);
    NamedForDistinct(RetryCall(u1, i1, e1), i1, RetryCall(u2, i2, e2), i2);
  }

  // ---------------------------------------- internal/image/downloader.go

  /** The results of the image package's downloader over `urls`. */
  function ImageResults(urls: seq<string>, envs: nat -> ImageDownload.ImageEnv): (rs: seq<Result<StoredFile>>)
    ensures |rs| == |urls|
  {
    seq(|urls|, i requires 0 <= i < |urls| => ImageDownload.DownloadFile(urls[i], i + 1, envs(i)).result)
  }

  /** The count the image package's `DownloadFilesConcurrently` prints. */
  function ImageReported(urls: seq<string>, envs: nat -> ImageDownload.ImageEnv): (n: nat)
    ensures n == |set i: nat | i < |urls| && ImageDownload.DownloadFile(urls[i], i + 1, envs(i)).result.Success?|
  {
    var rs := ImageResults(urls, envs);
    SuccessCountExact(rs);
    assert Succeeded(rs) == set i: nat | i < |urls| && ImageDownload.DownloadFile(urls[i], i + 1, envs(i)).result.Success?;
    SuccessCount(rs)
  }

  /** A file the image package stores for index `idx` carries that index
      in its name. */
  lemma ImageNameCarriesIndex(url: string, idx: nat, env: ImageDownload.ImageEnv)
    ensures NamedFor(ImageDownload.DownloadFile(url, idx, env).result, idx)
  {
    if ImageDownload.DownloadFile(url, idx, env).result.Success? {
      if Retry.IsInline(url) {
        FileNameRoundTrip(env.rnd, idx, DataUri.Decode(url).value.0);
      } else {
        FileNameRoundTrip(env.rnd, idx, ChooseExtension(url, env.exchange.contentType));
      }
    }
  }

  /** No two calls of one image batch store under the same name. */
  lemma ImageNamesDistinct(u1: string, i1: nat, e1: ImageDownload.ImageEnv, u2: string, i2: nat, e2: ImageDownload.ImageEnv)
    requires i1 != i2
    requires ImageDownload.DownloadFile(u1, i1, e1).result.Success? && ImageDownload.DownloadFile(u2, i2, e2).result.Success?
    ensures ImageDownload.DownloadFile(u1, i1, e1).result.value.name != ImageDownload.DownloadFile(u2, i2, e2).result.value.name
  {
    ImageNameCarriesIndex(u1, i1, e1);
    ImageNameCarriesIndex(u2, i2, e2);
    NamedForDistinct(ImageDownload.DownloadFile(u1, i1, e1).result, i1, ImageDownload.DownloadFile(u2, i2, e2).result, i2);
  }
}

=== FILE: image_download.dfy ===
/** The image package's downloader, `DownloadFile` of
    internal/image/downloader.go: one attempt, no sleeps, the same inline
    `data:image/` handling, extension rule, names and 50 KiB floor as the
    retrying downloader of internal/downloader.go. */
module ImageDownload {
  import opened Wrappers
  import opened Naming
  import opened Attempts
  import DataUri
  import Retry

  /** What the single attempt meets: the error `http.NewRequest` gives for
      the URL, the exchange, the outcome of writing the file, and the
      random name bytes. */
  datatype ImageEnv = ImageEnv(request: Option<string>, exchange: Exchange, save: SaveOutcome, rnd: Rand4)

  /** The call's outcome: the returned error or stored file, whether a
      request went out, and whether `os.Create` made a file. */
  datatype Outcome = Outcome(result: Result<StoredFile>, requested: bool, created: bool)

  /** The write of an inline image: its create or write error, or the
      decoded bytes stored with no size floor. */
  function SaveInline(name: string, size: nat, save: SaveOutcome): (o: Outcome)
    ensures !o.requested
    ensures o.created <==> !save.CreateFailure?
    ensures o.result.Success? <==> !SaveFailed(save)
    ensures o.result.Success? ==> o.result.value == StoredFile(name, Some(size))
    ensures o.result.Failure? ==> o.result.error == SaveError(save)
  {
    match save
    case CreateFailure(e) => Outcome(Failure(e), false, false)
    case WriteFailure(e) => Outcome(Failure(e), false, true)
    case _ => Outcome(Success(StoredFile(name, Some(size))), false, true)
  }

  /** The write of a fetched body: its create or write error, the removal
      of a file under 50 KiB, or the stored file; a failed `Stat` keeps the
      file. */
  function SaveFetched(name: string, save: SaveOutcome): (o: Outcome)
    ensures o.requested
    ensures o.created <==> !save.CreateFailure?
    ensures o.result.Success? <==> save == SizeUnknown || (save.Saved? && save.size >= Retry.MinFileSize)
    ensures save.Saved? && save.size < Retry.MinFileSize ==> o.result == Failure(Retry.UndersizedMessage(name))
    ensures o.result.Success? ==> o.result.value.name == name
    ensures o.result.Success? && o.result.value.size.Some? ==>
              save == Saved(o.result.value.size.value) && o.result.value.size.value >= Retry.MinFileSize
  {
    match save
    case CreateFailure(e) => Outcome(Failure(e), true, false)
    case WriteFailure(e) => Outcome(Failure(e), true, true)
    case Saved(size) =>
      if size < Retry.MinFileSize then Outcome(Failure(Retry.UndersizedMessage(name)), true, true)
      else Outcome(Success(StoredFile(name, Some(size))), true, true)
    case SizeUnknown => Outcome(Success(StoredFile(name, None)), true, true)
  }

  /** `DownloadFile(url, outDir, idx)`. */
  function DownloadFile(url: string, idx: int, env: ImageEnv): (o: Outcome)
    ensures o.requested <==> !Retry.IsInline(url) && env.request.None?
    ensures Retry.IsInline(url) && DataUri.Decode(url).Failure? ==>
              o == Outcome(Failure(DataUri.Decode(url).error), false, false)
    ensures Retry.IsInline(url) && o.result.Success? ==>
              && DataUri.Decode(url).Success?
              && o.result.value == StoredFile(FileName(env.rnd, idx, DataUri.Decode(url).value.0),
                                              Some(|DataUri.Decode(url).value.1|))
    ensures !Retry.IsInline(url) && env.request.Some? ==> o == Outcome(Failure(env.request.value), false, false)
    ensures !Retry.IsInline(url) && env.request.None? && env.exchange.TransportFailure? ==>
              o == Outcome(Failure(env.exchange.err), true, false)
    ensures !Retry.IsInline(url) && env.request.None? && env.exchange.Reply? && IsBadStatus(env.exchange.code) ==>
              o == Outcome(Failure(BadStatus(env.exchange.status)), true, false)
    ensures !Retry.IsInline(url) && o.result.Success? ==>
              && env.request.None? && env.exchange.Reply? && !IsBadStatus(env.exchange.code)
              && o.result.value.name == FileName(env.rnd, idx, ChooseExtension(url, env.exchange.contentType))
              && (o.result.value.size.Some? ==> o.result.value.size.value >= Retry.MinFileSize)
  {
    if Retry.IsInline(url) then
      match DataUri.Decode(url)
      case Failure(e) => Outcome(Failure(e), false, false)
      case Success((ext, data)) => SaveInline(FileName(env.rnd, idx, ext), |data|, env.save)
    else if env.request.Some? then Outcome(Failure(env.request.value), false, false)
    else
      match env.exchange
      case TransportFailure(e) => Outcome(Failure(e), true, false)
      case Reply(code, status, _, ctype) =>
        if IsBadStatus(code) then Outcome(Failure(BadStatus(status)), true, false)
        else SaveFetched(FileName(env.rnd, idx, ChooseExtension(url, ctype)), env.save)
  }

  /** The retrying downloader's environment that repeats this one on every
      attempt. */
  function Repeated(env: ImageEnv): Retry.Env {
    Retry.Env(env.request, _ => env.exchange, _ => env.save, _ => 0, _ => env.rnd)
  }

  /** What a call returns when it stops after one iteration of the retrying
      loop: the iteration's result, or the error it would have retried. */
  function StepAsCall(s: Retry.Step): Result<StoredFile> {
    match s
    case Stop(r) => r
    case Again(e, _) => Failure(e)
  }

  /** The image package's downloader is exactly one iteration of the
      retrying downloader, an error ending the call instead of a retry. */
  lemma OneIterationOfRetry(url: string, idx: int, env: ImageEnv)
    ensures DownloadFile(url, idx, env).result == StepAsCall(Retry.AttemptStep(url, idx, Repeated(env), 0))
  {
    var r := Repeated(env);
    assert r.exchange(0) == env.exchange && r.save(0) == env.save && r.rnd(0) == env.rnd;
    if Retry.Sends(url, r) && env.exchange.Reply? && !IsBadStatus(env.exchange.code) {
      assert !IsThrottleStatus(env.exchange.code);
    }
  }

  /** A request that cannot be built, a failed request or a bad status
      returns before any file exists. */
  lemma NoFileBeforeGoodStatus(url: string, idx: int, env: ImageEnv)
    requires !Retry.IsInline(url)
    requires env.request.Some? || env.exchange.TransportFailure? || IsBadStatus(env.exchange.code)
    ensures !DownloadFile(url, idx, env).created && DownloadFile(url, idx, env).result.Failure?
  {
  }

  /** A decoded inline image is stored whatever its size. */
  lemma InlineNoFloor(url: string, idx: int, env: ImageEnv)
    requires Retry.IsInline(url) && DataUri.Decode(url).Success?
    requires env.save == Saved(0)
    ensures DownloadFile(url, idx, env).result ==
              Success(StoredFile(FileName(env.rnd, idx, DataUri.Decode(url).value.0), Some(|DataUri.Decode(url).value.1|)))
  {
  }

  /** A fetched body under 50 KiB is removed and reported. */
  lemma UndersizedRemoved(url: string, idx: int, env: ImageEnv)
    requires !Retry.IsInline(url) && env.request.None?
    requires env.exchange.Reply? && !IsBadStatus(env.exchange.code)
    requires env.save.Saved? && env.save.size < Retry.MinFileSize
    ensures DownloadFile(url, idx, env) ==
              Outcome(Failure(Retry.UndersizedMessage(FileName(env.rnd, idx, ChooseExtension(url, env.exchange.contentType)))),
                      true, true)
  {
  }
}

=== FILE: naming.dfy ===
/** How the downloaders name the files they write: the extension rules, the
    `file_<hex>_<%03d index><ext>` pattern, and the root downloader's name
    taken from the URL path. */
module Naming {
  import opened Wrappers
  import opened Text
  import opened Paths
  import opened Codec

  /** The four random bytes `crypto/rand` supplies for each name. */
  type Rand4 = s: seq<Byte> | |s| == 4 witness [0, 0, 0, 0]

  // --------------------------------------------------------- extensions

  /** The ten media types the direct downloaders recognise. */
  const ContentTypes: map<string, string> := map[
    "image/jpeg" := ".jpg",
    "image/png" := ".png",
    "image/gif" := ".gif",
    "image/webp" := ".webp",
    "image/bmp" := ".bmp",
    "image/tiff" := ".tiff",
    "video/mp4" := ".mp4",
    "video/webm" := ".webm",
    "video/ogg" := ".ogv",
    "video/quicktime" := ".mov"
  ]

  const Generic: string := ".bin"

  /** Every extension the table yields is a short dotted name other than
      the generic one. */
  lemma TableExtensionsShort()
    ensures forall t :: t in ContentTypes ==>
              var e := ContentTypes[t]; 4 <= |e| <= 5 && e[0] == '.' && e != Generic && Utf8Len(e) == |e|
  {
  }

  /** The part of a Content-Type value before its first `;`. */
  function MediaType(ctype: string): (t: string)
    ensures ';' !in t
    ensures t <= ctype
    ensures t == ctype || ctype[|t|] == ';'
  {
    if ';' in ctype then ctype[..IndexOf(ctype, ';')] else ctype
  }

  /** The extension a response's Content-Type names: the table's entry for
      its media type, or `.bin` when the header is absent or the type is not
      in the table. */
  function ContentTypeExt(ctype: string): (e: string)
    ensures e == Generic || e in ContentTypes.Values
  {
    if ctype == "" then Generic
    else
      var t := MediaType(ctype);
      if t in ContentTypes then ContentTypes[t] else Generic
  }

  /** The table is consulted on the media type alone: any parameters after
      `;` are ignored. */
  lemma ContentTypeWithParameters(t: string, params: string)
    requires t in ContentTypes
    ensures ContentTypeExt(t + ";" + params) == ContentTypes[t]
    ensures ContentTypeExt(t) == ContentTypes[t]
  {
    assert ';' !in t;
    assert (t + ";" + params)[|t|] == ';';
    IndexOfFirst(t + ";" + params, ';', |t|);
    assert (t + ";" + params)[..|t|] == t;
  }

  /** An absent header or an unknown media type falls back to `.bin`. */
  lemma ContentTypeUnknown(ctype: string)
    requires ctype == "" || MediaType(ctype) !in ContentTypes
    ensures ContentTypeExt(ctype) == Generic
  {
  }

  /** Whether the direct downloaders keep `filepath.Ext` of the URL: one to
      ten bytes long and not `.bin`. */
  predicate KeepsUrlExt(ext: string) {
    1 <= Utf8Len(ext) <= 10 && ext != Generic
  }

  /** The direct downloaders' extension: the URL's own when it qualifies,
      otherwise the Content-Type's. It is always a dotted name of at most
      ten bytes, and it is the URL's own exactly when that qualifies. */
  function ChooseExtension(url: string, ctype: string): (e: string)
    ensures e != [] && e[0] == '.' && Utf8Len(e) <= 10
    ensures KeepsUrlExt(Ext(url)) ==> e == Ext(url)
    ensures !KeepsUrlExt(Ext(url)) ==> e == ContentTypeExt(ctype)
  {
    var ext := Ext(url);
    TableExtensionsShort();
    if KeepsUrlExt(ext) then ext else ContentTypeExt(ctype)
  }

  /** The escalating downloader and the browser tier: the URL's own
      extension when it is one to ten bytes long (`.bin` included), else
      `.jpg`, whatever the response says. */
  function BrowserExtension(url: string): (e: string)
    ensures e != [] && e[0] == '.' && Utf8Len(e) <= 10
    ensures e == Ext(url) <==> 1 <= Utf8Len(Ext(url)) <= 10
    ensures !(1 <= Utf8Len(Ext(url)) <= 10) ==> e == ".jpg"
  {
    var ext := Ext(url);
    if 1 <= Utf8Len(ext) <= 10 then ext else ".jpg"
  }

  /** The two rules part ways on a `.bin` URL: the direct downloaders ask
      the Content-Type, the escalating one keeps `.bin`. And a long
      extension is replaced by both. */
  lemma BinUrlRules(ctype: string)
    ensures BrowserExtension("http://h/x.bin") == Generic
    ensures ChooseExtension("http://h/x.bin", ctype) == ContentTypeExt(ctype)
  {
    var u := "http://h/x.bin";
    assert u[..11] == "http://h/x." && Ext(u[..11]) == ".";
    assert u[..12][..11] == u[..11] && Ext(u[..12]) == ".b";
    assert u[..13][..12] == u[..12] && Ext(u[..13]) == ".bi";
    assert u[..13] == u[..|u| - 1];
    assert Ext(u) == ".bin";
    assert Utf8Len(".bin") == 4;
  }

  // ------------------------------------------------------------- names

  const NamePrefix: string := "file_"

  /** `fmt.Sprintf("file_%s_%03d%s", hex(rnd), idx, ext)`. */
  function FileName(rnd: Rand4, idx: int, ext: string): (name: string)
    ensures HasPrefix(name, NamePrefix) && HasSuffix(name, ext)
    ensures |name| >= |NamePrefix| + 8 + 1 + 3 + |ext|
    ensures forall i :: 5 <= i < 13 ==> IsLowerHex(name[i])
    ensures name[13] == '_'
  {
    Pad3Width(idx);
    FileNameShape(HexEncode(rnd), Pad3(idx), ext);
    NamePrefix + HexEncode(rnd) + "_" + Pad3(idx) + ext
  }

  lemma FileNameShape(hex: string, digits: string, ext: string)
    requires |hex| == 8 && forall i :: 0 <= i < 8 ==> IsLowerHex(hex[i])
    requires |digits| >= 3
    ensures var name := NamePrefix + hex + "_" + digits + ext;
      && HasPrefix(name, NamePrefix) && HasSuffix(name, ext)
      && |name| >= |NamePrefix| + 8 + 1 + 3 + |ext|
      && (forall i :: 5 <= i < 13 ==> IsLowerHex(name[i]))
      && name[13] == '_'
  {
    var name := NamePrefix + hex + "_" + digits + ext;
    assert name[..5] == NamePrefix;
    assert forall i :: 5 <= i < 13 ==> name[i] == hex[i - 5];
    assert name[|name| - |ext|..] == ext;
  }

  /** Number of leading decimal digits. */
  function DigitSpan(s: string): (n: nat)
    ensures n <= |s| && AllDigits(s[..n])
    ensures n == |s| || !IsDigit(s[n])
  {
    if s == [] || !IsDigit(s[0]) then 0
    else
      var n := 1 + DigitSpan(s[1..]);
      assert s[..n] == [s[0]] + s[1..][..n - 1];
      n
  }

  /** Reads a name back into its random bytes, index and extension. */
  function ParseFileName(name: string): Option<(seq<Byte>, nat, string)> {
    if |name| < 14 || name[..5] != NamePrefix || name[13] != '_' then None
    else match HexDecode(name[5..13])
      case None => None
      case Some(rnd) =>
        var rest := name[14..];
        var n := DigitSpan(rest);
        if n == 0 then None else Some((rnd, DecimalValue(rest[..n]), rest[n..]))
  }

  /** A name made for a non-negative index and an extension that does not
      start with a digit determines the random bytes, the index and the
      extension: distinct indices never share a name. */
  lemma FileNameRoundTrip(rnd: Rand4, idx: nat, ext: string)
    requires ext == [] || !IsDigit(ext[0])
    ensures ParseFileName(FileName(rnd, idx, ext)) == Some((rnd, idx, ext))
  {
    var hex := HexEncode(rnd);
    var digits := Pad3(idx);
    HexRoundTrip(rnd);
    Pad3Digits(idx);
    assert FileName(rnd, idx, ext) == NamePrefix + hex + "_" + digits + ext;
    ParseParts(hex, rnd, digits, ext);
  }

  /** A name assembled from eight hex digits, a run of decimal digits and
      an extension that does not start with a digit reads back into its
      parts. */
  lemma ParseParts(hex: string, rnd: Rand4, digits: string, ext: string)
    requires |hex| == 8 && HexDecode(hex) == Some(rnd)
    requires digits != [] && AllDigits(digits)
    requires ext == [] || !IsDigit(ext[0])
    ensures ParseFileName(NamePrefix + hex + "_" + digits + ext) == Some((rnd, DecimalValue(digits), ext))
  {
    var rest := digits + ext;
    NameSplit(hex, rest);
    assert NamePrefix + hex + "_" + digits + ext == NamePrefix + hex + "_" + rest;
    DigitSpanOf(digits, ext);
    assert rest[..|digits|] == digits;
    assert rest[|digits|..] == ext;
  }

  lemma NameSplit(hex: string, rest: string)
    requires |hex| == 8
    ensures var name := NamePrefix + hex + "_" + rest;
      |name| >= 14 && name[..5] == NamePrefix && name[5..13] == hex && name[13] == '_' && name[14..] == rest
  {
  }

  lemma {:induction false} DigitSpanOf(d: string, tail: string)
    requires AllDigits(d)
    requires tail == [] || !IsDigit(tail[0])
    ensures DigitSpan(d + tail) == |d|
    decreases |d|
  {
    if d == [] {
      assert d + tail == tail;
    } else {
      assert (d + tail)[1..] == d[1..] + tail;
      DigitSpanOf(d[1..], tail);
    }
  }

  /** Names of different tasks differ, whatever random bytes they drew. */
  lemma FileNamesDistinct(r1: Rand4, i1: nat, r2: Rand4, i2: nat, ext: string)
    requires ext == [] || !IsDigit(ext[0])
    requires i1 != i2
    ensures FileName(r1, i1, ext) != FileName(r2, i2, ext)
  {
    FileNameRoundTrip(r1, i1, ext);
    FileNameRoundTrip(r2, i2, ext);
  }

  // ----------------------------------------------------- root downloader

  /** The root downloader's name for a URL with host `host` and path `path`:
      `path.Base(path)` when that is a real element, otherwise `file_`
      followed by host and path with `/` and then `?` replaced by `_`. */
  function RootFileName(host: string, path: string): (name: string)
    ensures '/' !in name
    ensures name != []
  {
    var b := Base(path);
    if b == "" || b == "." || '/' in b then
      FallbackNoSlash(host + path);
      NamePrefix + ReplaceChar(ReplaceChar(host + path, '/', '_'), '?', '_')
    else b
  }

  lemma FallbackNoSlash(s: string)
    ensures '/' !in NamePrefix + ReplaceChar(ReplaceChar(s, '/', '_'), '?', '_')
  {
    var once := ReplaceChar(s, '/', '_');
    var flat := ReplaceChar(once, '?', '_');
    assert forall i :: 0 <= i < |once| ==> once[i] != '/';
    assert forall i :: 0 <= i < |flat| ==> flat[i] != '/';
    var name := NamePrefix + flat;
    forall i | 0 <= i < |name|
      ensures name[i] != '/'
    {
      if i >= 5 {
        assert name[i] == flat[i - 5];
      }
    }
  }

  /** An empty path, or one made only of slashes, takes the fallback; any
      other path whose last element is not `.` keeps that element. */
  lemma RootFileNameFallback(host: string, path: string)
    ensures (path == [] || AllSlashes(path)) ==>
              RootFileName(host, path) == NamePrefix + ReplaceChar(ReplaceChar(host + path, '/', '_'), '?', '_')
    ensures !AllSlashes(path) && Base(path) != "." ==>
              RootFileName(host, path) == Base(path) && HasSuffix(StripTrailingSlashes(path), RootFileName(host, path))
  {
  }
}

=== FILE: paths.dfy ===
/** The two path helpers of Go's standard library the downloader uses on
    URLs and URL paths: `filepath.Ext` and `path.Base` (on a system whose
    only path separator is `/`, where `filepath.Base` is `path.Base`). */
module Paths {
  import opened Text

  /** The part of `p` after its last `/` (all of `p` when it has none). */
  function AfterLastSlash(p: string): (r: string)
    ensures HasSuffix(p, r)
    ensures '/' !in r
    ensures |r| == |p| || p[|p| - |r| - 1] == '/'
  {
    if p == [] || p[|p| - 1] == '/' then []
    else AfterLastSlash(p[..|p| - 1]) + [p[|p| - 1]]
  }

  /** Go's `filepath.Ext`: the suffix of `p` from the last `.` of its last
      `/`-separated element, or empty when that element holds no `.`. */
  function Ext(p: string): (e: string)
    ensures HasSuffix(p, e)
    ensures e != [] ==> e[0] == '.'
    ensures forall k :: 0 <= k < |e| ==> e[k] != '/'
    ensures forall k :: 1 <= k < |e| ==> e[k] != '.'
  {
    if p == [] || p[|p| - 1] == '/' then []
    else if p[|p| - 1] == '.' then "."
    else
      var init, last := p[..|p| - 1], p[|p| - 1];
      var e := Ext(init);
      assert p == init + [last];
      if e == [] then
        []
      else
        assert p[|p| - |e| - 1..] == init[|init| - |e|..] + [last];
        e + [last]
  }

  /** `Ext` is empty exactly when the last element of `p` holds no `.`. */
  lemma {:induction false} ExtEmptyIff(p: string)
    ensures Ext(p) == [] <==> '.' !in AfterLastSlash(p)
  {
    if p != [] && p[|p| - 1] != '/' {
      var init := p[..|p| - 1];
      var tail := AfterLastSlash(init);
      assert AfterLastSlash(p) == tail + [p[|p| - 1]];
      if p[|p| - 1] != '.' {
        ExtEmptyIff(init);
      }
    }
  }

  /** All of `p` is slashes. */
  predicate AllSlashes(p: string) {
    forall k :: 0 <= k < |p| ==> p[k] == '/'
  }

  /** `p` without its trailing slashes. */
  function StripTrailingSlashes(p: string): (r: string)
    ensures r <= p
    ensures r == [] || r[|r| - 1] != '/'
    ensures forall k :: |r| <= k < |p| ==> p[k] == '/'
  {
    if p != [] && p[|p| - 1] == '/' then StripTrailingSlashes(p[..|p| - 1]) else p
  }

  /** Go's `path.Base`: "." for the empty path, "/" for a path of slashes
      only, otherwise the last non-empty element, which holds no slash. */
  function Base(p: string): (b: string)
    ensures p == [] ==> b == "."
    ensures p != [] && AllSlashes(p) ==> b == "/"
    ensures !AllSlashes(p) ==> b != [] && '/' !in b && HasSuffix(StripTrailingSlashes(p), b)
    ensures var q := StripTrailingSlashes(p);
      !AllSlashes(p) ==> |b| == |q| || q[|q| - |b| - 1] == '/'
  {
    if p == [] then "."
    else
      var stripped := StripTrailingSlashes(p);
      var last := AfterLastSlash(stripped);
      if last == [] then
        assert stripped == [];
        "/"
      else
        assert !AllSlashes(p) by {
          assert p[|stripped| - 1] == stripped[|stripped| - 1];
        }
        last
  }

  /** The independent reading of `path.Base`: a directory, a slash, a
      non-empty slash-free element and any trailing slashes give that
      element. */
  lemma BaseOfElement(dir: string, name: string, slashes: string)
    requires name != [] && '/' !in name && AllSlashes(slashes)
    ensures Base(dir + "/" + name + slashes) == name
  {
    var p := dir + "/" + name + slashes;
    StripSlashes(dir + "/" + name, slashes);
    ElementAfterSlash(dir, name);
    assert p[|p| - |slashes| - 1] == name[|name| - 1];
  }

  /** Trailing slashes after a path not ending in one are what
      `StripTrailingSlashes` drops. */
  lemma {:induction false} StripSlashes(q: string, slashes: string)
    requires q != [] && q[|q| - 1] != '/' && AllSlashes(slashes)
    ensures StripTrailingSlashes(q + slashes) == q
    decreases |slashes|
  {
    if slashes == [] {
      assert q + slashes == q;
    } else {
      var p := q + slashes;
      assert p[..|p| - 1] == q + slashes[..|slashes| - 1];
      StripSlashes(q, slashes[..|slashes| - 1]);
    }
  }

  /** The part after the last slash of `dir/name` is `name`. */
  lemma {:induction false} ElementAfterSlash(dir: string, name: string)
    requires '/' !in name
    ensures AfterLastSlash(dir + "/" + name) == name
    decreases |name|
  {
    var p := dir + "/" + name;
    if name == [] {
      assert p[|p| - 1] == '/';
    } else {
      assert p[..|p| - 1] == dir + "/" + name[..|name| - 1];
      assert p[|p| - 1] == name[|name| - 1];
      ElementAfterSlash(dir, name[..|name| - 1]);
      assert name == name[..|name| - 1] + [name[|name| - 1]];
    }
  }
}

=== FILE: retry.dfy ===
/** The plain retrying downloader, `DownloadFile` of
    internal/downloader.go: up to five attempts, a linear backoff capped at
    ten seconds with up to 300 ms of jitter before every retry, an extra
    sleep for `Retry-After` on throttling statuses, inline `data:image/`
    URLs written without any request, and a 50 KiB floor on the file. */
module Retry {
  import opened Wrappers
  import opened Text
  import opened Codec
  import opened Naming
  import opened Attempts
  import DataUri

  const MaxAttempts: nat := 5
  const MinDelayMs: nat := 500
  const MaxDelayMs: nat := 10_000
  const MinFileSize: nat := 50 * 1024

  /** `math/rand.Intn(300)` milliseconds. */
  type Jitter = j: nat | j < 300

  /** The world as seen by each attempt `a`: the error `http.NewRequest`
      gives for the URL (the same on every attempt), the HTTP exchange, the
      outcome of writing the file, the jitter drawn, and the random name
      bytes. */
  datatype Env = Env(
    request: Option<string>,
    exchange: nat -> Exchange,
    save: nat -> SaveOutcome,
    jitterMs: nat -> Jitter,
    rnd: nat -> Rand4)

  /** The base delay before attempt `a`: 500 ms per attempt so far, at most
      ten seconds. */
  function BackoffMs(a: nat): nat {
    var d := MinDelayMs + a * MinDelayMs;
    if d > MaxDelayMs then MaxDelayMs else d
  }

  /** The sleep before attempt `a` > 0. */
  function BackoffWait(env: Env, a: nat): Wait {
    Wait(a, Backoff, (BackoffMs(a) + env.jitterMs(a)) * Millisecond)
  }

  predicate IsInline(url: string) {
    HasPrefix(url, DataUri.Prefix)
  }

  /** Whether each iteration sends a request: the URL is not inline and a
      request could be built for it. */
  predicate Sends(url: string, env: Env) {
    !IsInline(url) && env.request.None?
  }

  /** The name a fetched body is written under at attempt `a`. */
  function FetchedName(url: string, idx: int, env: Env, a: nat): string
    requires env.exchange(a).Reply?
  {
    FileName(env.rnd(a), idx, ChooseExtension(url, env.exchange(a).contentType))
  }

  /** What one iteration of the loop decides: return, or go round again
      with a new last error and possibly an extra `Retry-After` sleep. */
  datatype Step = Stop(result: Result<StoredFile>) | Again(err: string, extraNs: Option<nat>)

  function UndersizedMessage(name: string): string {
    "file " + name + " deleted (size < 50KB)"
  }

  function ExhaustedMessage(url: string, lastErr: Option<string>): string {
    "download failed for " + url + " after 5 attempts: " + ErrText(lastErr)
  }

  /** One iteration of the loop, after its backoff sleep. An inline image
      either fails at once (bad pattern or payload) or is written from its
      decoded bytes; otherwise a request that cannot be built, a network
      error, a bad status, a failed write and a file under 50 KiB all go
      round again, and only a stored file stops the loop. */
  function AttemptStep(url: string, idx: int, env: Env, a: nat): (s: Step)
    ensures IsInline(url) && DataUri.Decode(url).Failure? ==> s == Stop(Failure(DataUri.Decode(url).error))
    ensures IsInline(url) && DataUri.Decode(url).Success? && SaveFailed(env.save(a)) ==>
              s == Again(SaveError(env.save(a)), None)
    ensures IsInline(url) && DataUri.Decode(url).Success? && !SaveFailed(env.save(a)) ==>
              s == Stop(Success(StoredFile(FileName(env.rnd(a), idx, DataUri.Decode(url).value.0),
                                           Some(|DataUri.Decode(url).value.1|))))
    ensures !IsInline(url) && env.request.Some? ==> s == Again(env.request.value, None)
    ensures Sends(url, env) && env.exchange(a).TransportFailure? ==> s == Again(env.exchange(a).err, None)
    ensures Sends(url, env) && env.exchange(a).Reply? && IsBadStatus(env.exchange(a).code) ==>
              s.Again? && s.err == BadStatus(env.exchange(a).status)
    ensures Sends(url, env) && env.exchange(a).Reply? && !IsBadStatus(env.exchange(a).code) ==>
              && (SaveFailed(env.save(a)) ==> s == Again(SaveError(env.save(a)), None))
              && (env.save(a) == SizeUnknown ==> s == Stop(Success(StoredFile(FetchedName(url, idx, env, a), None))))
              && (env.save(a).Saved? && env.save(a).size >= MinFileSize ==>
                    s == Stop(Success(StoredFile(FetchedName(url, idx, env, a), Some(env.save(a).size)))))
              && (env.save(a).Saved? && env.save(a).size < MinFileSize ==>
                    s == Again(UndersizedMessage(FetchedName(url, idx, env, a)), None))
    ensures !IsInline(url) && s.Stop? ==>
              && s.result.Success?
              && Sends(url, env)
              && env.exchange(a).Reply?
              && !IsBadStatus(env.exchange(a).code)
              && s.result.value.name == FetchedName(url, idx, env, a)
              && (s.result.value.size.None? ==> env.save(a) == SizeUnknown)
              && (s.result.value.size.Some? ==> env.save(a) == Saved(s.result.value.size.value))
              && (s.result.value.size.Some? ==> s.result.value.size.value >= MinFileSize)
    ensures s.Again? && s.extraNs.Some? ==>
              && Sends(url, env) && env.exchange(a).Reply? && IsThrottleStatus(env.exchange(a).code)
              && RetryAfterNs(env.exchange(a).retryAfter) == s.extraNs
  {
    if IsInline(url) then
      match DataUri.Decode(url)
      case Failure(e) => Stop(Failure(e))
      case Success((ext, data)) =>
        var name := FileName(env.rnd(a), idx, ext);
        var save := env.save(a);
        if SaveFailed(save) then Again(SaveError(save), None)
        else Stop(Success(StoredFile(name, Some(|data|))))
    else if env.request.Some? then Again(env.request.value, None)
    else
      match env.exchange(a)
      case TransportFailure(e) => Again(e, None)
      case Reply(code, status, retryAfter, ctype) =>
        if IsThrottleStatus(code) then Again(BadStatus(status), RetryAfterNs(retryAfter))
        else if IsBadStatus(code) then Again(BadStatus(status), None)
        else
          var name := FileName(env.rnd(a), idx, ChooseExtension(url, ctype));
          match env.save(a)
          case CreateFailure(e) => Again(e, None)
          case WriteFailure(e) => Again(e, None)
          case Saved(size) =>
            if size < MinFileSize then Again(UndersizedMessage(name), None)
            else Stop(Success(StoredFile(name, Some(size))))
          case SizeUnknown => Stop(Success(StoredFile(name, None)))
  }

  predicate WaitsOrdered(waits: seq<Wait>) {
    forall i, j :: 0 <= i < j < |waits| ==> waits[i].attempt <= waits[j].attempt
  }

  /** A sleep the loop takes given the decisions `steps` of iterations
      `a`, `a + 1`, ...: the backoff before a retry, or the extra sleep an
      iteration asked for. */
  predicate LoopWait(env: Env, steps: seq<Step>, a: nat, w: Wait) {
    match w.cause
    case Backoff => 1 <= w.attempt && w == BackoffWait(env, w.attempt)
    case RetryAfter =>
      a <= w.attempt < a + |steps| && steps[w.attempt - a].Again? && steps[w.attempt - a].extraNs == Some(w.ns)
    case Pause => false
  }

  /** The loop from iteration `a` on, `steps` being what the remaining
      iterations decide and `lastErr` the error kept so far. */
  function Loop(url: string, env: Env, steps: seq<Step>, a: nat, lastErr: Option<string>): (r: Run)
    decreases |steps|
    ensures r.attempts <= |steps|
    ensures |steps| > 0 ==> 1 <= r.attempts
    ensures !r.relaxedTls && !r.escalated
    ensures r.requests == (if Sends(url, env) then r.attempts else 0)
    ensures r.waits == LoopWaits(env, steps, a, r.attempts)
  {
    if steps == [] then
      Run(Failure(ExhaustedMessage(url, lastErr)), 0, 0, [], false, false)
    else
      var before := if a > 0 then [BackoffWait(env, a)] else [];
      var requests := if Sends(url, env) then 1 else 0;
      var s := steps[0];
      if s.Stop? then
        Run(s.result, 1, requests, before, false, false)
      else
        var after := if s.extraNs.Some? then [Wait(a, RetryAfter, s.extraNs.value)] else [];
        var rest := Loop(url, env, steps[1..], a + 1, Some(s.err));
        Run(rest.result, rest.attempts + 1, rest.requests + requests, before + after + rest.waits, false, false)
  }

  /** Every iteration of the loop but the last went round again; the last
      one's decision is the result, or, when even the final one went round
      again, the exhaustion error carrying its error. */
  lemma {:induction false} LoopOutcome(url: string, env: Env, steps: seq<Step>, a: nat, lastErr: Option<string>)
    decreases |steps|
    ensures var r := Loop(url, env, steps, a, lastErr);
      && (forall k :: 0 <= k < r.attempts - 1 ==> steps[k].Again?)
      && (r.attempts == 0 ==> r.result == Failure(ExhaustedMessage(url, lastErr)))
      && (r.attempts >= 1 ==>
            var s := steps[r.attempts - 1];
            if s.Stop? then r.result == s.result
            else r.attempts == |steps| && r.result == Failure(ExhaustedMessage(url, Some(s.err))))
  {
    if steps != [] && steps[0].Again? {
      LoopOutcome(url, env, steps[1..], a + 1, Some(steps[0].err));
    }
  }

  /** The sleeps of the first `n` iterations from `a` on: each one's backoff
      (none before iteration 0) followed by the extra sleep it asked for. */
  function LoopWaits(env: Env, steps: seq<Step>, a: nat, n: nat): seq<Wait>
    requires n <= |steps|
    decreases n
  {
    if n == 0 then []
    else
      var before := if a > 0 then [BackoffWait(env, a)] else [];
      var after := if steps[0].Again? && steps[0].extraNs.Some? then [Wait(a, RetryAfter, steps[0].extraNs.value)] else [];
      before + after + LoopWaits(env, steps[1..], a + 1, n - 1)
  }

  /** Each sleep belongs to one of the iterations and is a backoff or an
      extra sleep that iteration asked for. */
  lemma {:induction false} LoopWaitsJustified(env: Env, steps: seq<Step>, a: nat, n: nat)
    requires n <= |steps|
    decreases n
    ensures forall i :: 0 <= i < |LoopWaits(env, steps, a, n)| ==>
              var w := LoopWaits(env, steps, a, n)[i]; a <= w.attempt < a + n && LoopWait(env, steps, a, w)
  {
    if n > 0 {
      var before := if a > 0 then [BackoffWait(env, a)] else [];
      var after := if steps[0].Again? && steps[0].extraNs.Some? then [Wait(a, RetryAfter, steps[0].extraNs.value)] else [];
      var pre := before + after;
      var tail := steps[1..];
      var rest := LoopWaits(env, tail, a + 1, n - 1);
      LoopWaitsJustified(env, tail, a + 1, n - 1);
      assert forall i :: 0 <= i < |rest| ==> LoopWait(env, tail, a + 1, rest[i]);
      forall i | 0 <= i < |rest|
        ensures LoopWait(env, steps, a, rest[i])
      {
        assert a + 1 <= rest[i].attempt < a + n && LoopWait(env, tail, a + 1, rest[i]);
        if rest[i].cause == RetryAfter {
          assert tail[rest[i].attempt - (a + 1)] == steps[rest[i].attempt - a];
        }
      }
      assert forall i :: 0 <= i < |pre| ==> pre[i].attempt == a && LoopWait(env, steps, a, pre[i]);
      assert LoopWaits(env, steps, a, n) == pre + rest;
    }
  }

  /** The sleeps come in the order of their iterations. */
  lemma {:induction false} LoopWaitsOrdered(env: Env, steps: seq<Step>, a: nat, n: nat)
    requires n <= |steps|
    decreases n
    ensures WaitsOrdered(LoopWaits(env, steps, a, n))
  {
    if n > 0 {
      var before := if a > 0 then [BackoffWait(env, a)] else [];
      var after := if steps[0].Again? && steps[0].extraNs.Some? then [Wait(a, RetryAfter, steps[0].extraNs.value)] else [];
      var pre := before + after;
      var rest := LoopWaits(env, steps[1..], a + 1, n - 1);
      LoopWaitsOrdered(env, steps[1..], a + 1, n - 1);
      LoopWaitsJustified(env, steps[1..], a + 1, n - 1);
      assert forall i :: 0 <= i < |pre| ==> pre[i].attempt == a;
      assert forall i :: 0 <= i < |rest| ==> a < rest[i].attempt;
      OrderedConcat(pre, rest, a);
      assert LoopWaits(env, steps, a, n) == pre + rest;
    }
  }

  lemma OrderedConcat(pre: seq<Wait>, rest: seq<Wait>, a: nat)
    requires forall i :: 0 <= i < |pre| ==> pre[i].attempt == a
    requires forall i :: 0 <= i < |rest| ==> a <= rest[i].attempt
    requires WaitsOrdered(rest)
    ensures WaitsOrdered(pre + rest)
  {
    var w := pre + rest;
    forall i, j | 0 <= i < j < |w| ensures w[i].attempt <= w[j].attempt {
      if j < |pre| {
      } else if i < |pre| {
        assert w[j] == rest[j - |pre|];
      } else {
        assert w[i] == rest[i - |pre|] && w[j] == rest[j - |pre|];
      }
    }
  }

  /** Every iteration but iteration 0 is preceded by its backoff. */
  lemma {:induction false} LoopWaitsBackoff(env: Env, steps: seq<Step>, a: nat, n: nat)
    requires n <= |steps|
    decreases n
    ensures forall k :: a <= k < a + n && 1 <= k ==> BackoffWait(env, k) in LoopWaits(env, steps, a, n)
  {
    if n > 0 {
      var before := if a > 0 then [BackoffWait(env, a)] else [];
      var after := if steps[0].Again? && steps[0].extraNs.Some? then [Wait(a, RetryAfter, steps[0].extraNs.value)] else [];
      LoopWaitsBackoff(env, steps[1..], a + 1, n - 1);
      assert LoopWaits(env, steps, a, n) == before + after + LoopWaits(env, steps[1..], a + 1, n - 1);
    }
  }

  /** Every extra sleep an iteration asked for is taken. */
  lemma {:induction false} LoopWaitsRetryAfter(env: Env, steps: seq<Step>, a: nat, n: nat)
    requires n <= |steps|
    decreases n
    ensures forall k :: 0 <= k < n && steps[k].Again? && steps[k].extraNs.Some? ==>
              Wait(a + k, RetryAfter, steps[k].extraNs.value) in LoopWaits(env, steps, a, n)
  {
    if n > 0 {
      var before := if a > 0 then [BackoffWait(env, a)] else [];
      var after := if steps[0].Again? && steps[0].extraNs.Some? then [Wait(a, RetryAfter, steps[0].extraNs.value)] else [];
      var tail := steps[1..];
      var rest := LoopWaits(env, tail, a + 1, n - 1);
      LoopWaitsRetryAfter(env, tail, a + 1, n - 1);
      var w := before + after + rest;
      assert LoopWaits(env, steps, a, n) == w;
      forall k | 1 <= k < n && steps[k].Again? && steps[k].extraNs.Some?
        ensures Wait(a + k, RetryAfter, steps[k].extraNs.value) in w
      {
        assert tail[k - 1] == steps[k];
      }
    }
  }

  /** A sleep this downloader may take: the backoff before a retry, or the
      server's `Retry-After` on a throttling status. */
  predicate WaitJustified(url: string, env: Env, w: Wait) {
    match w.cause
    case Backoff => 1 <= w.attempt && w.ns == (BackoffMs(w.attempt) + env.jitterMs(w.attempt)) * Millisecond
    case RetryAfter =>
      && Sends(url, env)
      && env.exchange(w.attempt).Reply?
      && IsThrottleStatus(env.exchange(w.attempt).code)
      && RetryAfterNs(env.exchange(w.attempt).retryAfter) == Some(w.ns)
    case Pause => false
  }

  /** A throttling reply with a usable `Retry-After` at attempt `k` left
      its sleep in `waits`. */
  predicate RetryAfterHonoured(url: string, env: Env, k: nat, waits: seq<Wait>) {
    (&& Sends(url, env)
     && env.exchange(k).Reply?
     && IsThrottleStatus(env.exchange(k).code)
     && RetryAfterNs(env.exchange(k).retryAfter).Some?)
    ==> Wait(k, RetryAfter, RetryAfterNs(env.exchange(k).retryAfter).value) in waits
  }

  /** `DownloadFile(url, outDir, idx)`: one to five iterations, and one
      request per iteration unless the URL is an inline image or no request
      can be built for it. */
  function DownloadFile(url: string, idx: int, env: Env): (r: Run)
    ensures 1 <= r.attempts <= MaxAttempts
    ensures !r.relaxedTls && !r.escalated
    ensures r.requests == (if Sends(url, env) then r.attempts else 0)
  {
    Loop(url, env, Steps(url, idx, env), 0, None)
  }

  /** Every iteration but the last went round again, and the last one's
      decision, or after five the exhaustion error, is the result. */
  lemma DownloadOutcome(url: string, idx: int, env: Env)
    ensures var r := DownloadFile(url, idx, env);
      && (forall k :: 0 <= k < r.attempts - 1 ==> AttemptStep(url, idx, env, k).Again?)
      && var s := AttemptStep(url, idx, env, r.attempts - 1);
         if s.Stop? then r.result == s.result
         else r.attempts == MaxAttempts && r.result == Failure(ExhaustedMessage(url, Some(s.err)))
  {
    var steps := Steps(url, idx, env);
    var r := DownloadFile(url, idx, env);
    LoopOutcome(url, env, steps, 0, None);
    var last := r.attempts - 1;
    assert steps[last] == AttemptStep(url, idx, env, last);
    forall k | 0 <= k < last
      ensures AttemptStep(url, idx, env, k).Again?
    {
      assert steps[k] == AttemptStep(url, idx, env, k);
    }
  }

  /** The sleeps come in order, and each is the backoff before a retry
      (never before the first attempt) or the `Retry-After` of a throttling
      reply. */
  lemma DownloadWaits(url: string, idx: int, env: Env)
    ensures var r := DownloadFile(url, idx, env);
      && WaitsOrdered(r.waits)
      && (forall i :: 0 <= i < |r.waits| ==> r.waits[i].attempt < r.attempts && WaitJustified(url, env, r.waits[i]))
  {
    var steps := Steps(url, idx, env);
    var r := DownloadFile(url, idx, env);
    LoopWaitsJustified(env, steps, 0, r.attempts);
    LoopWaitsOrdered(env, steps, 0, r.attempts);
    WaitsJustified(url, idx, env, r.waits);
  }

  /** Every retry had its backoff, and every throttling reply with a usable
      header had its `Retry-After` sleep. */
  lemma DownloadSleeps(url: string, idx: int, env: Env)
    ensures var r := DownloadFile(url, idx, env);
      && (forall k :: 1 <= k < r.attempts ==> BackoffWait(env, k) in r.waits)
      && (forall k :: 0 <= k < r.attempts ==> RetryAfterHonoured(url, env, k, r.waits))
  {
    var steps := Steps(url, idx, env);
    var r := DownloadFile(url, idx, env);
    LoopWaitsBackoff(env, steps, 0, r.attempts);
    LoopWaitsRetryAfter(env, steps, 0, r.attempts);
    RetryAftersHonoured(url, idx, env, r.waits, r.attempts);
  }

  /** The decisions of the five iterations. */
  function Steps(url: string, idx: int, env: Env): (steps: seq<Step>)
    ensures |steps| == MaxAttempts
    ensures forall k :: 0 <= k < MaxAttempts ==> steps[k] == AttemptStep(url, idx, env, k)
  {
    seq(MaxAttempts, k requires 0 <= k < MaxAttempts => AttemptStep(url, idx, env, k))
  }

  lemma WaitsJustified(url: string, idx: int, env: Env, waits: seq<Wait>)
    requires forall i :: 0 <= i < |waits| ==> LoopWait(env, Steps(url, idx, env), 0, waits[i])
    ensures forall i :: 0 <= i < |waits| ==> WaitJustified(url, env, waits[i])
  {
    var steps := Steps(url, idx, env);
    forall i | 0 <= i < |waits| ensures WaitJustified(url, env, waits[i]) {
      if waits[i].cause == RetryAfter {
        assert steps[waits[i].attempt] == AttemptStep(url, idx, env, waits[i].attempt);
      }
    }
  }

  lemma RetryAftersHonoured(url: string, idx: int, env: Env, waits: seq<Wait>, n: nat)
    requires n <= MaxAttempts
    requires forall k :: 0 <= k < n && Steps(url, idx, env)[k].Again? && Steps(url, idx, env)[k].extraNs.Some? ==>
               Wait(k, RetryAfter, Steps(url, idx, env)[k].extraNs.value) in waits
    ensures forall k :: 0 <= k < n ==> RetryAfterHonoured(url, env, k, waits)
  {
    var steps := Steps(url, idx, env);
    forall k | 0 <= k < n ensures RetryAfterHonoured(url, env, k, waits) {
      var e := env.exchange(k);
      if Sends(url, env) && e.Reply? && IsThrottleStatus(e.code) && RetryAfterNs(e.retryAfter).Some? {
        assert steps[k] == Again(BadStatus(e.status), RetryAfterNs(e.retryAfter));
      }
    }
  }

  /** A stored file of known size is at least 50 KiB unless it came from an
      inline image. */
  lemma SizeFloor(url: string, idx: int, env: Env)
    ensures var r := DownloadFile(url, idx, env);
      r.result.Success? && !IsInline(url) && r.result.value.size.Some? ==> r.result.value.size.value >= MinFileSize
  {
    var r := DownloadFile(url, idx, env);
    DownloadOutcome(url, idx, env);
    if r.result.Success? {
      assert AttemptStep(url, idx, env, r.attempts - 1).Stop?;
    }
  }

  /** A `data:image/` URL that does not match the pattern or whose payload
      is not base64 fails on the first iteration, with no sleep and no
      request. */
  lemma InlineFailsAtOnce(url: string, idx: int, env: Env)
    requires IsInline(url) && DataUri.Decode(url).Failure?
    ensures DownloadFile(url, idx, env) == Run(Failure(DataUri.Decode(url).error), 1, 0, [], false, false)
  {
    assert Steps(url, idx, env)[0] == Stop(Failure(DataUri.Decode(url).error));
  }

  /** A valid inline image is never requested; when it is stored, the name
      carries "." + the captured format and the size is the decoded size. */
  lemma InlineStored(url: string, idx: int, env: Env)
    requires IsInline(url) && DataUri.Decode(url).Success?
    ensures var r := DownloadFile(url, idx, env);
      && r.requests == 0
      && (r.result.Success? ==>
            var d := DataUri.Parse(url).value;
            && HasSuffix(r.result.value.name, "." + d.format)
            && Codec.Base64Decode(d.payload) == Some(DataUri.Decode(url).value.1)
            && r.result.value.size == Some(|DataUri.Decode(url).value.1|))
  {
    var r := DownloadFile(url, idx, env);
    DownloadOutcome(url, idx, env);
    if r.result.Success? {
      assert AttemptStep(url, idx, env, r.attempts - 1).Stop?;
    }
  }

  /** No status ends the loop early: when every reply is a bad status, all
      five attempts are made and the error reports the last status. */
  lemma BadStatusesExhaust(url: string, idx: int, env: Env)
    requires Sends(url, env)
    requires forall k :: 0 <= k < MaxAttempts ==> env.exchange(k).Reply? && IsBadStatus(env.exchange(k).code)
    ensures var r := DownloadFile(url, idx, env);
      && r.attempts == MaxAttempts && r.requests == MaxAttempts
      && r.result == Failure(ExhaustedMessage(url, Some(BadStatus(env.exchange(MaxAttempts - 1).status))))
  {
    var r := DownloadFile(url, idx, env);
    DownloadOutcome(url, idx, env);
    assert AttemptStep(url, idx, env, r.attempts - 1).Again?;
  }

  /** Throttling replies up to attempt `k` < 4 leave room for attempt
      `k + 1`. */
  lemma ThrottledRunsOn(url: string, idx: int, env: Env, k: nat)
    requires Sends(url, env) && k < MaxAttempts - 1
    requires forall j :: 0 <= j <= k ==> env.exchange(j).Reply? && IsThrottleStatus(env.exchange(j).code)
    ensures DownloadFile(url, idx, env).attempts > k + 1
  {
    var r := DownloadFile(url, idx, env);
    DownloadOutcome(url, idx, env);
    forall j | 0 <= j <= k ensures AttemptStep(url, idx, env, j).Again? {
      ThrottleStatusIsBad(env.exchange(j).code);
    }
  }

  /** A throttling status with a usable `Retry-After` consumes the attempt
      and sleeps that long on top of the next backoff. */
  lemma ThrottleHonoursRetryAfter(url: string, idx: int, env: Env, k: nat)
    requires Sends(url, env) && k < MaxAttempts - 1
    requires forall j :: 0 <= j <= k ==> env.exchange(j).Reply? && IsThrottleStatus(env.exchange(j).code)
    requires RetryAfterNs(env.exchange(k).retryAfter).Some?
    ensures var r := DownloadFile(url, idx, env);
      && r.attempts > k + 1
      && Wait(k, RetryAfter, RetryAfterNs(env.exchange(k).retryAfter).value) in r.waits
      && BackoffWait(env, k + 1) in r.waits
  {
    var r := DownloadFile(url, idx, env);
    ThrottledRunsOn(url, idx, env, k);
    DownloadSleeps(url, idx, env);
    assert RetryAfterHonoured(url, env, k, r.waits);
  }

  /** A first reply of 200 whose file reaches 50 KiB is stored on the spot:
      one attempt, one request, no sleep. */
  lemma FirstAttemptStores(url: string, idx: int, env: Env, size: nat)
    requires Sends(url, env)
    requires env.exchange(0).Reply? && env.exchange(0).code == 200
    requires env.save(0) == Saved(size) && size >= MinFileSize
    ensures DownloadFile(url, idx, env) ==
      Run(Success(StoredFile(FileName(env.rnd(0), idx, ChooseExtension(url, env.exchange(0).contentType)), Some(size))),
          1, 1, [], false, false)
  {
    assert Steps(url, idx, env)[0] == AttemptStep(url, idx, env, 0);
  }

  /** A file under 50 KiB is deleted and the attempt fails with a message
      naming it. */
  lemma UndersizedRetried(url: string, idx: int, env: Env, a: nat)
    requires Sends(url, env)
    requires env.exchange(a).Reply? && !IsBadStatus(env.exchange(a).code)
    requires env.save(a).Saved? && env.save(a).size < MinFileSize
    ensures AttemptStep(url, idx, env, a) ==
      Again(UndersizedMessage(FileName(env.rnd(a), idx, ChooseExtension(url, env.exchange(a).contentType))), None)
  {
  }

  /** A URL `http.NewRequest` rejects is never requested: all five
      iterations go round again with its error, and the call fails with
      it. */
  lemma UnbuildableRequest(url: string, idx: int, env: Env)
    requires !IsInline(url) && env.request.Some?
    ensures var r := DownloadFile(url, idx, env);
      && r.attempts == MaxAttempts && r.requests == 0
      && r.result == Failure(ExhaustedMessage(url, Some(env.request.value)))
  {
    var r := DownloadFile(url, idx, env);
    DownloadOutcome(url, idx, env);
    assert AttemptStep(url, idx, env, r.attempts - 1).Again?;
  }

  /** The ten-second cap never binds within five attempts: the backoff
      before attempt `a` is exactly 500 ms times `a + 1`. */
  lemma BackoffUncapped(a: nat)
    requires a < MaxAttempts
    ensures BackoffMs(a) == MinDelayMs * (a + 1) <= 2500
  {
  }

  // ------------------------------------------------------------ files on disk

  /** Whether iteration `a` reaches `os.Create`: an inline URL whose
      payload decodes, or a request answered with a good status. */
  predicate Creates(url: string, env: Env, a: nat) {
    if IsInline(url) then DataUri.Decode(url).Success?
    else Sends(url, env) && env.exchange(a).Reply? && !IsBadStatus(env.exchange(a).code)
  }

  /** The name of the file iteration `a` creates. */
  function CreatedName(url: string, idx: int, env: Env, a: nat): string
    requires Creates(url, env, a)
  {
    if IsInline(url) then FileName(env.rnd(a), idx, DataUri.Decode(url).value.0)
    else FetchedName(url, idx, env, a)
  }

  /** The file iteration `a` abandons: one it created and then failed to
      write. The iteration goes round again with the write error and no
      `os.Remove`, so the partial file stays on disk. */
  function Abandoned(url: string, idx: int, env: Env, a: nat): (f: Option<string>)
    ensures f.Some? <==> Creates(url, env, a) && env.save(a).WriteFailure?
  {
    if Creates(url, env, a) && env.save(a).WriteFailure? then Some(CreatedName(url, idx, env, a)) else None
  }

  /** An iteration that abandons a file goes round again with the write
      error and no extra sleep. */
  lemma AbandonedGoesRoundAgain(url: string, idx: int, env: Env, a: nat)
    requires Abandoned(url, idx, env, a).Some?
    ensures AttemptStep(url, idx, env, a) == Again(env.save(a).err, None)
  {
  }

  /** What each iteration abandons, as one function of the iteration. */
  function Abandons(url: string, idx: int, env: Env): (abandon: nat -> Option<string>)
    ensures forall k: nat :: abandon(k) == Abandoned(url, idx, env, k)
  {
    (k: nat) => Abandoned(url, idx, env, k)
  }

  /** The names of the files a call leaves on disk: those its iterations
      abandoned, then the file it returns; a name repeated is one file
      created twice. */
  function LeftOnDisk(url: string, idx: int, env: Env): (names: seq<string>)
    ensures var r := DownloadFile(url, idx, env);
      && AbandonedBy(Abandons(url, idx, env), r.attempts) <= names
      && (r.result.Success? <==> |names| == |AbandonedBy(Abandons(url, idx, env), r.attempts)| + 1)
      && (r.result.Success? ==> names[|names| - 1] == r.result.value.name)
  {
    var r := DownloadFile(url, idx, env);
    AbandonedBy(Abandons(url, idx, env), r.attempts) + (if r.result.Success? then [r.result.value.name] else [])
  }

  /** The files a call would leave if a failed write removed its file, as
      an undersized one is removed: only the file returned, which, when
      fetched and of known size, meets the 50 KiB floor. */
  function LeftOnDiskCorrected(url: string, idx: int, env: Env): (names: seq<string>)
    ensures var r := DownloadFile(url, idx, env);
      && |names| <= 1
      && (names != [] <==> r.result.Success?)
      && forall i :: 0 <= i < |names| ==>
           && names[i] == r.result.value.name
           && (!IsInline(url) && r.result.value.size.Some? ==> r.result.value.size.value >= MinFileSize)
  {
    var r := DownloadFile(url, idx, env);
    SizeFloor(url, idx, env);
    if r.result.Success? then [r.result.value.name] else []
  }

  /** As written, a call leaves its abandoned files on top of what the
      corrected call leaves, and the two agree exactly when no iteration
      run created a file and then failed to write it. */
  lemma LeftOnDiskAsWritten(url: string, idx: int, env: Env)
    ensures var r := DownloadFile(url, idx, env);
      && LeftOnDisk(url, idx, env) == AbandonedBy(Abandons(url, idx, env), r.attempts) + LeftOnDiskCorrected(url, idx, env)
      && (LeftOnDisk(url, idx, env) == LeftOnDiskCorrected(url, idx, env) <==>
            forall k :: 0 <= k < r.attempts ==> !(Creates(url, env, k) && env.save(k).WriteFailure?))
  {
    var r := DownloadFile(url, idx, env);
    AbandonedNone(Abandons(url, idx, env), r.attempts);
    assert forall k :: 0 <= k < r.attempts ==>
             (Abandoned(url, idx, env, k).None? <==> !(Creates(url, env, k) && env.save(k).WriteFailure?));
    var a := AbandonedBy(Abandons(url, idx, env), r.attempts);
    var c := LeftOnDiskCorrected(url, idx, env);
    assert LeftOnDisk(url, idx, env) == a + c;
    if a + c == c {
      assert |a| == 0;
    }
  }

  /** A fetch whose first write fails and whose second stores the image
      leaves two names on disk: the partial file under the first, and the
      stored file, which alone is returned. When both iterations draw the
      same random bytes and extension the names coincide, `os.Create`
      truncates the partial file, and one file remains under that name. */
  lemma PartialFileKept(url: string, idx: int, env: Env, size: nat)
    requires Sends(url, env)
    requires env.exchange(0).Reply? && !IsBadStatus(env.exchange(0).code) && env.save(0).WriteFailure?
    requires env.exchange(1).Reply? && !IsBadStatus(env.exchange(1).code) && env.save(1) == Saved(size)
    requires size >= MinFileSize
    ensures DownloadFile(url, idx, env).result == Success(StoredFile(FetchedName(url, idx, env, 1), Some(size)))
    ensures LeftOnDisk(url, idx, env) == [FetchedName(url, idx, env, 0), FetchedName(url, idx, env, 1)]
    ensures LeftOnDiskCorrected(url, idx, env) == [FetchedName(url, idx, env, 1)]
  {
    SecondAttemptStores(url, idx, env, size);
    FirstAbandoned(url, idx, env);
    assert LeftOnDisk(url, idx, env) == [FetchedName(url, idx, env, 0)] + [FetchedName(url, idx, env, 1)];
    assert LeftOnDiskCorrected(url, idx, env) == [FetchedName(url, idx, env, 1)];
  }

  /** A failed first write followed by a stored second file ends the call
      at the second iteration with that file. */
  lemma SecondAttemptStores(url: string, idx: int, env: Env, size: nat)
    requires Sends(url, env)
    requires env.exchange(0).Reply? && !IsBadStatus(env.exchange(0).code) && env.save(0).WriteFailure?
    requires env.exchange(1).Reply? && !IsBadStatus(env.exchange(1).code) && env.save(1) == Saved(size)
    requires size >= MinFileSize
    ensures var r := DownloadFile(url, idx, env);
      r.attempts == 2 && r.result == Success(StoredFile(FetchedName(url, idx, env, 1), Some(size)))
  {
    DownloadOutcome(url, idx, env);
    assert AttemptStep(url, idx, env, 0).Again?;
    assert AttemptStep(url, idx, env, 1).Stop?;
  }

  /** Of the first two iterations, only the first abandons a file. */
  lemma FirstAbandoned(url: string, idx: int, env: Env)
    requires Sends(url, env)
    requires env.exchange(0).Reply? && !IsBadStatus(env.exchange(0).code) && env.save(0).WriteFailure?
    requires env.save(1).Saved?
    ensures AbandonedBy(Abandons(url, idx, env), 2) == [FetchedName(url, idx, env, 0)]
  {
    var fs := AbandonedEach(Abandons(url, idx, env), 2);
    assert fs[0] == Some(FetchedName(url, idx, env, 0)) && fs[1] == None;
    assert Somes(fs[1..]) == [] by {
      assert fs[1..][1..] == [];
    }
  }
}

=== FILE: root_download.dfy ===
/** `Download(rawurl, outdir)` of the root downloader.go: one GET, a status
    check, a file name taken from the URL path with a fallback, a single
    probe for an existing file, then create and copy. The request,
    `url.Parse`, `filepath.Join(outdir, ·)`, `os.Stat` and the file
    system's create and copy outcomes are parameters. */
module RootDownload {
  import opened Wrappers
  import opened Text
  import opened Paths
  import opened Attempts
  import opened Naming

  /** The host and path `url.Parse` finds in the URL. */
  datatype ParsedUrl = ParsedUrl(host: string, path: string)

  /** What the call meets: the exchange, the outcome of `url.Parse`,
      `filepath.Join(outdir, ·)`, whether `os.Stat` finds a path, and the
      outcome of creating the file and copying the body into it. */
  datatype RootEnv = RootEnv(
    exchange: Exchange,
    parsed: Result<ParsedUrl>,
    join: string -> string,
    present: string -> bool,
    save: SaveOutcome)

  /** The call's outcome: the returned error or the path saved to, and
      whether `os.Create` made (or truncated) a file. */
  datatype Outcome = Outcome(result: Result<string>, created: bool)

  /** The path written: the joined name, or, when something already exists
      there, the joined name followed by "_1", probed once. */
  function Target(joined: string, present: string -> bool): (t: string)
    ensures HasPrefix(t, joined)
    ensures t == joined <==> !present(joined)
    ensures present(joined) ==> t == joined + "_1"
  {
    if present(joined) then joined + "_1" else joined
  }

  /** The path written holds an existing file, which is then truncated,
      exactly when both the joined name and the name with "_1" exist. */
  lemma TargetOverwrites(joined: string, present: string -> bool)
    ensures present(Target(joined, present)) <==> present(joined) && present(joined + "_1")
  {
  }

  /** `Download(rawurl, outdir)`. */
  function Download(url: string, env: RootEnv): (o: Outcome)
    ensures env.exchange.TransportFailure? ==> o == Outcome(Failure("download error: " + env.exchange.err), false)
    ensures env.exchange.Reply? && IsBadStatus(env.exchange.code) ==>
              o == Outcome(Failure("bad status for " + url + ": " + env.exchange.status), false)
    ensures env.exchange.Reply? && !IsBadStatus(env.exchange.code) && env.parsed.Failure? ==>
              o == Outcome(Failure("parse url err: " + env.parsed.error), false)
    ensures o.created <==>
              env.exchange.Reply? && !IsBadStatus(env.exchange.code) && env.parsed.Success? && !env.save.CreateFailure?
    ensures env.exchange.Reply? && !IsBadStatus(env.exchange.code) && env.parsed.Success? && env.save.CreateFailure? ==>
              o.result == Failure("create file err: " + env.save.err)
    ensures o.created && env.save.WriteFailure? ==> o.result == Failure("write file err: " + env.save.err)
    ensures o.result.Success? <==>
              env.exchange.Reply? && !IsBadStatus(env.exchange.code) && env.parsed.Success? && !SaveFailed(env.save)
    ensures o.result.Success? ==> o.created
    ensures o.result.Success? ==>
              var name := RootFileName(env.parsed.value.host, env.parsed.value.path);
              && !SaveFailed(env.save)
              && o.result.value == Target(env.join(name), env.present)
  {
    match env.exchange
    case TransportFailure(e) => Outcome(Failure("download error: " + e), false)
    case Reply(code, status, _, _) =>
      if IsBadStatus(code) then Outcome(Failure("bad status for " + url + ": " + status), false)
      else
        match env.parsed
        case Failure(e) => Outcome(Failure("parse url err: " + e), false)
        case Success(u) =>
          var fname := Target(env.join(RootFileName(u.host, u.path)), env.present);
          match env.save
          case CreateFailure(e) => Outcome(Failure("create file err: " + e), false)
          case WriteFailure(e) => Outcome(Failure("write file err: " + e), true)
          case _ => Outcome(Success(fname), true)
  }

  /** The name joined to the output directory never holds a `/`: it is
      one path element, whatever the URL. */
  lemma NameIsOneElement(url: string, env: RootEnv)
    requires env.parsed.Success?
    ensures '/' !in RootFileName(env.parsed.value.host, env.parsed.value.path)
  {
  }

  /** A URL whose path ends in a real element saves under that element's
      name. */
  lemma SavesUnderLastElement(url: string, env: RootEnv)
    requires env.exchange.Reply? && !IsBadStatus(env.exchange.code)
    requires env.parsed.Success? && !AllSlashes(env.parsed.value.path) && Base(env.parsed.value.path) != "."
    requires !SaveFailed(env.save)
    ensures Download(url, env).result == Success(Target(env.join(Base(env.parsed.value.path)), env.present))
  {
    RootFileNameFallback(env.parsed.value.host, env.parsed.value.path);
  }

  /** Only one probe is made: when both the joined name and the name with
      "_1" exist, the second is created over, not a third name chosen. */
  lemma SingleProbe(url: string, env: RootEnv)
    requires env.exchange.Reply? && !IsBadStatus(env.exchange.code)
    requires env.parsed.Success? && !SaveFailed(env.save)
    requires var j := env.join(RootFileName(env.parsed.value.host, env.parsed.value.path));
      env.present(j) && env.present(j + "_1")
    ensures var j := env.join(RootFileName(env.parsed.value.host, env.parsed.value.path));
      Download(url, env) == Outcome(Success(j + "_1"), true)
  {
  }

  /** A request error, a bad status or an unparsable URL ends the call
      before any file is created. */
  lemma NoFileBeforeParse(url: string, env: RootEnv)
    requires env.exchange.TransportFailure? || IsBadStatus(env.exchange.code) || env.parsed.Failure?
    ensures !Download(url, env).created && Download(url, env).result.Failure?
  {
  }
}

=== FILE: scraper.dfy ===
/** `Scrape(pageURL, images, videos)` of scraper.go: fetch the page, check
    its status, parse it, and collect the image and video URLs its
    elements name into a set. The fetch, the parser and `url.Parse` with
    `ResolveReference` are parameters. */
module Scraper {
  import opened Wrappers
  import opened Text
  import opened Attempts
  import Extractor

  /** What fetching the page meets: the exchange (only its status code and
      status line matter here) and, for a good status, the parser's
      outcome. */
  datatype Page = Page(exchange: Exchange, doc: Result<seq<Extractor.Element>>)

  /** The `add` closure's verdict on one raw value: trimmed, dropped when
      empty or a `data:` URI or when `url.Parse` rejects it, otherwise
      resolved against the page. */
  function Accept(raw: string, resolve: Extractor.Resolver): (r: Option<string>)
    ensures r.Some? <==>
              TrimSpace(raw) != [] && !HasPrefix(TrimSpace(raw), "data:") && resolve(TrimSpace(raw)).Some?
    ensures r.Some? ==> r == resolve(TrimSpace(raw))
  {
    var v := TrimSpace(raw);
    if v == [] || HasPrefix(v, "data:") then None else resolve(v)
  }

  /** `add` applied to each of `vs` in turn, starting from `found`. */
  function Collect(found: set<string>, vs: seq<string>, resolve: Extractor.Resolver): (r: set<string>)
    ensures found <= r
    decreases |vs|
  {
    if vs == [] then found
    else
      var a := Accept(vs[0], resolve);
      Collect(if a.Some? then found + {a.value} else found, vs[1..], resolve)
  }

  /** The URLs `add` inserts for the values `vs`. */
  function Accepted(vs: seq<string>, resolve: Extractor.Resolver): set<string> {
    set k | 0 <= k < |vs| && Accept(vs[k], resolve).Some? :: Accept(vs[k], resolve).value
  }

  /** Collecting is inserting, into `found`, the accepted values, in any
      order. */
  lemma {:induction false} CollectExact(found: set<string>, vs: seq<string>, resolve: Extractor.Resolver)
    ensures Collect(found, vs, resolve) == found + Accepted(vs, resolve)
    decreases |vs|
  {
    if vs != [] {
      var a := Accept(vs[0], resolve);
      var found' := if a.Some? then found + {a.value} else found;
      CollectExact(found', vs[1..], resolve);
      assert [vs[0]] + vs[1..] == vs;
      AcceptedConcat([vs[0]], vs[1..], resolve);
      AcceptedSingle(vs[0], resolve);
      var a0, a1 := Accepted([vs[0]], resolve), Accepted(vs[1..], resolve);
      assert Accepted(vs, resolve) == a0 + a1;
      assert found' == found + a0;
    }
  }

  /** The accepted values of one value. */
  lemma AcceptedSingle(v: string, resolve: Extractor.Resolver)
    ensures Accepted([v], resolve) == if Accept(v, resolve).Some? then {Accept(v, resolve).value} else {}
  {
    var vs := [v];
    assert forall k :: 0 <= k < |vs| ==> vs[k] == v;
    if Accept(v, resolve).Some? {
      assert vs[0] == v;
      assert Accept(v, resolve).value in Accepted(vs, resolve);
    }
  }

  // ------------------------------------------------ what each pass reads

  /** The `srcset` tokens of an element that has one. */
  function SrcsetOf(e: Extractor.Element): seq<string> {
    if "srcset" in e.attrs then Extractor.SrcsetTokens(e.attrs["srcset"]) else []
  }

  /** The values the first image pass reads from an `<img>`: `src`,
      `data-src`, `data-lazy`, `data-original`, then its `srcset`
      tokens. */
  function ImgPassValues(e: Extractor.Element): (vs: seq<string>)
    ensures e.tag != "img" ==> vs == []
  {
    if e.tag == "img" then Extractor.ImgValues(e) else []
  }

  /** The values the second image pass reads from a `<source>`: its
      `srcset` tokens. */
  function SourceSrcsetValues(e: Extractor.Element): (vs: seq<string>)
    ensures e.tag != "source" ==> vs == []
  {
    if e.tag == "source" then SrcsetOf(e) else []
  }

  /** The value the first video pass reads from a `<video>`: its `src`. */
  function VideoSrcValues(e: Extractor.Element): (vs: seq<string>)
    ensures |vs| <= 1
    ensures vs != [] <==> e.tag == "video" && "src" in e.attrs
  {
    if e.tag == "video" && "src" in e.attrs then [e.attrs["src"]] else []
  }

  /** The value the second video pass reads from a `<source>`: its `src`,
      only when its `type` starts with "video/". */
  function SourceVideoValues(e: Extractor.Element): (vs: seq<string>)
    ensures |vs| <= 1
    ensures vs != [] <==>
              && e.tag == "source" && "src" in e.attrs
              && "type" in e.attrs && HasPrefix(e.attrs["type"], "video/")
  {
    if e.tag == "source" && "type" in e.attrs && HasPrefix(e.attrs["type"], "video/") && "src" in e.attrs
    then [e.attrs["src"]]
    else []
  }

  /** One `doc.Find(..).Each(..)` pass: the values `f` reads from each
      element, in document order. */
  function Pass(els: seq<Extractor.Element>, f: Extractor.Element -> seq<string>): seq<string> {
    if els == [] then [] else f(els[0]) + Pass(els[1..], f)
  }

  /** A pass reads exactly the values its elements offer. */
  lemma {:induction false} PassMembers(els: seq<Extractor.Element>, f: Extractor.Element -> seq<string>)
    ensures forall x :: x in Pass(els, f) <==> exists k :: 0 <= k < |els| && x in f(els[k])
    decreases |els|
  {
    if els != [] {
      PassMembers(els[1..], f);
      forall x | x in Pass(els, f)
        ensures exists k :: 0 <= k < |els| && x in f(els[k])
      {
        assert Pass(els, f) == f(els[0]) + Pass(els[1..], f);
        if x !in f(els[0]) {
          var k :| 0 <= k < |els[1..]| && x in f(els[1..][k]);
          assert els[1..][k] == els[k + 1];
        }
      }
      forall x, k | 0 <= k < |els| && x in f(els[k])
        ensures x in Pass(els, f)
      {
        if k > 0 {
          assert els[1..][k - 1] == els[k];
        }
      }
    }
  }

  /** The values offered to `add`, in the order of the four passes the
      flags switch on. */
  function Candidates(els: seq<Extractor.Element>, images: bool, videos: bool): seq<string> {
    (if images then Pass(els, ImgPassValues) + Pass(els, SourceSrcsetValues) else [])
    + (if videos then Pass(els, VideoSrcValues) + Pass(els, SourceVideoValues) else [])
  }

  // ------------------------------------------------------------ Scrape

  /** `Scrape(pageURL, images, videos)`: a failed request, a status
      outside [200, 400) and a parse failure are errors with their
      prefixes; otherwise the set of URLs `add` inserted. */
  function Scrape(page: Page, images: bool, videos: bool, resolve: Extractor.Resolver): (r: Result<set<string>>)
    ensures page.exchange.TransportFailure? ==> r == Failure("GET error: " + page.exchange.err)
    ensures page.exchange.Reply? && IsBadStatus(page.exchange.code) ==>
              r == Failure("bad status: " + page.exchange.status)
    ensures page.exchange.Reply? && !IsBadStatus(page.exchange.code) && page.doc.Failure? ==>
              r == Failure("parse error: " + page.doc.error)
    ensures r.Success? <==> page.exchange.Reply? && !IsBadStatus(page.exchange.code) && page.doc.Success?
  {
    match page.exchange
    case TransportFailure(e) => Failure("GET error: " + e)
    case Reply(code, status, _, _) =>
      if IsBadStatus(code) then Failure(BadStatus(status))
      else
        match page.doc
        case Failure(e) => Failure("parse error: " + e)
        case Success(els) => Success(Collect({}, Candidates(els, images, videos), resolve))
  }

  /** The URLs returned are exactly the accepted values of the passes the
      flags switch on, whatever order `add` saw them in. */
  lemma ScrapeExact(els: seq<Extractor.Element>, exchange: Exchange, images: bool, videos: bool,
                    resolve: Extractor.Resolver)
    requires exchange.Reply? && !IsBadStatus(exchange.code)
    ensures Scrape(Page(exchange, Success(els)), images, videos, resolve) ==
              Success(Accepted(Candidates(els, images, videos), resolve))
  {
    CollectExact({}, Candidates(els, images, videos), resolve);
    assert {} + Accepted(Candidates(els, images, videos), resolve) == Accepted(Candidates(els, images, videos), resolve);
  }

  /** No result is a `data:` URI's own text: each came through `url.Parse`
      and `ResolveReference` from a value that did not start with
      "data:". */
  lemma NoInlineValues(els: seq<Extractor.Element>, exchange: Exchange, images: bool, videos: bool,
                       resolve: Extractor.Resolver, u: string)
    requires exchange.Reply? && !IsBadStatus(exchange.code)
    requires u in Scrape(Page(exchange, Success(els)), images, videos, resolve).value
    ensures exists c :: c in Candidates(els, images, videos) && TrimSpace(c) != []
              && !HasPrefix(TrimSpace(c), "data:") && resolve(TrimSpace(c)) == Some(u)
  {
    ScrapeExact(els, exchange, images, videos, resolve);
    var cs := Candidates(els, images, videos);
    var k :| 0 <= k < |cs| && Accept(cs[k], resolve).Some? && Accept(cs[k], resolve).value == u;
    assert cs[k] in cs;
  }

  /** With both flags off nothing is read and the result is empty. */
  lemma NothingRequested(els: seq<Extractor.Element>, exchange: Exchange, resolve: Extractor.Resolver)
    requires exchange.Reply? && !IsBadStatus(exchange.code)
    ensures Scrape(Page(exchange, Success(els)), false, false, resolve) == Success({})
  {
  }

  /** The two flags are independent: with both on, the result is the union
      of the image-only and the video-only results. */
  lemma FlagsUnion(els: seq<Extractor.Element>, exchange: Exchange, resolve: Extractor.Resolver)
    requires exchange.Reply? && !IsBadStatus(exchange.code)
    ensures Scrape(Page(exchange, Success(els)), true, true, resolve).value ==
              Scrape(Page(exchange, Success(els)), true, false, resolve).value
              + Scrape(Page(exchange, Success(els)), false, true, resolve).value
  {
    var img := Pass(els, ImgPassValues) + Pass(els, SourceSrcsetValues);
    var vid := Pass(els, VideoSrcValues) + Pass(els, SourceVideoValues);
    assert Candidates(els, true, false) == img + [];
    assert Candidates(els, false, true) == [] + vid;
    CollectExact({}, img + vid, resolve);
    CollectExact({}, img + [], resolve);
    CollectExact({}, [] + vid, resolve);
    AcceptedConcat(img, vid, resolve);
    assert img + [] == img;
    assert [] + vid == vid;
  }

  /** The accepted values of a concatenation are those of its parts. */
  lemma AcceptedConcat(a: seq<string>, b: seq<string>, resolve: Extractor.Resolver)
    ensures Accepted(a + b, resolve) == Accepted(a, resolve) + Accepted(b, resolve)
  {
    var ab := a + b;
    forall u | u in Accepted(ab, resolve)
      ensures u in Accepted(a, resolve) + Accepted(b, resolve)
    {
      var k :| 0 <= k < |ab| && Accept(ab[k], resolve) == Some(u);
      if k >= |a| {
        assert b[k - |a|] == ab[k];
      }
    }
    forall u | u in Accepted(b, resolve)
      ensures u in Accepted(ab, resolve)
    {
      var k :| 0 <= k < |b| && Accept(b[k], resolve) == Some(u);
      assert ab[|a| + k] == b[k];
    }
    forall u | u in Accepted(a, resolve)
      ensures u in Accepted(ab, resolve)
    {
      var k :| 0 <= k < |a| && Accept(a[k], resolve) == Some(u);
      assert ab[k] == a[k];
    }
  }

  /** A `<source>` whose `type` does not start with "video/" gives the
      video passes nothing. */
  lemma UntypedSourceIgnored(e: Extractor.Element)
    requires e.tag == "source"
    requires "type" !in e.attrs || !HasPrefix(e.attrs["type"], "video/")
    ensures VideoSrcValues(e) + SourceVideoValues(e) == []
  {
  }
}

=== FILE: text.dfy ===
/** The handful of Go `strings` and `unicode` helpers the downloader relies
    on, over Dafny strings (sequences of Unicode scalar values). */
module Text {
  import opened Wrappers

  /** Go's `unicode.IsSpace`: the Latin-1 spaces plus the Unicode
      White_Space property. */
  predicate IsSpace(c: char) {
    var n := c as int;
    n == 0x20 || 0x09 <= n <= 0x0D || n == 0x85 || n == 0xA0
    || n == 0x1680 || 0x2000 <= n <= 0x200A || n == 0x2028 || n == 0x2029
    || n == 0x202F || n == 0x205F || n == 0x3000
  }

  /** Characters matched by `\w` in Go's RE2 syntax: `[0-9A-Za-z_]`. */
  predicate IsWordChar(c: char) {
    '0' <= c <= '9' || 'A' <= c <= 'Z' || 'a' <= c <= 'z' || c == '_'
  }

  predicate AllSpace(s: string) {
    forall k :: 0 <= k < |s| ==> IsSpace(s[k])
  }

  /** Drops leading white space: the result is a suffix of `s` that does
      not start with a space, and everything dropped was a space. */
  function TrimLeft(s: string): (r: string)
    ensures |r| <= |s| && r == s[|s| - |r|..]
    ensures r == [] || !IsSpace(r[0])
    ensures forall k :: 0 <= k < |s| - |r| ==> IsSpace(s[k])
  {
    if |s| > 0 && IsSpace(s[0]) then TrimLeft(s[1..]) else s
  }

  /** Drops trailing white space: the result is a prefix of `s` that does
      not end with a space, and everything dropped was a space. */
  function TrimRight(s: string): (r: string)
    ensures |r| <= |s| && r == s[..|r|]
    ensures r == [] || !IsSpace(r[|r| - 1])
    ensures forall k :: |r| <= k < |s| ==> IsSpace(s[k])
  {
    if |s| > 0 && IsSpace(s[|s| - 1]) then TrimRight(s[..|s| - 1]) else s
  }

  /** The length of the run of white space `s` starts with. */
  function LeadingSpaces(s: string): (n: nat)
    ensures n <= |s| && AllSpace(s[..n])
    ensures n == |s| || !IsSpace(s[n])
  {
    if |s| > 0 && IsSpace(s[0]) then
      var n := 1 + LeadingSpaces(s[1..]);
      assert forall k :: 1 <= k < n ==> s[..n][k] == s[1..][..n - 1][k - 1];
      n
    else 0
  }

  /** Go's `strings.TrimSpace`. */
  function TrimSpace(s: string): (r: string)
    ensures r == [] || (!IsSpace(r[0]) && !IsSpace(r[|r| - 1]))
    ensures r == [] <==> AllSpace(s)
    ensures |r| <= |s|
  {
    var t := TrimLeft(s);
    var r := TrimRight(t);
    assert r == [] ==> t == [] by {
      assert t != [] ==> IsSpace(t[0]) || r != [];
    }
    r
  }

  /** `r` is the slice of `s` that starts at `i`, and only white space
      follows it in `s`. */
  predicate SliceThenSpace(s: string, i: nat, r: string) {
    i + |r| <= |s| && r == s[i..i + |r|] && AllSpace(s[i + |r|..])
  }

  /** `strings.TrimSpace` keeps exactly the text between the white space
      `s` starts with and the white space it ends with. */
  lemma {:induction false} TrimSpaceExact(s: string)
    ensures SliceThenSpace(s, LeadingSpaces(s), TrimSpace(s))
  {
    var t := TrimLeft(s);
    LeftPart(s);
    RightPart(t);
    Around(s, LeadingSpaces(s), t, TrimSpace(s));
  }

  /** `TrimLeft` keeps the suffix after the leading white space. */
  lemma {:induction false} LeftPart(s: string)
    ensures LeadingSpaces(s) <= |s| && TrimLeft(s) == s[LeadingSpaces(s)..]
    decreases |s|
  {
    if |s| > 0 && IsSpace(s[0]) {
      LeftPart(s[1..]);
      assert s[1..][LeadingSpaces(s[1..])..] == s[LeadingSpaces(s)..];
    }
  }

  /** A middle part cut from a suffix of `s`, followed by white space, is
      a slice of `s`. */
  lemma {:induction false} Around(s: string, i: nat, t: string, r: string)
    requires i <= |s| && t == s[i..] && |r| <= |t| && r == t[..|r|]
    requires AllSpace(t[|r|..])
    ensures SliceThenSpace(s, i, r)
  {
    var j := i + |r|;
    Slices(s, i, j);
    assert r == s[i..j] && t[|r|..] == s[j..];
  }

  /** Slicing the suffix from `i` is slicing `s` with offset `i`. */
  lemma Slices(s: string, i: nat, j: nat)
    requires i <= j <= |s|
    ensures s[i..][..j - i] == s[i..j] && s[i..][j - i..] == s[j..]
  {
  }

  /** `TrimRight` drops a run of white space from the back. */
  lemma RightPart(t: string)
    ensures var n := |TrimRight(t)|; AllSpace(t[n..]) && TrimRight(t) == t[..n]
  {
    var n := |TrimRight(t)|;
    var tail := t[n..];
    forall k | 0 <= k < |tail| ensures IsSpace(tail[k]) {
      assert tail[k] == t[n + k];
    }
  }

  /** Trimming twice is trimming once. */
  lemma TrimSpaceIdempotent(s: string)
    ensures TrimSpace(TrimSpace(s)) == TrimSpace(s)
  {
    var r := TrimSpace(s);
    if r != [] {
      assert TrimLeft(r) == r;
      assert TrimRight(r) == r;
    }
  }

  /** The independent reading of `strings.TrimSpace`: text padded on both
      sides with white space trims to the text itself, when the text
      neither starts nor ends with a space. */
  lemma TrimSpacePadded(a: string, m: string, b: string)
    requires AllSpace(a) && AllSpace(b)
    requires m == [] || (!IsSpace(m[0]) && !IsSpace(m[|m| - 1]))
    ensures TrimSpace(a + m + b) == m
  {
    var s := a + m + b;
    if m == [] {
      assert AllSpace(s) by {
        forall k | 0 <= k < |s| ensures IsSpace(s[k]) {
          if k < |a| { assert s[k] == a[k]; } else { assert s[k] == b[k - |a|]; }
        }
      }
    } else {
      assert s == a + (m + b);
      TrimLeftSpaces(a, m + b);
      TrimRightSpaces(m, b);
    }
  }

  /** Trailing white space after text that does not end with a space is
      exactly what `TrimRight` drops. */
  lemma {:induction false} TrimRightSpaces(m: string, b: string)
    requires AllSpace(b) && m != [] && !IsSpace(m[|m| - 1])
    ensures TrimRight(m + b) == m
    decreases |b|
  {
    if b == [] {
      assert m + b == m;
    } else {
      var s := m + b;
      assert s[|s| - 1] == b[|b| - 1];
      assert s[..|s| - 1] == m + b[..|b| - 1];
      TrimRightSpaces(m, b[..|b| - 1]);
    }
  }

  /** Go's `strings.HasPrefix`. */
  predicate HasPrefix(s: string, prefix: string) {
    prefix <= s
  }

  /** Go's `strings.HasSuffix`. */
  predicate HasSuffix(s: string, suffix: string) {
    |suffix| <= |s| && s[|s| - |suffix|..] == suffix
  }

  /** Go's `strings.TrimSuffix`. */
  function TrimSuffix(s: string, suffix: string): (r: string)
    ensures HasSuffix(s, suffix) ==> r + suffix == s
    ensures !HasSuffix(s, suffix) ==> r == s
  {
    if HasSuffix(s, suffix) then s[..|s| - |suffix|] else s
  }

  /** Go's `strings.Contains`: `sub` occurs somewhere in `s`. */
  predicate Contains(s: string, sub: string)
    decreases |s|
  {
    sub <= s || (|s| > 0 && Contains(s[1..], sub))
  }

  /** `Contains` holds exactly when `sub` occurs at some offset. */
  lemma {:induction false} ContainsAt(s: string, sub: string, i: nat)
    requires i + |sub| <= |s| && s[i..i + |sub|] == sub
    ensures Contains(s, sub)
    decreases i
  {
    if i > 0 {
      assert s[1..][i - 1..i - 1 + |sub|] == sub;
      ContainsAt(s[1..], sub, i - 1);
    }
  }

  /** Every string contains the empty string. */
  lemma ContainsEmpty(s: string)
    ensures Contains(s, [])
  {
  }

  /** A string that contains `sub` is at least as long as `sub`. */
  lemma {:induction false} ContainsLength(s: string, sub: string)
    requires Contains(s, sub)
    ensures |sub| <= |s|
    decreases |s|
  {
    if !(sub <= s) {
      ContainsLength(s[1..], sub);
    }
  }

  /** ASCII upper case to lower case; every other character unchanged. */
  function LowerChar(c: char): char {
    if 'A' <= c <= 'Z' then (c as int + 32) as char else c
  }

  /** Go's `strings.ToLower`, restricted to ASCII letters. */
  function ToLower(s: string): (r: string)
    ensures |r| == |s|
    ensures forall i :: 0 <= i < |s| ==> r[i] == LowerChar(s[i])
  {
    seq(|s|, i requires 0 <= i < |s| => LowerChar(s[i]))
  }

  /** Number of bytes the UTF-8 encoding of `c` takes, which is what Go's
      `len` counts for a string. */
  function CharUtf8Len(c: char): nat {
    var n := c as int;
    if n < 0x80 then 1 else if n < 0x800 then 2 else if n < 0x10000 then 3 else 4
  }

  /** Go's `len(s)` for the UTF-8 encoding of `s`. */
  function Utf8Len(s: string): (n: nat)
    ensures |s| <= n <= 4 * |s|
    ensures n == 0 <==> s == []
  {
    if s == [] then 0 else CharUtf8Len(s[0]) + Utf8Len(s[1..])
  }

  /** Every character `a` of `s` replaced by `b`, as `strings.ReplaceAll`
      does for one-character patterns. */
  function ReplaceChar(s: string, a: char, b: char): (r: string)
    ensures |r| == |s|
    ensures forall i :: 0 <= i < |s| ==> r[i] == (if s[i] == a then b else s[i])
  {
    seq(|s|, i requires 0 <= i < |s| => if s[i] == a then b else s[i])
  }

  /** Position of the first `c` in `s`. */
  function IndexOf(s: string, c: char): (i: nat)
    requires c in s
    ensures i < |s| && s[i] == c && c !in s[..i]
  {
    if s[0] == c then 0 else 1 + IndexOf(s[1..], c)
  }

  /** The inverse of `Split`: the parts glued together with `sep`. */
  function Join(parts: seq<string>, sep: char): string
    requires |parts| >= 1
  {
    if |parts| == 1 then parts[0] else parts[0] + [sep] + Join(parts[1..], sep)
  }

  /** Go's `strings.Split(s, sep)` for a one-character separator: never
      empty, no part holds the separator, and joining the parts gives `s`. */
  function Split(s: string, sep: char): (parts: seq<string>)
    ensures |parts| >= 1
    ensures forall i :: 0 <= i < |parts| ==> sep !in parts[i]
    ensures Join(parts, sep) == s
    decreases |s|
  {
    if sep in s then
      var i := IndexOf(s, sep);
      var rest := Split(s[i + 1..], sep);
      assert s == s[..i] + [sep] + s[i + 1..];
      [s[..i]] + rest
    else
      [s]
  }

  /** `IndexOf` finds the first occurrence and no other. */
  lemma {:induction false} IndexOfFirst(s: string, c: char, i: nat)
    requires i < |s| && s[i] == c && c !in s[..i]
    ensures c in s && IndexOf(s, c) == i
    decreases i
  {
    if i > 0 {
      assert s[0] == s[..i][0];
      assert s[1..][..i - 1] == s[1..i];
      assert forall k :: 0 <= k < i - 1 ==> s[1..i][k] == s[..i][k + 1];
      IndexOfFirst(s[1..], c, i - 1);
    }
  }

  /** The first separator in `a + [sep] + b` is the one after `a` when `a`
      holds none. */
  lemma IndexOfAfterPrefix(a: string, sep: char, b: string)
    requires sep !in a
    ensures sep in a + [sep] + b
    ensures IndexOf(a + [sep] + b, sep) == |a|
  {
    var s := a + [sep] + b;
    assert s[..|a|] == a;
    IndexOfFirst(s, sep, |a|);
  }

  /** Splitting a join of separator-free parts recovers the parts. */
  lemma {:induction false} SplitJoin(parts: seq<string>, sep: char)
    requires |parts| >= 1
    requires forall i :: 0 <= i < |parts| ==> sep !in parts[i]
    ensures Split(Join(parts, sep), sep) == parts
    decreases |parts|
  {
    if |parts| == 1 {
      assert sep !in Join(parts, sep);
    } else {
      var a, tail := parts[0], Join(parts[1..], sep);
      var s := a + [sep] + tail;
      assert Join(parts, sep) == s;
      IndexOfAfterPrefix(a, sep, tail);
      assert s[..|a|] == a;
      assert s[|a| + 1..] == tail;
      SplitJoin(parts[1..], sep);
      assert Split(s, sep) == [a] + Split(tail, sep);
      assert parts == [a] + parts[1..];
    }
  }

  /** Number of leading non-space characters. */
  function SpanNonSpace(s: string): (n: nat)
    ensures n <= |s|
    ensures NoSpace(s[..n])
    ensures n == |s| || IsSpace(s[n])
  {
    if s == [] || IsSpace(s[0]) then 0
    else
      var n := 1 + SpanNonSpace(s[1..]);
      assert s[..n] == [s[0]] + s[1..][..n - 1];
      n
  }

  /** No character of `s` is a space. */
  predicate NoSpace(s: string) {
    forall k :: 0 <= k < |s| ==> !IsSpace(s[k])
  }

  /** Trimming the left leaves nothing exactly when all is space. */
  lemma TrimLeftEmpty(s: string)
    ensures TrimLeft(s) == [] <==> AllSpace(s)
  {
    var t := TrimLeft(s);
    if t != [] {
      assert s[|s| - |t|] == t[0];
    }
  }

  /** Leading white space before a text that starts with a non-space is
      exactly what `TrimLeft` drops. */
  lemma {:induction false} TrimLeftSpaces(lead: string, s: string)
    requires AllSpace(lead) && (s == [] || !IsSpace(s[0]))
    ensures TrimLeft(lead + s) == s
    decreases |lead|
  {
    if lead != [] {
      assert (lead + s)[1..] == lead[1..] + s;
      TrimLeftSpaces(lead[1..], s);
    } else {
      assert lead + s == s;
    }
  }

  /** `TrimRight` keeps a prefix that ends in a non-space, and what it
      keeps beyond that prefix starts as the rest does. */
  lemma TrimRightKeeps(u: string, rest: string)
    requires u != [] && !IsSpace(u[|u| - 1])
    ensures |u| <= |TrimRight(u + rest)|
    ensures TrimRight(u + rest)[..|u|] == u
    ensures |u| < |TrimRight(u + rest)| ==> TrimRight(u + rest)[|u|] == rest[0]
  {
    var x := u + rest;
    var r := TrimRight(x);
    assert x[|u| - 1] == u[|u| - 1];
    assert r[..|u|] == x[..|u|];
    if |u| < |r| {
      assert r[|u|] == x[|u|];
    }
  }

  /** The first field of a text that starts with the space-free word `u`,
      followed by a space or nothing, is `u`. */
  lemma FirstFieldWord(t: string, u: string)
    requires u != [] && NoSpace(u) && |u| <= |t| && t[..|u|] == u
    requires |u| == |t| || IsSpace(t[|u|])
    ensures FirstField(t) == Some(u)
  {
    assert t[0] == u[0];
    assert TrimLeft(t) == t;
    assert FirstField(t).value == t[..|u|];
  }

  /** `strings.Fields(s)[0]` when `Fields` finds a field: the first maximal
      run of non-space characters. */
  function FirstField(s: string): (r: Option<string>)
    ensures r.None? <==> AllSpace(s)
    ensures r.Some? ==> r.value != [] && NoSpace(r.value)
    ensures r.Some? ==> var t := TrimLeft(s);
      r.value <= t && (|r.value| == |t| || IsSpace(t[|r.value|]))
  {
    var t := TrimLeft(s);
    TrimLeftEmpty(s);
    if t == [] then
      None
    else
      var n := SpanNonSpace(t);
      assert 1 <= n;
      Some(t[..n])
  }
}

=== FILE: wrappers.dfy ===
/** Optional values and results with an error message, as the downloader's
    Go functions return `(T, error)` pairs or a bare `error`. */
module Wrappers {

  datatype Option<+T> = None | Some(value: T)

  /** `Failure` carries the text of the Go error value (`err.Error()`). */
  datatype Result<+T> = Success(value: T) | Failure(error: string)

  /** A byte, as Go's `byte`. */
  type Byte = x: int | 0 <= x < 256

  /** The strings present in `opts`, in order. */
  function Somes(opts: seq<Option<string>>): (vs: seq<string>)
    ensures |vs| <= |opts|
  {
    if opts == [] then []
    else (if opts[0].Some? then [opts[0].value] else []) + Somes(opts[1..])
  }

  /** `Somes` keeps exactly the present values. */
  lemma {:induction false} SomesExact(opts: seq<Option<string>>)
    ensures forall x :: x in Somes(opts) <==> exists k :: 0 <= k < |opts| && opts[k] == Some(x)
    decreases |opts|
  {
    if opts != [] {
      SomesExact(opts[1..]);
      forall x | x in Somes(opts)
        ensures exists k :: 0 <= k < |opts| && opts[k] == Some(x)
      {
        if !(opts[0] == Some(x)) {
          var k :| 0 <= k < |opts[1..]| && opts[1..][k] == Some(x);
          assert opts[k + 1] == Some(x);
        }
      }
      forall x, k | 0 <= k < |opts| && opts[k] == Some(x)
        ensures x in Somes(opts)
      {
        if k > 0 {
          assert opts[1..][k - 1] == Some(x);
        }
      }
    }
  }

  /** No value is present exactly when every entry is `None`. */
  lemma {:induction false} SomesEmpty(opts: seq<Option<string>>)
    ensures Somes(opts) == [] <==> forall k :: 0 <= k < |opts| ==> opts[k].None?
    decreases |opts|
  {
    if opts != [] {
      SomesEmpty(opts[1..]);
      assert forall k :: 1 <= k < |opts| ==> opts[1..][k - 1] == opts[k];
    }
  }
}
